=== FILE: README.md ===
# Karaoke song book generator — Dafny model

`make_documents.py` turns a karaoke spreadsheet into a song book. Each worksheet of the workbook is one section, such as "Anime" or "Suomi". Each row of a worksheet is a song with a title, an artist and a source; the source is an anime, film or show.

The script renders the book in two formats:

- **HTML.** One `<h2>` per section. Within a section, one `<h3>` per named source, and one `<ul>` of `<li>` items per source group.
- **Typst.** A fixed preamble, then the sections separated by page breaks. Small source groups are wrapped in unbreakable blocks, and large sections are set in three columns. The book ends with an alphabetical index of every title, bucketed by first letter.

This project models that transformation as pure Dafny functions over an in-memory workbook, and proves what the script promises about it.

The modules follow the script's structure:

| module | file | models |
|---|---|---|
| `Strings` | strings.dfy | ASCII `lower`/`upper`/`isalpha`, Python string order, `str.replace`, `"\n".join` |
| `Sorting` | sorting.dfy | Python's stable `sort(key=…)`, specified by `StableSortOf` and implemented as an insertion sort |
| `Workbook` | workbook.dfy | the workbook as named sheets of optional string cells; `parse_sheet`; `get_sheets_to_process`; `DEFAULT_ORDER` |
| `Grouping` | grouping.dfy | `group_songs_by_source`: the dictionary fold and both sorts |
| `HtmlRender` | html.dfy | `html.escape`, `format_song_html`, `generate_html` |
| `TypstEscape` | typst_escape.dfy | `escape_typst` |
| `TypstLines` | typst_lines.dfy | block structure of Typst output: opener lines `#…[`, closer lines `]` |
| `AlphaIndex` | index.dfy | `generate_alphabetical_index` |
| `TypstRender` | typst.dfy | `format_song_typst`, `TYPST_PREAMBLE`, `generate_typst`, and the line join in `main` |

Several members are not derived from their own bodies. Each one is connected to an independent partner:

- **Grouping.** The dictionary fold (`Collect`) is proved equal to a first-seen reference view (`Reference`). `GroupBySource` is then specified by `StableSortOf` against that reference.
- **Escaping.**
  - `EscapeTypst` runs the script's three passes, and is proved equal to a one-pass scan (`DirectEscape`).
  - An unescaper inverts it: `EscapeTypstRoundTrip`.
  - `HtmlEscape` has its own inverse, `HtmlUnescape`.
- **Bracket structure.** Every Typst line sequence is proved `Balanced`: every opener line has a later matching `]` line.
- **Index.** The index loop is proved equal to two stages: adjacent-repeat removal (`DropRepeats`), then letter bucketing (`Headed`).

Two behaviours of the index are modelled as written, and illustrated by example lemmas:

- **Only adjacent repeats are dropped.** Entries are sorted by title alone, so the same title by the same artist can be separated by another artist. `AlphaIndex.NonAdjacentRepeatKept` shows `("x","A")`, `("x","B")`, `("X","a")` keeping all three rows.
- **The `#` bucket can open more than once.** Titles starting with a digit sort before the letters, and titles starting with `~` sort after them. `AlphaIndex.HashBucketTwice` shows the `#` header cell appearing twice.

## Model

| member | source | states |
|---|---|---|
| Workbook.ColumnOf | make_documents.py:29-31 | A column index is absent exactly when the name is not in the header. When present, it points at the name, and no earlier header cell matches (`list.index` takes the first match). |
| Workbook.TitledRows | make_documents.py:34-39 | The kept rows are exactly the data rows with a present, non-empty title cell. Every kept row has a title. The result is a subsequence of the rows, so row order is kept. Every titled row is kept as many times as it occurs, and no other row is kept. |
| Workbook.NoTitleColumnNoRows | make_documents.py:30-38 | Without a title column, no data row is kept. |
| Workbook.ParseRows | make_documents.py:34-39 | There is one record per titled row, in row order. The title is taken from the cell. A missing artist or source, whether an absent column or an empty cell, becomes `""`. |
| Workbook.ParseSheet | make_documents.py:22-40 | No rows gives no records. A header without `title` gives no records. Otherwise there is exactly one record per titled data row after the header, in order, with every title non-empty. |
| Workbook.ParseSheetExample | make_documents.py:22-40 | A header `Title, ARTIST` in another order is matched case-insensitively. An empty-title row is skipped, and a short row gets an empty artist. |
| Workbook.SheetsToProcess | make_documents.py:43-52 | The output holds exactly the workbook's names. It starts with the priority names present in the workbook, in priority order, repeats included. For distinct sheet names, the rest is the other sheet names in workbook order. |
| Workbook.SheetsToProcessIsPermutation | make_documents.py:43-52 | With distinct priority names and distinct sheet names, the output is a permutation of the sheet names. |
| Workbook.SheetsToProcessExample | make_documents.py:43-52 | `["Muut","Anime","Extra"]` with the default order gives `["Anime","Muut","Extra"]`. |
| Workbook.Lookup | make_documents.py:86 | `wb[name]` returns a sheet of the workbook carrying that name. |
| Workbook.Sections | make_documents.py:82-87 | There is one section per name to process, in processing order, each holding the records parsed from the sheet of that name. |
| Strings.Lower | make_documents.py:62 | Lower-casing keeps the length and maps every character through the ASCII lower-case map. |
| Strings.LexLeTotal | make_documents.py:63 | Python's string order is total. |
| Strings.LexLeTransitive | make_documents.py:63 | Python's string order is transitive. |
| Strings.LexLeAntisymmetric | make_documents.py:63 | Python's string order is antisymmetric. |
| Strings.ReplaceAll | make_documents.py:113-114 | `str.replace` leaves a string without the pattern unchanged. |
| Strings.ReplaceFirstMatch | make_documents.py:113-114 | At the first occurrence of the pattern, the text before it is copied, the occurrence becomes the replacement, and the scan resumes right after it. With the no-match case, this fixes `str.replace` completely, non-overlapping matches included. |
| Strings.JoinLines | make_documents.py:102 | Joining no lines gives `""`, and joining one line gives that line. Otherwise the joined text starts with the first line. |
| Strings.JoinLinesAppend | make_documents.py:102 | Joining two non-empty runs of lines gives the two joined runs with exactly one newline between them. |
| Sorting.InsertBy | make_documents.py:62 | Inserting into a sorted list keeps it sorted, adds exactly the new element, and places it first among equal keys. |
| Sorting.SortBy | make_documents.py:61-63 | The sort returns a permutation, ascending by key, in which elements with equal keys keep their input order (`StableSortOf`). |
| Sorting.EqualKeysKeepOrder | make_documents.py:62-63 | A stable sort of elements that all share one key returns them unchanged. |
| Sorting.SortTwo | make_documents.py:62 | Of two elements, the second is put first when its key sorts strictly before the first's. |
| Sorting.SortTwoEqual | make_documents.py:63 | Two elements with equal keys keep their input order. |
| Grouping.Reference | make_documents.py:57-59 | The reference view has one group per distinct source, in first-seen order. Each group holds that source's (artist, title) pairs in input order. |
| Grouping.SourcesMembers | make_documents.py:58-59 | A key is a source of the reference exactly when some song has that source. |
| Grouping.SourcesDistinct | make_documents.py:57-59 | Dictionary keys are distinct. |
| Grouping.BucketMembers | make_documents.py:58-59 | A pair is in source `k`'s bucket exactly when some song with source `k` projects to it. |
| Grouping.BucketOfSourceNonEmpty | make_documents.py:58-59 | Every source's bucket is non-empty. |
| Grouping.AddSongKeys | make_documents.py:58-59 | For any dictionary, one `by_source[source].append` (`AddSong`) keeps every existing key in its place and makes the song's source a key. It adds a new group exactly when that key was missing. |
| Grouping.Collect | make_documents.py:57-59 | The loop keeps the keys it starts with in their insertion order, and every song's source ends up a key. |
| Grouping.AddSongEffect | make_documents.py:58-59 | Adding a song appends it to the group of its source when that group exists; otherwise a new group is added at the end. |
| Grouping.AddSongToReference | make_documents.py:58-59 | One step of the fold turns the reference of a prefix into the reference of the prefix extended by one song. |
| Grouping.CollectFromReference | make_documents.py:58-59 | Folding the remaining songs into the reference of a prefix gives the reference of the whole list. |
| Grouping.CollectIsReference | make_documents.py:57-59 | The `defaultdict` fold equals the first-seen reference view. |
| Grouping.SortEach | make_documents.py:61-62 | Sorting each group keeps the keys, and each group becomes a stable sort of itself by lower-cased artist. |
| Grouping.GroupBySource | make_documents.py:55-63 | Every group is non-empty. Each group is a stable sort, by lower-cased artist, of exactly the songs with that source. The group keys are a stable sort, by lower-cased source, of the first-seen sources. |
| Grouping.KeysOfStableSort | make_documents.py:63 | Sorting the groups by lower-cased source sorts their keys the same way. |
| Grouping.GroupBySourceKeepsSongs | make_documents.py:55-63 | Concatenating the groups gives a permutation of the input projected to (artist, title). |
| Grouping.GroupKeysAreSources | make_documents.py:57-63 | Group keys are distinct, and a key occurs exactly when some song has that source. |
| Grouping.CaseVariantSourcesExample | make_documents.py:63 | Sources `foo` and `Foo` form two groups, kept in first-seen order. |
| Grouping.ArtistOrderExample | make_documents.py:62 | Within a group, `ada` sorts before `Zeta`: the sort ignores case. |
| Grouping.OneSourceSwapped | make_documents.py:55-63 | Two songs from one source whose artists are out of order, ignoring case, form one group in which they are swapped. |
| Grouping.GroupCaptionsKept | make_documents.py:55-63 | The multiset of displayed captions survives grouping. |
| HtmlRender.HtmlEscape | make_documents.py:72 | `html.escape` with quotes on maps each single character to its entity: `&`, `<`, `>`, `"` and `'` become `&amp;`, `&lt;`, `&gt;`, `&quot;` and `&#x27;`, and other characters are kept. With `HtmlEscapeAppend` this fixes the whole text. The escaped text never shrinks and contains no `<` or `>`. |
| HtmlRender.HtmlRoundTrip | make_documents.py:72 | Unescaping escaped text gives the text back. |
| HtmlRender.HtmlEscapeAppend | make_documents.py:72 | Escaping works character by character: it distributes over concatenation. |
| HtmlRender.HtmlEscapePlain | make_documents.py:72 | Text without `& < > " '` is unchanged by escaping. |
| HtmlRender.FormatSongHtml | make_documents.py:69-73 | The item is exactly `<li>`, then `html.escape` of the caption `artist – title` (just the title when the artist is empty), then `</li>`. Its inner text unescapes to the caption and contains no markup brackets. |
| HtmlRender.HtmlEscapeExample | make_documents.py:72 | `<b>Bob</b>` escapes to `&lt;b&gt;Bob&lt;/b&gt;`. |
| HtmlRender.EscapeTagged | make_documents.py:72 | A tag pair around text without markup characters becomes entity-quoted tags, and the text is unchanged. |
| HtmlRender.AmpersandExample | make_documents.py:72 | `Rock & Roll` escapes to `Rock &amp; Roll`. |
| HtmlRender.FormatSongHtmlExample | make_documents.py:69-72 | Artist `<b>Bob</b>` with title `Rock & Roll` gives `<li>&lt;b&gt;Bob&lt;/b&gt; – Rock &amp; Roll</li>`. |
| HtmlRender.ItemLines | make_documents.py:98-99 | Line i is exactly `format_song_html` of song i, so there is one `<li>` line per song, with the songs' captions in order, and no list or `<h3>` lines. |
| HtmlRender.HtmlGroup | make_documents.py:94-100 | A group is the line `<h3>` + escaped source + `</h3>` when the source is non-empty (and nothing otherwise), then `<ul>`, then one item line per song in the group's order, then `</ul>`. The heading unescapes to the source; there is exactly one `<h3>`, `<ul>` and `</ul>` each. |
| HtmlRender.HtmlGroups | make_documents.py:93-100 | The items of all groups carry the concatenated groups' captions. |
| HtmlRender.HtmlSection | make_documents.py:85-100 | A section without songs emits nothing. Otherwise it starts with its escaped `<h2>` heading, and its items carry the captions of the grouped songs in exactly the grouped order: groups sorted by source, songs by artist. These are a permutation of the section's captions. |
| HtmlRender.HtmlLines | make_documents.py:85-102 | The output is empty exactly when no section has songs. There is one item per song over all sections. |
| HtmlRender.HtmlLinesAreSections | make_documents.py:85-100 | The page lines are the blocks of exactly the worksheets that have songs, in processing order, one after another with nothing between them. |
| HtmlRender.GenerateHtml | make_documents.py:76-102 | The page is empty exactly when the workbook holds no song; otherwise it opens with an `<h2>` worksheet heading. |
| HtmlRender.FirstLineNonEmpty | make_documents.py:85-91 | Empty worksheets are skipped, so a non-empty page's first line is the `<h2>` heading of the first worksheet that has songs. |
| HtmlRender.GenerateHtmlLayout | make_documents.py:76-102 | The page is the newline join of the non-empty worksheets' blocks, in processing order. |
| TypstEscape.EscapeClass | make_documents.py:111 | On one character, the character-class pass writes `\` and the character when it is one of the nine special characters, and the character alone otherwise. The empty string stays empty. |
| TypstEscape.EscapeClassAppend | make_documents.py:111 | The class pass distributes over concatenation. With the one-character case, every special character anywhere in the text gets one `\` in front, and nothing else changes. |
| TypstEscape.DirectEscapeAppend | make_documents.py:108-115 | Escaping distributes over a concatenation whose second part does not start with `/`, because no `//` can straddle the seam. |
| TypstEscape.EscapeTypst | make_documents.py:108-115 | The three passes equal a single left-to-right scan. That scan prefixes each special character with `\` and rewrites each non-overlapping `//` as `/\/`. The output never contains `/*`. |
| TypstEscape.EscapeMatchesDirect | make_documents.py:111-113 | The class pass followed by the `//` replacement equals the one-pass scan. |
| TypstEscape.DirectEscapeGuardsStars | make_documents.py:111 | After escaping, every `*` is preceded by `\`. |
| TypstEscape.GuardedHasNoBlockComment | make_documents.py:114 | Text whose stars are all preceded by `\` contains no `/*`, so the block-comment replacement never fires. |
| TypstEscape.EscapeTypstRoundTrip | make_documents.py:108-115 | Unescaping the escaped text gives the text back: escaping loses nothing. |
| TypstEscape.UnescapeAfterEscape | make_documents.py:108-115 | Unescaping escaped text followed by any suffix gives the original text followed by the unescaped suffix. |
| TypstEscape.PlainUnchanged | make_documents.py:108-115 | A string with no special character and no `//` is returned unchanged. |
| TypstEscape.EscapeTypstExamples | make_documents.py:111-114 | `a*b` becomes `a\*b`. `///` becomes `/\//`, which still contains `//`. |
| TypstLines.WrapIf | make_documents.py:230-243 | Wrapping puts the body between the opener line and a `]` line, and a balanced body gives a balanced block. Without wrapping, the body is returned as it is. |
| AlphaIndex.LetterOf | make_documents.py:172-173 | An alphabetic first character gives its upper-case letter. An empty title or a non-alphabetic first character gives `#`. |
| AlphaIndex.LetterOfLower | make_documents.py:172-173 | Lower-casing a title does not change its bucket. |
| AlphaIndex.DropRepeatsSelects | make_documents.py:164-169 | Repeat removal (`DropRepeats`) returns the entries at exactly the positions whose case-insensitive (title, artist) key differs from the key of the entry before. They keep their input order and multiplicity, and a repeat of its predecessor is dropped. |
| AlphaIndex.DropRepeatsSpec | make_documents.py:164-169 | The result is that selection by position. Every entry whose key differs from its predecessor's is kept, kept entries come from the input, and neighbouring kept entries have different keys. |
| AlphaIndex.DropRepeatsSorted | make_documents.py:149-169 | Dropping repeats from a title-sorted list keeps it title-sorted. |
| AlphaIndex.HeadedRows | make_documents.py:174-184 | Bucketing emits exactly one row per kept entry, in order. |
| AlphaIndex.HeadedBucketed | make_documents.py:174-176 | Every row is preceded by the header cell of its bucket. A header cell is emitted exactly when the bucket changes, and is followed by a row of that bucket. |
| AlphaIndex.IndexLoop | make_documents.py:163-184 | The loop equals repeat removal followed by bucketing. |
| AlphaIndex.IndexItemsSpec | make_documents.py:149-184 | The entries are a stable sort by lower-cased title. The rows are the kept entries, sorted and in order, and the header cells follow the bucket rule. |
| AlphaIndex.RenderItem | make_documents.py:176-184 | A letter header renders as `  table.cell(colspan: 2, …)[#text(weight: "bold")[` + escaped letter + `]],`. A row renders as `  [title], [artist],` with both escaped. Every index line is indented. |
| AlphaIndex.EmptyArtistRow | make_documents.py:180-184 | A row without an artist renders as `  [title], [],`. |
| AlphaIndex.LetterCellText | make_documents.py:172-176 | The header line of a title's bucket shows the upper-cased first letter, or `\#` for the `#` bucket. |
| AlphaIndex.RenderItems | make_documents.py:174-184 | There is one line per item, and none of them opens or closes a block. |
| AlphaIndex.IndexLines | make_documents.py:143-187 | No entries give no lines. Otherwise the output is the fixed prologue, one line per item, then the epilogue. The lines are balanced, and no line is a long directive. |
| AlphaIndex.RepeatDropped | make_documents.py:166-168 | `("Abc","X")` followed by `("abc","x")` keeps only the first. |
| AlphaIndex.NonAdjacentRepeatKept | make_documents.py:165-169 | A repeat separated by another artist is not dropped. |
| AlphaIndex.HashBucketTwice | make_documents.py:171-176 | Titles `1`, `b`, `~` are sorted, yet the `#` header appears twice. |
| TypstRender.FormatSongTypst | make_documents.py:118-122 | The line starts with `- `. The rest is `escape_typst` of the caption `artist – title`, or of just the title when the artist is empty, and it unescapes to that caption. |
| TypstRender.FormatSongTypstExample | make_documents.py:118-122 | Title `C#` without an artist gives `- C\#`. |
| TypstRender.SongLines | make_documents.py:239-240 | Line i is exactly `format_song_typst` of song i (`MapSeq(SongLine, songs)`), so the songs' captions appear in order and there is no source heading. |
| TypstRender.SourceHeading | make_documents.py:235-237 | A non-empty source gives two lines. The first is `== ` followed by the escaped source, which unescapes to the source. The second is blank. An empty source gives nothing. |
| TypstRender.TypstGroup | make_documents.py:229-244 | A group is wrapped in `#block(breakable: false)[` exactly when it has fewer than 30 songs. It has one source heading exactly when its source is non-empty, its song lines carry its captions, and it is balanced. |
| TypstRender.TypstGroupLayout | make_documents.py:229-244 | The source heading and the song lines sit between `#block(breakable: false)[` and `]` when the group has fewer than 30 songs, and stand alone otherwise. A blank line ends the group. |
| TypstRender.GroupsLines | make_documents.py:229-244 | All groups' song lines carry the concatenated captions, and the lines are balanced. |
| TypstRender.SectionLines | make_documents.py:221-248 | A section starts with its escaped `=` heading. It opens `#columns(3, gutter: 1cm)[` exactly when it has 100 songs or more. Its song lines carry the captions of the grouped songs in exactly the grouped order, a permutation of its captions, and it is balanced. The groups' lines sit between the columns opener and `]` when there are 100 songs or more, then a blank line ends the section. |
| TypstRender.TypstSections | make_documents.py:203-248 | The sections emit nothing exactly when no section has songs, and the lines are balanced. |
| Workbook.NonEmptySections | make_documents.py:204-208 | Exactly the sections with songs are rendered, in processing order. The kept sections are a subsequence of all sections, each section with songs is kept as often as it occurs, and the kept sections hold every song. |
| TypstRender.SectionsAreJoined | make_documents.py:214-219 | The emitted sections are the blocks of the non-empty sections, with `#pagebreak()` before each block except the first. |
| TypstRender.SectionEntries | make_documents.py:211-212 | Each song of a section contributes `(title, artist, section name)`. |
| TypstRender.CollectIndex | make_documents.py:211-212 | The index receives one entry per song of all sections. |
| TypstRender.CollectIndexHasSong | make_documents.py:211-212 | Every song of every section reaches the index as `(title, artist, section)`. |
| TypstRender.CollectIndexOnlySongs | make_documents.py:211-212 | Every index entry comes from a song of some section. |
| TypstRender.PreambleShape | make_documents.py:125-140 | The preamble is one long directive ending in a newline. It neither opens nor closes a block by itself. |
| TypstRender.GenerateTypst | make_documents.py:190-251 | The document starts with the preamble and contains it exactly once. It is balanced, and it is the preamble alone exactly when the workbook holds no song. |
| TypstRender.GenerateTypstLayout | make_documents.py:190-251 | The document is the preamble, then the page-break-joined section blocks, then the index of all songs. |
| TypstRender.TypstText | make_documents.py:292 | The joined Typst text starts with the preamble. After it comes a newline and the join of the remaining lines, unless the preamble is the only line. |

## Left out

- Reading the spreadsheet file (`load_workbook`) is not modelled. The workbook is given as a sequence of named sheets whose cells are absent or hold a string.
- Non-string cell values (numbers, dates) are not modelled, so `str(h)` on a header cell is the identity here.
- Cells past the end of a short row read as absent. The spreadsheet reader pads every row to the sheet's width.
- Case mapping and `isalpha` are modelled on ASCII only. Python's Unicode case tables are not modelled.
- The index's repeat key compares the lower-cased repr of the tuple `(title, artist)`. It is modelled as the pair `(lower(title), lower(artist))`. The quoting and escape sequences that repr adds are not modelled.
- `TYPST_PREAMBLE` is reproduced verbatim as one element of the line sequence. The proofs use only its shape (`PreambleShape`): it starts with `#`, is at least 64 characters long, and ends in a newline.
- `main` is not modelled, except for the final `"\n".join` of the Typst lines (`TypstText`). Argument parsing, the choice of output file, writing the file and the confirmation message are I/O.
- `main` replaces an empty `--order` list by the default order. That is argument handling. The renderers are modelled with an optional order, where a missing order means the default.
- TypstLines.WrapIf: balance is stated over lines, meaning opener lines `#…[` against closer lines `]`, not over characters. `escape_typst` does not escape `[` or `]` in user text, so the brackets are not balanced character by character when a title contains an unmatched `[`.
- TypstRender.GenerateTypst: the claim that the preamble occurs once rests on every other line being short or not a directive. The document's text is not searched for the preamble as a substring.
- The HTML page and the Typst document are stated by their line structure: the blocks of the worksheets that have songs, in order (`GenerateHtmlLayout`, `GenerateTypstLayout`), each block given by its heading, groups and item lines. No byte-exact comparison with a complete expected document is made for a concrete workbook.

=== FILE: grouping.dfy ===
/**
 `group_songs_by_source`: a section's records are collected into one list
 per source in a dictionary (which remembers the order in which sources were
 first seen), each list is stably sorted by lower-cased artist, and the
 (source, list) pairs are stably sorted by lower-cased source.

 The reference definitions Sources and Bucket describe the dictionary's
 contents without its loop; Collect is the loop as written, and
 CollectIsReference connects the two.
 */
module Grouping {
  import opened Strings
  import opened Sorting
  import opened Workbook

  /** An (artist, title) pair as a group lists it. */
  datatype Entry = Entry(artist: string, title: string)

  /** One source with the songs from it. */
  datatype Group = Group(source: string, songs: seq<Entry>)

  function EntryOf(s: Song): Entry {
    Entry(s.artist, s.title)
  }

  /** The separator between artist and title on a list line: " – ". */
  const Dash: string := " \U{2013} "

  /** The text a list line shows for a song, before escaping:
      "artist – title", or just the title when there is no artist. */
  function Caption(e: Entry): string {
    if e.artist != "" then e.artist + Dash + e.title else e.title
  }

  function ArtistKey(e: Entry): string {
    Lower(e.artist)
  }

  function SourceKey(g: Group): string {
    Lower(g.source)
  }

  // ---------------------------------------------------------------------
  // Reference view of the dictionary
  // ---------------------------------------------------------------------

  /** The distinct sources of `songs`, in the order they are first seen. */
  function Sources(songs: seq<Song>): (r: seq<string>)
    decreases |songs|
  {
    if songs == [] then []
    else
      var before := Sources(songs[..|songs| - 1]);
      var k := songs[|songs| - 1].source;
      if k in before then before else before + [k]
  }

  /** The (artist, title) pairs of the songs whose source is `k`, in order. */
  function Bucket(songs: seq<Song>, k: string): (r: seq<Entry>)
    decreases |songs|
  {
    if songs == [] then []
    else
      var last := songs[|songs| - 1];
      Bucket(songs[..|songs| - 1], k) + (if last.source == k then [EntryOf(last)] else [])
  }

  /** Every song projected to its (artist, title) pair. */
  function Project(songs: seq<Song>): (r: seq<Entry>)
    ensures |r| == |songs|
    ensures forall i :: 0 <= i < |songs| ==> r[i] == EntryOf(songs[i])
  {
    seq(|songs|, i requires 0 <= i < |songs| => EntryOf(songs[i]))
  }

  function Keys(groups: seq<Group>): (r: seq<string>)
    ensures |r| == |groups|
    ensures forall i :: 0 <= i < |groups| ==> r[i] == groups[i].source
  {
    seq(|groups|, i requires 0 <= i < |groups| => groups[i].source)
  }

  /** The dictionary as a list of groups, one per source in first-seen order. */
  function Reference(songs: seq<Song>): (r: seq<Group>)
    ensures Keys(r) == Sources(songs)
    ensures forall i :: 0 <= i < |r| ==> r[i].songs == Bucket(songs, r[i].source)
  {
    var ks := Sources(songs);
    seq(|ks|, i requires 0 <= i < |ks| => Group(ks[i], Bucket(songs, ks[i])))
  }

  lemma {:induction false} SourcesMembers(songs: seq<Song>)
    ensures forall k :: k in Sources(songs) <==> exists j :: 0 <= j < |songs| && songs[j].source == k
    decreases |songs|
  {
    if songs != [] {
      var init := songs[..|songs| - 1];
      SourcesMembers(init);
      forall k ensures k in Sources(songs) <==> exists j :: 0 <= j < |songs| && songs[j].source == k
      {
        if k in Sources(init) {
          var j :| 0 <= j < |init| && init[j].source == k;
          assert songs[j].source == k;
        }
        if j :| 0 <= j < |songs| && songs[j].source == k {
          if j < |init| {
            assert init[j].source == k;
          }
        }
      }
    }
  }

  lemma {:induction false} SourcesDistinct(songs: seq<Song>)
    ensures Distinct(Sources(songs))
    decreases |songs|
  {
    if songs != [] {
      SourcesDistinct(songs[..|songs| - 1]);
    }
  }

  /** A song is in the bucket of `k` exactly when some song with source `k`
      has that artist and title. */
  lemma {:induction false} BucketMembers(songs: seq<Song>, k: string)
    ensures forall e :: e in Bucket(songs, k) <==>
              exists j :: 0 <= j < |songs| && songs[j].source == k && EntryOf(songs[j]) == e
    decreases |songs|
  {
    if songs != [] {
      var init := songs[..|songs| - 1];
      BucketMembers(init, k);
      forall e ensures e in Bucket(songs, k) <==>
                 exists j :: 0 <= j < |songs| && songs[j].source == k && EntryOf(songs[j]) == e
      {
        if e in Bucket(init, k) {
          var j :| 0 <= j < |init| && init[j].source == k && EntryOf(init[j]) == e;
          assert songs[j] == init[j];
        }
        if j :| 0 <= j < |songs| && songs[j].source == k && EntryOf(songs[j]) == e {
          if j < |init| {
            assert init[j] == songs[j];
          }
        }
      }
    }
  }

  lemma {:induction false} BucketOfSourceNonEmpty(songs: seq<Song>, k: string)
    requires k in Sources(songs)
    ensures Bucket(songs, k) != []
  {
    SourcesMembers(songs);
    BucketMembers(songs, k);
    var j :| 0 <= j < |songs| && songs[j].source == k;
    assert EntryOf(songs[j]) in Bucket(songs, k);
  }

  // ---------------------------------------------------------------------
  // The dictionary loop as written
  // ---------------------------------------------------------------------

  /** `by_source[source].append((artist, title))` on the dictionary kept as a
      list of groups in insertion order. */
  function AddSong(groups: seq<Group>, s: Song): (r: seq<Group>)
    decreases |groups|
  {
    if groups == [] then [Group(s.source, [EntryOf(s)])]
    else if groups[0].source == s.source then
      [Group(groups[0].source, groups[0].songs + [EntryOf(s)])] + groups[1..]
    else [groups[0]] + AddSong(groups[1..], s)
  }

  /** Whatever the dictionary, AddSong keeps every existing key in its place,
      makes the song's source a key, and adds a group exactly when that key
      was missing (a `defaultdict` creates the list on first use). */
  lemma {:induction false} AddSongKeys(groups: seq<Group>, s: Song)
    ensures var r := AddSong(groups, s);
            && |groups| <= |r| <= |groups| + 1
            && (forall i :: 0 <= i < |groups| ==> r[i].source == groups[i].source)
            && s.source in Keys(r)
            && (|r| == |groups| + 1 <==> s.source !in Keys(groups))
    decreases |groups|
  {
    var r := AddSong(groups, s);
    if groups == [] || groups[0].source == s.source {
      assert Keys(r)[0] == s.source;
    } else {
      AddSongKeys(groups[1..], s);
      KeysAfterOther(groups, s, AddSong(groups[1..], s));
    }
  }

  /** The step of AddSongKeys past a group of another source. */
  lemma {:induction false} KeysAfterOther(groups: seq<Group>, s: Song, t: seq<Group>)
    requires groups != [] && groups[0].source != s.source
    requires |groups[1..]| <= |t| <= |groups[1..]| + 1
    requires forall i :: 0 <= i < |groups[1..]| ==> t[i].source == groups[1..][i].source
    requires s.source in Keys(t)
    requires |t| == |groups[1..]| + 1 <==> s.source !in Keys(groups[1..])
    ensures var r := [groups[0]] + t;
            && |groups| <= |r| <= |groups| + 1
            && (forall i :: 0 <= i < |groups| ==> r[i].source == groups[i].source)
            && s.source in Keys(r)
            && (|r| == |groups| + 1 <==> s.source !in Keys(groups))
  {
    var r := [groups[0]] + t;
    forall i | 0 <= i < |groups|
      ensures r[i].source == groups[i].source
    {
      if i > 0 {
        assert r[i] == t[i - 1] && groups[i] == groups[1..][i - 1];
      }
    }
    var k :| 0 <= k < |t| && Keys(t)[k] == s.source;
    assert Keys(r)[k + 1] == s.source;
    KeysCons(groups);
  }

  /** The `for artist, title, source in songs` loop, from a given dictionary:
      keys already present keep their place, and every song's source ends up
      a key. */
  function Collect(groups: seq<Group>, songs: seq<Song>): (r: seq<Group>)
    ensures |groups| <= |r|
    ensures forall i :: 0 <= i < |groups| ==> r[i].source == groups[i].source
    ensures forall j :: 0 <= j < |songs| ==> songs[j].source in Keys(r)
    decreases |songs|
  {
    if songs == [] then groups
    else
      var g := AddSong(groups, songs[0]);
      AddSongKeys(groups, songs[0]);
      var r := Collect(g, songs[1..]);
      CollectStep(groups, songs, g, r);
      r
  }

  lemma {:induction false} CollectStep(groups: seq<Group>, songs: seq<Song>, g: seq<Group>, r: seq<Group>)
    requires songs != []
    requires |groups| <= |g| && forall i :: 0 <= i < |groups| ==> g[i].source == groups[i].source
    requires songs[0].source in Keys(g)
    requires |g| <= |r| && forall i :: 0 <= i < |g| ==> r[i].source == g[i].source
    requires forall j :: 0 <= j < |songs[1..]| ==> songs[1..][j].source in Keys(r)
    ensures forall i :: 0 <= i < |groups| ==> r[i].source == groups[i].source
    ensures forall j :: 0 <= j < |songs| ==> songs[j].source in Keys(r)
  {
    var k :| 0 <= k < |g| && Keys(g)[k] == songs[0].source;
    assert Keys(r)[k] == songs[0].source;
    forall j | 1 <= j < |songs|
      ensures songs[j].source in Keys(r)
    {
      assert songs[1..][j - 1] == songs[j];
    }
  }

  /** What AddSong does to a dictionary with distinct keys: append to the
      group of the song's source, or open a new group at the end. */
  lemma {:induction false} AddSongEffect(groups: seq<Group>, s: Song)
    requires Distinct(Keys(groups))
    ensures s.source in Keys(groups) ==>
              && |AddSong(groups, s)| == |groups|
              && forall i :: 0 <= i < |groups| ==>
                   AddSong(groups, s)[i] == Appended(groups[i], s)
    ensures s.source !in Keys(groups) ==>
              AddSong(groups, s) == groups + [Group(s.source, [EntryOf(s)])]
    decreases |groups|
  {
    if groups != [] {
      assert Keys(groups[1..]) == Keys(groups)[1..];
      assert Distinct(Keys(groups[1..]));
      AddSongEffect(groups[1..], s);
      if groups[0].source == s.source {
        forall i | 1 <= i < |groups|
          ensures groups[i].source != s.source
        {
          assert Keys(groups)[0] == s.source && Keys(groups)[i] == groups[i].source;
        }
      }
    }
  }

  /** A group after `s` has passed by: extended when the source matches. */
  function Appended(g: Group, s: Song): Group {
    if g.source == s.source then Group(g.source, g.songs + [EntryOf(s)]) else g
  }

  lemma {:induction false} AddSongToReference(p: seq<Song>, s: Song)
    ensures AddSong(Reference(p), s) == Reference(p + [s])
  {
    var q := p + [s];
    assert q[..|q| - 1] == p;
    SourcesDistinct(p);
    AddSongEffect(Reference(p), s);
    var r := AddSong(Reference(p), s);
    var ref := Reference(q);
    assert |r| == |ref|;
    forall i | 0 <= i < |r|
      ensures r[i] == ref[i]
    {
      if i < |Sources(p)| {
        var k := Sources(p)[i];
        assert Sources(q)[i] == k;
        assert Bucket(q, k) == Bucket(p, k) + (if s.source == k then [EntryOf(s)] else []);
        assert r[i] == Appended(Reference(p)[i], s);
      } else {
        BucketOfAbsentSource(p, s.source);
        assert Bucket(q, s.source) == Bucket(p, s.source) + [EntryOf(s)];
      }
    }
  }

  lemma {:induction false} BucketOfAbsentSource(songs: seq<Song>, k: string)
    requires k !in Sources(songs)
    ensures Bucket(songs, k) == []
    decreases |songs|
  {
    if songs != [] {
      var init := songs[..|songs| - 1];
      assert k !in Sources(init);
      BucketOfAbsentSource(init, k);
    }
  }

  lemma {:induction false} CollectFromReference(p: seq<Song>, q: seq<Song>)
    ensures Collect(Reference(p), q) == Reference(p + q)
    decreases |q|
  {
    if q == [] {
      assert p + q == p;
    } else {
      CollectFromReference(p + [q[0]], q[1..]);
      CollectReferenceStep(p, q);
    }
  }

  lemma {:induction false} CollectReferenceStep(p: seq<Song>, q: seq<Song>)
    requires q != []
    requires Collect(Reference(p + [q[0]]), q[1..]) == Reference(p + [q[0]] + q[1..])
    ensures Collect(Reference(p), q) == Reference(p + q)
  {
    CollectUnfold(Reference(p), q);
    AddSongToReference(p, q[0]);
    ConsAfterPrefix(p, q);
  }

  lemma {:induction false} CollectUnfold(g: seq<Group>, q: seq<Song>)
    requires q != []
    ensures Collect(g, q) == Collect(AddSong(g, q[0]), q[1..])
  {
  }

  lemma {:induction false} ConsAfterPrefix(p: seq<Song>, q: seq<Song>)
    requires q != []
    ensures p + [q[0]] + q[1..] == p + q
  {
    assert q == [q[0]] + q[1..];
  }

  /** The dictionary the loop builds holds, for each source in first-seen
      order, the songs from that source in input order. */
  lemma {:induction false} CollectIsReference(songs: seq<Song>)
    ensures Collect([], songs) == Reference(songs)
  {
    assert Reference([]) == [];
    CollectFromReference([], songs);
    assert [] + songs == songs;
  }

  // ---------------------------------------------------------------------
  // Sorting and the result
  // ---------------------------------------------------------------------

  /** The `for source in by_source: by_source[source].sort(...)` loop. */
  function SortEach(groups: seq<Group>): (r: seq<Group>)
    ensures Keys(r) == Keys(groups)
    ensures forall i :: 0 <= i < |r| ==> StableSortOf(r[i].songs, groups[i].songs, ArtistKey)
  {
    seq(|groups|, i requires 0 <= i < |groups| =>
      Group(groups[i].source, SortBy(groups[i].songs, ArtistKey)))
  }

  /** `group_songs_by_source`. */
  function GroupBySource(songs: seq<Song>): (r: seq<Group>)
    ensures forall i :: 0 <= i < |r| ==> r[i].songs != []
    ensures forall i :: 0 <= i < |r| ==>
              StableSortOf(r[i].songs, Bucket(songs, r[i].source), ArtistKey)
    ensures StableSortOf(Keys(r), Sources(songs), Lower)
  {
    var dict := Collect([], songs);
    CollectIsReference(songs);
    var sorted := SortEach(dict);
    var r := SortBy(sorted, SourceKey);
    GroupsFromSorted(r, sorted, songs);
    r
  }

  lemma {:induction false} GroupsFromSorted(r: seq<Group>, sorted: seq<Group>, songs: seq<Song>)
    requires sorted == SortEach(Reference(songs))
    requires StableSortOf(r, sorted, SourceKey)
    ensures forall i :: 0 <= i < |r| ==> r[i].songs != []
    ensures forall i :: 0 <= i < |r| ==>
              StableSortOf(r[i].songs, Bucket(songs, r[i].source), ArtistKey)
    ensures StableSortOf(Keys(r), Sources(songs), Lower)
  {
    var ref := Reference(songs);
    forall i | 0 <= i < |r|
      ensures r[i].songs != []
      ensures StableSortOf(r[i].songs, Bucket(songs, r[i].source), ArtistKey)
    {
      assert r[i] in multiset(sorted);
      var j :| 0 <= j < |sorted| && sorted[j] == r[i];
      assert Keys(sorted)[j] == Keys(ref)[j];
      BucketOfSourceNonEmpty(songs, ref[j].source);
      assert multiset(r[i].songs) == multiset(ref[j].songs);
      assert ref[j].songs[0] in multiset(r[i].songs);
    }
    KeysOfStableSort(r, sorted);
  }

  /** A stable sort of groups by lower-cased source, seen through the
      sources alone, is a stable sort of the sources by their lower case. */
  lemma {:induction false} KeysOfStableSort(r: seq<Group>, xs: seq<Group>)
    requires StableSortOf(r, xs, SourceKey)
    ensures StableSortOf(Keys(r), Keys(xs), Lower)
  {
    KeysPermutation(r, xs);
    forall k ensures WithKey(Keys(r), Lower, k) == WithKey(Keys(xs), Lower, k)
    {
      KeysWithKey(r, k);
      KeysWithKey(xs, k);
    }
  }

  lemma {:induction false} KeysWithKey(gs: seq<Group>, k: string)
    ensures WithKey(Keys(gs), Lower, k) == Keys(WithKey(gs, SourceKey, k))
    decreases |gs|
  {
    if gs != [] {
      KeysWithKey(gs[1..], k);
      assert Keys(gs)[1..] == Keys(gs[1..]);
      KeysAppend(if SourceKey(gs[0]) == k then [gs[0]] else [], WithKey(gs[1..], SourceKey, k));
    }
  }

  lemma {:induction false} KeysAppend(a: seq<Group>, b: seq<Group>)
    ensures Keys(a + b) == Keys(a) + Keys(b)
  {
  }

  lemma {:induction false} KeysPermutation(a: seq<Group>, b: seq<Group>)
    requires multiset(a) == multiset(b)
    ensures multiset(Keys(a)) == multiset(Keys(b))
  {
    MapPermutation(SourceOf, a, b);
    assert Keys(a) == MapSeq(SourceOf, a);
    assert Keys(b) == MapSeq(SourceOf, b);
  }

  function SourceOf(g: Group): string {
    g.source
  }

  // ---------------------------------------------------------------------
  // No song lost or duplicated
  // ---------------------------------------------------------------------

  function Flatten(groups: seq<Group>): (r: seq<Entry>)
  {
    if groups == [] then [] else groups[0].songs + Flatten(groups[1..])
  }

  /** The (artist, title) pairs of the songs whose source is in `ks`. */
  function ProjectIn(songs: seq<Song>, ks: set<string>): seq<Entry>
    decreases |songs|
  {
    if songs == [] then []
    else
      var last := songs[|songs| - 1];
      ProjectIn(songs[..|songs| - 1], ks) + (if last.source in ks then [EntryOf(last)] else [])
  }

  lemma {:induction false} BucketSplit(songs: seq<Song>, k: string, ks: set<string>)
    requires k !in ks
    ensures multiset(Bucket(songs, k)) + multiset(ProjectIn(songs, ks))
         == multiset(ProjectIn(songs, ks + {k}))
    decreases |songs|
  {
    if songs != [] {
      BucketSplit(songs[..|songs| - 1], k, ks);
    }
  }

  lemma {:induction false} ProjectInAll(songs: seq<Song>, ks: set<string>)
    requires forall j :: 0 <= j < |songs| ==> songs[j].source in ks
    ensures ProjectIn(songs, ks) == Project(songs)
    decreases |songs|
  {
    if songs != [] {
      var init := songs[..|songs| - 1];
      ProjectInAll(init, ks);
      assert Project(songs) == Project(init) + [EntryOf(songs[|songs| - 1])];
    }
  }

  lemma {:induction false} FlattenMultiset(groups: seq<Group>, songs: seq<Song>)
    requires Distinct(Keys(groups))
    requires forall i :: 0 <= i < |groups| ==>
               multiset(groups[i].songs) == multiset(Bucket(songs, groups[i].source))
    ensures multiset(Flatten(groups)) == multiset(ProjectIn(songs, set k | k in Keys(groups)))
    decreases |groups|
  {
    if groups == [] {
      assert (set k | k in Keys(groups)) == {};
      EmptyProjectIn(songs);
    } else {
      var rest := groups[1..];
      KeysCons(groups);
      assert Keys(rest) == Keys(groups)[1..];
      assert Distinct(Keys(rest));
      FlattenMultiset(rest, songs);
      HeadNotInTail(Keys(groups));
      FlattenStep(groups, songs);
    }
  }

  lemma {:induction false} KeysCons(groups: seq<Group>)
    requires groups != []
    ensures Keys(groups) == [groups[0].source] + Keys(groups[1..])
  {
  }

  /** One step of `FlattenMultiset`: the first group's bucket joins the rest. */
  lemma {:induction false} FlattenStep(groups: seq<Group>, songs: seq<Song>)
    requires groups != [] && Keys(groups) == [groups[0].source] + Keys(groups[1..])
    requires groups[0].source !in Keys(groups[1..])
    requires multiset(groups[0].songs) == multiset(Bucket(songs, groups[0].source))
    requires multiset(Flatten(groups[1..]))
          == multiset(ProjectIn(songs, set k | k in Keys(groups[1..])))
    ensures multiset(Flatten(groups)) == multiset(ProjectIn(songs, set k | k in Keys(groups)))
  {
    var ks := set k | k in Keys(groups[1..]);
    BucketSplit(songs, groups[0].source, ks);
    assert (set k | k in Keys(groups)) == ks + {groups[0].source};
  }

  lemma {:induction false} EmptyProjectIn(songs: seq<Song>)
    ensures ProjectIn(songs, {}) == []
    decreases |songs|
  {
    if songs != [] {
      EmptyProjectIn(songs[..|songs| - 1]);
    }
  }

  /** Concatenating the groups gives back every song exactly once, as an
      (artist, title) pair. */
  lemma {:induction false} GroupBySourceKeepsSongs(songs: seq<Song>)
    ensures multiset(Flatten(GroupBySource(songs))) == multiset(Project(songs))
  {
    var r := GroupBySource(songs);
    SourcesDistinct(songs);
    SourcesMembers(songs);
    DistinctCounts(Sources(songs));
    assert multiset(Keys(r)) == multiset(Sources(songs));
    DistinctFromCounts(Keys(r));
    FlattenMultiset(r, songs);
    forall j | 0 <= j < |songs|
      ensures songs[j].source in (set k | k in Keys(r))
    {
      assert songs[j].source in multiset(Sources(songs));
    }
    ProjectInAll(songs, set k | k in Keys(r));
  }

  lemma {:induction false} DistinctFromCounts(s: seq<string>)
    requires forall x :: multiset(s)[x] <= 1
    ensures Distinct(s)
  {
    forall i, j | 0 <= i < j < |s|
      ensures s[i] != s[j]
    {
      assert s == s[..i] + [s[i]] + s[i + 1..j] + [s[j]] + s[j + 1..];
      assert multiset(s)[s[i]] >= multiset{s[i], s[j]}[s[i]];
    }
  }

  /** What a list item or a song line shows for each entry. */
  function Captions(entries: seq<Entry>): (r: seq<string>)
    ensures |r| == |entries|
    ensures forall i :: 0 <= i < |entries| ==> r[i] == Caption(entries[i])
  {
    MapSeq(Caption, entries)
  }

  lemma {:induction false} CaptionsOfAppend(a: seq<Entry>, b: seq<Entry>)
    ensures Captions(a + b) == Captions(a) + Captions(b)
  {
  }

  /** The captions of the grouped songs are those of the input songs, in some order. */
  lemma {:induction false} GroupCaptionsKept(songs: seq<Song>)
    ensures multiset(Captions(Flatten(GroupBySource(songs)))) == multiset(Captions(Project(songs)))
  {
    GroupBySourceKeepsSongs(songs);
    MapPermutation(Caption, Flatten(GroupBySource(songs)), Project(songs));
  }

  /** The group keys are distinct and are exactly the sources of the songs. */
  lemma {:induction false} GroupKeysAreSources(songs: seq<Song>)
    ensures Distinct(Keys(GroupBySource(songs)))
    ensures forall k :: k in Keys(GroupBySource(songs)) <==> exists j :: 0 <= j < |songs| && songs[j].source == k
  {
    var r := GroupBySource(songs);
    SourcesDistinct(songs);
    SourcesMembers(songs);
    DistinctCounts(Sources(songs));
    assert multiset(Keys(r)) == multiset(Sources(songs));
    DistinctFromCounts(Keys(r));
    forall k
      ensures k in Keys(r) <==> k in Sources(songs)
    {
      assert k in Keys(r) <==> k in multiset(Keys(r));
      assert k in Sources(songs) <==> k in multiset(Sources(songs));
    }
  }

  /** Sources that differ only in case are separate groups, in the order
      they are first seen, because their sort keys are equal. */
  lemma {:induction false} CaseVariantSourcesExample()
    ensures Keys(GroupBySource([Song("A", "x", "foo"), Song("B", "y", "Foo")])) == ["foo", "Foo"]
  {
    var songs := [Song("A", "x", "foo"), Song("B", "y", "Foo")];
    var ks := Keys(GroupBySource(songs));
    SourcesOfTwo(songs);
    LowerFoo();
    assert StableSortOf(ks, ["foo", "Foo"], Lower);
    SortTwoEqual(ks, "foo", "Foo", Lower);
  }

  lemma {:induction false} SourcesOfTwo(songs: seq<Song>)
    requires |songs| == 2
    ensures Sources(songs) == if songs[0].source == songs[1].source then [songs[0].source]
                              else [songs[0].source, songs[1].source]
  {
    assert songs[..1] == [songs[0]];
    assert [songs[0]][..0] == [];
    assert Sources([songs[0]]) == [songs[0].source];
  }

  lemma {:induction false} LowerFoo()
    ensures Lower("foo") == "foo" && Lower("Foo") == "foo"
  {
  }

  /** Within a group, artists sort case-insensitively. */
  lemma {:induction false} ArtistOrderExample()
    ensures var r := GroupBySource([Song("Zeta", "Song A", ""), Song("ada", "Song B", "")]);
            |r| == 1 && r[0].songs == [Entry("ada", "Song B"), Entry("Zeta", "Song A")]
  {
    assert Lower("Zeta") == "zeta" && Lower("ada") == "ada";
    assert !LexLe("zeta", "ada");
    OneSourceSwapped(Song("Zeta", "Song A", ""), Song("ada", "Song B", ""));
  }

  /** Two songs from one source whose artists are out of order form one group
      in which they are swapped. */
  lemma {:induction false} OneSourceSwapped(a: Song, b: Song)
    requires a.source == b.source
    requires !LexLe(ArtistKey(EntryOf(a)), ArtistKey(EntryOf(b)))
    ensures var r := GroupBySource([a, b]);
            |r| == 1 && r[0].songs == [EntryOf(b), EntryOf(a)]
  {
    var r := GroupBySource([a, b]);
    OneSourceOneGroup(a, b);
    BucketOfTwo(a, b);
    SortTwo(r[0].songs, EntryOf(a), EntryOf(b), ArtistKey);
  }

  /** Two songs from one source form exactly one group, for that source. */
  lemma {:induction false} OneSourceOneGroup(a: Song, b: Song)
    requires a.source == b.source
    ensures var r := GroupBySource([a, b]);
            |r| == 1 && r[0].source == a.source
            && StableSortOf(r[0].songs, Bucket([a, b], a.source), ArtistKey)
  {
    var r := GroupBySource([a, b]);
    SourcesOfTwo([a, b]);
    var ks := Keys(r);
    assert StableSortOf(ks, [a.source], Lower);
    assert |ks| == 1 by {
      assert |multiset(ks)| == |ks|;
    }
    assert ks[0] in multiset(ks);
  }

  lemma {:induction false} BucketOfTwo(a: Song, b: Song)
    requires a.source == b.source
    ensures Bucket([a, b], a.source) == [EntryOf(a), EntryOf(b)]
  {
    assert [a, b][..1] == [a];
    assert [a][..0] == [];
    assert Bucket([a], a.source) == [EntryOf(a)];
  }
}

=== FILE: html.dfy ===
/**
 The HTML renderer: `html.escape`, `format_song_html` and the structure of
 `generate_html` over the sections of an in-memory workbook.
 */
module HtmlRender {
  import opened Strings
  import opened Sorting
  import opened Workbook
  import opened Grouping
  import opened Optional

  // ---------------------------------------------------------------------
  // Escaping
  // ---------------------------------------------------------------------

  /** `html.escape(c, quote=True)` for one character. Replacing `&` first and
      the other four afterwards, as `html.escape` does, never touches the
      entities already produced, so it acts character by character. */
  function EscapeChar(c: char): string {
    if c == '&' then "&amp;"
    else if c == '<' then "&lt;"
    else if c == '>' then "&gt;"
    else if c == '"' then "&quot;"
    else if c == '\'' then "&#x27;"
    else [c]
  }

  predicate IsMarkupChar(c: char) {
    c == '&' || c == '<' || c == '>' || c == '"' || c == '\''
  }

  /** `html.escape`: the text grows, and no `<` or `>` survives escaping. */
  function HtmlEscape(s: string): (r: string)
    ensures |r| >= |s|
    ensures forall i :: 0 <= i < |r| ==> !IsBracket(r[i])
    ensures |s| == 1 ==> r == EscapeChar(s[0])
    decreases |s|
  {
    if s == [] then []
    else
      var e := EscapeChar(s[0]);
      var t := HtmlEscape(s[1..]);
      assert forall i :: 0 <= i < |e| ==> !IsBracket(e[i]);
      assert forall i :: |e| <= i < |e + t| ==> (e + t)[i] == t[i - |e|];
      e + t
  }

  predicate IsBracket(c: char) {
    c == '<' || c == '>'
  }

  /** Decodes the five entities HtmlEscape produces; any other text is kept. */
  function HtmlUnescape(s: string): string
    decreases |s|
  {
    if s == [] then []
    else if s[0] == '&' && |s| >= 5 && s[1..5] == "amp;" then "&" + HtmlUnescape(s[5..])
    else if s[0] == '&' && |s| >= 4 && s[1..4] == "lt;" then "<" + HtmlUnescape(s[4..])
    else if s[0] == '&' && |s| >= 4 && s[1..4] == "gt;" then ">" + HtmlUnescape(s[4..])
    else if s[0] == '&' && |s| >= 6 && s[1..6] == "quot;" then "\"" + HtmlUnescape(s[6..])
    else if s[0] == '&' && |s| >= 6 && s[1..6] == "#x27;" then "'" + HtmlUnescape(s[6..])
    else [s[0]] + HtmlUnescape(s[1..])
  }

  lemma {:induction false} UnescapeChar(c: char, rest: string)
    ensures HtmlUnescape(EscapeChar(c) + rest) == [c] + HtmlUnescape(rest)
  {
    var e := EscapeChar(c) + rest;
    assert e[|EscapeChar(c)|..] == rest;
    if c == '&' {
      assert e[1..5] == "amp;";
    } else if c == '<' {
      assert e[1] == 'l' && e[1..4] == "lt;";
      assert |e| >= 5 ==> e[1..5][0] == 'l';
    } else if c == '>' {
      assert e[1] == 'g' && e[1..4] == "gt;";
      assert e[1..4][0] == 'g';
      assert |e| >= 5 ==> e[1..5][0] == 'g';
    } else if c == '"' {
      assert e[1] == 'q' && e[1..6] == "quot;";
      assert e[1..4][0] == 'q' && e[1..5][0] == 'q';
    } else if c == '\'' {
      assert e[1] == '#' && e[1..6] == "#x27;";
      assert e[1..4][0] == '#' && e[1..5][0] == '#' && e[1..6][0] == '#';
    } else {
      assert e[0] == c && e[1..] == rest;
    }
  }

  /** Decoding undoes escaping, whatever text follows the escaped part. */
  lemma {:induction false} UnescapeEscapePrefix(s: string, rest: string)
    ensures HtmlUnescape(HtmlEscape(s) + rest) == s + HtmlUnescape(rest)
    decreases |s|
  {
    if s != [] {
      UnescapeEscapePrefix(s[1..], rest);
      EscapeUnfold(s);
      UnescapeCons(s[0], HtmlEscape(s[1..]), rest, s[1..]);
      assert [s[0]] + s[1..] == s;
    } else {
      assert HtmlEscape(s) + rest == rest;
    }
  }

  lemma {:induction false} EscapeUnfold(s: string)
    requires s != []
    ensures HtmlEscape(s) == EscapeChar(s[0]) + HtmlEscape(s[1..])
  {
  }

  /** One step of `UnescapeEscapePrefix`: decoding the escaped first character. */
  lemma {:induction false} UnescapeCons(c: char, es: string, rest: string, tail: string)
    requires HtmlUnescape(es + rest) == tail + HtmlUnescape(rest)
    ensures HtmlUnescape((EscapeChar(c) + es) + rest) == ([c] + tail) + HtmlUnescape(rest)
  {
    var t := es + rest;
    assert (EscapeChar(c) + es) + rest == EscapeChar(c) + t;
    UnescapeChar(c, t);
  }

  lemma {:induction false} HtmlRoundTrip(s: string)
    ensures HtmlUnescape(HtmlEscape(s)) == s
  {
    UnescapeEscapePrefix(s, []);
    assert HtmlEscape(s) + [] == HtmlEscape(s);
  }

  lemma {:induction false} HtmlEscapeAppend(a: string, b: string)
    ensures HtmlEscape(a + b) == HtmlEscape(a) + HtmlEscape(b)
    decreases |a|
  {
    if a != [] {
      assert (a + b)[1..] == a[1..] + b;
      HtmlEscapeAppend(a[1..], b);
    } else {
      assert a + b == b;
    }
  }

  // ---------------------------------------------------------------------
  // List items
  // ---------------------------------------------------------------------

  /** `format_song_html`: the list item shows the song's caption, escaped,
      so that no markup character of the user's text reaches the page. */
  function FormatSongHtml(artist: string, title: string): (r: string)
    ensures r == "<li>" + HtmlEscape(Caption(Entry(artist, title))) + "</li>"
    ensures |r| >= 9 && r[..4] == "<li>" && r[|r| - 5..] == "</li>"
    ensures HtmlUnescape(r[4..|r| - 5]) == Caption(Entry(artist, title))
    ensures forall i :: 4 <= i < |r| - 5 ==> !IsBracket(r[i])
  {
    var inner := if artist != "" then HtmlEscape(artist) + Dash + HtmlEscape(title)
                 else HtmlEscape(title);
    CaptionEscaped(artist, title);
    ItemFrame(inner);
    "<li>" + inner + "</li>"
  }

  /** The item tags sit around the inner text, which is recovered by slicing. */
  lemma {:induction false} ItemFrame(inner: string)
    ensures var r := "<li>" + inner + "</li>";
            && |r| >= 9 && r[..4] == "<li>" && r[|r| - 5..] == "</li>"
            && r[4..|r| - 5] == inner
            && forall i :: 4 <= i < |r| - 5 ==> r[i] == inner[i - 4]
  {
    var r := "<li>" + inner + "</li>";
    assert r[..4] == "<li>";
    assert r[|r| - 5..] == "</li>";
    assert r[4..|r| - 5] == inner;
  }

  /** The two branches of `format_song_html` escape the whole caption. */
  lemma {:induction false} CaptionEscaped(artist: string, title: string)
    ensures var inner := if artist != "" then HtmlEscape(artist) + Dash + HtmlEscape(title)
                         else HtmlEscape(title);
            && inner == HtmlEscape(Caption(Entry(artist, title)))
            && HtmlUnescape(inner) == Caption(Entry(artist, title))
            && forall i :: 0 <= i < |inner| ==> !IsBracket(inner[i])
  {
    assert HtmlEscape(Dash) == Dash;
    HtmlEscapeAppend(artist, Dash);
    HtmlEscapeAppend(artist + Dash, title);
    HtmlRoundTrip(Caption(Entry(artist, title)));
  }

  // ---------------------------------------------------------------------
  // Document structure
  // ---------------------------------------------------------------------

  predicate IsItem(line: string) {
    |line| >= 4 && line[..4] == "<li>"
  }

  predicate IsSubheading(line: string) {
    |line| >= 4 && line[..4] == "<h3>"
  }

  /** The captions of the list items among `lines`, decoded, in order. */
  function ItemCaptions(lines: seq<string>): seq<string>
  {
    if lines == [] then []
    else
      var l := lines[0];
      (if IsItem(l) && |l| >= 9 then [HtmlUnescape(l[4..|l| - 5])] else []) + ItemCaptions(lines[1..])
  }

  /** Number of `<h3>` lines. */
  function Subheadings(lines: seq<string>): nat
  {
    if lines == [] then 0 else (if IsSubheading(lines[0]) then 1 else 0) + Subheadings(lines[1..])
  }

  function ItemLines(entries: seq<Entry>): (r: seq<string>)
    ensures |r| == |entries|
    ensures forall i :: 0 <= i < |r| ==> r[i] == FormatSongHtml(entries[i].artist, entries[i].title)
    ensures forall i :: 0 <= i < |r| ==> IsItem(r[i])
    ensures ItemCaptions(r) == Captions(entries)
    ensures CountOf(r, "<ul>") == 0 && CountOf(r, "</ul>") == 0
    ensures Subheadings(r) == 0
    decreases |entries|
  {
    if entries == [] then []
    else
      var e := entries[0];
      var rest := ItemLines(entries[1..]);
      var line := FormatSongHtml(e.artist, e.title);
      ItemCons(entries, line, rest);
      [line] + rest
  }

  /** One more item line in front keeps every property `ItemLines` promises. */
  lemma {:induction false} ItemCons(entries: seq<Entry>, line: string, rest: seq<string>)
    requires entries != []
    requires |line| >= 9 && line[..4] == "<li>" && HtmlUnescape(line[4..|line| - 5]) == Caption(entries[0])
    requires |rest| == |entries| - 1
    requires line == FormatSongHtml(entries[0].artist, entries[0].title)
    requires forall i :: 0 <= i < |rest| ==> rest[i] == FormatSongHtml(entries[i + 1].artist, entries[i + 1].title)
    requires forall i :: 0 <= i < |rest| ==> IsItem(rest[i])
    requires ItemCaptions(rest) == Captions(entries[1..])
    requires CountOf(rest, "<ul>") == 0 && CountOf(rest, "</ul>") == 0 && Subheadings(rest) == 0
    ensures var r := [line] + rest;
            && |r| == |entries|
            && (forall i :: 0 <= i < |r| ==> r[i] == FormatSongHtml(entries[i].artist, entries[i].title))
            && (forall i :: 0 <= i < |r| ==> IsItem(r[i]))
            && ItemCaptions(r) == Captions(entries)
            && CountOf(r, "<ul>") == 0 && CountOf(r, "</ul>") == 0
            && Subheadings(r) == 0
  {
    var r := [line] + rest;
    assert r[1..] == rest;
    assert line[1] == 'l' by { assert line[..4][1] == 'l'; }
    assert line != "<ul>" && line != "</ul>";
    assert line[..4] != "<h3>" by { assert line[..4][1] == 'l'; }
    forall i | 0 <= i < |r|
      ensures r[i] == FormatSongHtml(entries[i].artist, entries[i].title) && IsItem(r[i])
    {
      if i > 0 {
        assert r[i] == rest[i - 1];
      }
    }
    assert Captions(entries) == [Caption(entries[0])] + Captions(entries[1..]);
  }

  /** One source group: the `<h3>` heading when the source is non-empty, then
      one list holding an item per song. */
  function HtmlGroup(g: Group): (r: seq<string>)
    ensures var h := if g.source != "" then 1 else 0;
            && |r| == h + |g.songs| + 2
            && r[h] == "<ul>" && r[h + 1..|r| - 1] == ItemLines(g.songs) && r[|r| - 1] == "</ul>"
    ensures g.source != "" ==> r[0] == "<h3>" + HtmlEscape(g.source) + "</h3>"
    ensures g.source != "" ==> HtmlUnescape(r[0][4..|r[0]| - 5]) == g.source
    ensures Subheadings(r) == if g.source != "" then 1 else 0
    ensures CountOf(r, "<ul>") == 1 && CountOf(r, "</ul>") == 1
    ensures ItemCaptions(r) == Captions(g.songs)
  {
    var heading := if g.source != "" then ["<h3>" + HtmlEscape(g.source) + "</h3>"] else [];
    var items := ItemLines(g.songs);
    var r := heading + ["<ul>"] + items + ["</ul>"];
    GroupShape(heading, items, g);
    GroupPositions(heading, items, g.source);
    r
  }

  /** Where the heading, the list tags and the items sit in a group's lines. */
  lemma {:induction false} GroupPositions(heading: seq<string>, items: seq<string>, source: string)
    requires heading == if source != "" then ["<h3>" + HtmlEscape(source) + "</h3>"] else []
    ensures var r := heading + ["<ul>"] + items + ["</ul>"];
            var h := if source != "" then 1 else 0;
            && |r| == h + |items| + 2
            && r[h] == "<ul>" && r[h + 1..|r| - 1] == items && r[|r| - 1] == "</ul>"
            && (source != "" ==> r[0] == heading[0] && HtmlUnescape(r[0][4..|r[0]| - 5]) == source)
  {
    var r := heading + ["<ul>"] + items + ["</ul>"];
    var h := |heading|;
    assert r[h] == "<ul>";
    assert r[h + 1..|r| - 1] == items;
    if source != "" {
      var line := heading[0];
      assert r[0] == line;
      assert line[4..|line| - 5] == HtmlEscape(source);
      HtmlRoundTrip(source);
    }
  }

  lemma {:induction false} GroupShape(heading: seq<string>, items: seq<string>, g: Group)
    requires heading == if g.source != "" then ["<h3>" + HtmlEscape(g.source) + "</h3>"] else []
    requires items == ItemLines(g.songs)
    ensures var r := heading + ["<ul>"] + items + ["</ul>"];
            && (Subheadings(r) == if g.source != "" then 1 else 0)
            && CountOf(r, "<ul>") == 1 && CountOf(r, "</ul>") == 1
            && ItemCaptions(r) == Captions(g.songs)
  {
    if heading != [] {
      assert heading[0][1] == 'h';
    }
    assert Subheadings(heading) == |heading|;
    assert CountOf(heading, "<ul>") == 0 && CountOf(heading, "</ul>") == 0;
    assert ItemCaptions(heading) == [];
    ListCounts(heading, items);
    ListSubheadings(heading, items);
    ListCaptions(heading, items);
  }

  /** Wrapping item lines in one list adds exactly one opening and one closing tag. */
  lemma {:induction false} ListCounts(heading: seq<string>, items: seq<string>)
    requires CountOf(heading, "<ul>") == 0 && CountOf(heading, "</ul>") == 0
    requires CountOf(items, "<ul>") == 0 && CountOf(items, "</ul>") == 0
    ensures CountOf(heading + ["<ul>"] + items + ["</ul>"], "<ul>") == 1
    ensures CountOf(heading + ["<ul>"] + items + ["</ul>"], "</ul>") == 1
  {
    CountAppend(heading + ["<ul>"] + items, ["</ul>"], "<ul>");
    CountAppend(heading + ["<ul>"], items, "<ul>");
    CountAppend(heading, ["<ul>"], "<ul>");
    CountAppend(heading + ["<ul>"] + items, ["</ul>"], "</ul>");
    CountAppend(heading + ["<ul>"], items, "</ul>");
    CountAppend(heading, ["<ul>"], "</ul>");
  }

  lemma {:induction false} ListSubheadings(heading: seq<string>, items: seq<string>)
    requires Subheadings(items) == 0
    ensures Subheadings(heading + ["<ul>"] + items + ["</ul>"]) == Subheadings(heading)
  {
    SubheadingsAppend(heading + ["<ul>"] + items, ["</ul>"]);
    SubheadingsAppend(heading + ["<ul>"], items);
    SubheadingsAppend(heading, ["<ul>"]);
    assert "<ul>"[1] == 'u' && "</ul>"[1] == '/';
    assert Subheadings(["<ul>"]) == 0 && Subheadings(["</ul>"]) == 0;
  }

  lemma {:induction false} ListCaptions(heading: seq<string>, items: seq<string>)
    requires ItemCaptions(heading) == []
    ensures ItemCaptions(heading + ["<ul>"] + items + ["</ul>"]) == ItemCaptions(items)
  {
    CaptionsAppend(heading + ["<ul>"] + items, ["</ul>"]);
    CaptionsAppend(heading + ["<ul>"], items);
    CaptionsAppend(heading, ["<ul>"]);
    assert "<ul>"[1] == 'u' && "</ul>"[1] == '/';
    assert ItemCaptions(["<ul>"]) == [] && ItemCaptions(["</ul>"]) == [];
  }

  lemma {:induction false} SubheadingsAppend(a: seq<string>, b: seq<string>)
    ensures Subheadings(a + b) == Subheadings(a) + Subheadings(b)
    decreases |a|
  {
    if a != [] {
      assert (a + b)[1..] == a[1..] + b;
      SubheadingsAppend(a[1..], b);
    } else {
      assert a + b == b;
    }
  }

  lemma {:induction false} CaptionsAppend(a: seq<string>, b: seq<string>)
    ensures ItemCaptions(a + b) == ItemCaptions(a) + ItemCaptions(b)
    decreases |a|
  {
    if a != [] {
      assert (a + b)[1..] == a[1..] + b;
      CaptionsAppend(a[1..], b);
    } else {
      assert a + b == b;
    }
  }

  function HtmlGroups(gs: seq<Group>): (r: seq<string>)
    ensures ItemCaptions(r) == Captions(Flatten(gs))
    decreases |gs|
  {
    if gs == [] then []
    else
      var here := HtmlGroup(gs[0]);
      var rest := HtmlGroups(gs[1..]);
      CaptionsAppend(here, rest);
      CaptionsOfAppend(gs[0].songs, Flatten(gs[1..]));
      here + rest
  }

  /** One worksheet: nothing at all when it has no songs; otherwise an `<h2>`
      heading and its groups, whose list items show every song exactly once,
      in the grouped and sorted order. */
  function HtmlSection(sec: Section): (r: seq<string>)
    ensures r == [] <==> sec.songs == []
    ensures sec.songs != [] ==> r[0] == "<h2>" + HtmlEscape(sec.name) + "</h2>"
    ensures ItemCaptions(r) == Captions(Flatten(GroupBySource(sec.songs)))
    ensures multiset(ItemCaptions(r)) == multiset(Captions(Project(sec.songs)))
  {
    if sec.songs == [] then []
    else
      var body := HtmlGroups(GroupBySource(sec.songs));
      HeadingNoCaption(sec.name, body);
      GroupCaptionsKept(sec.songs);
      ["<h2>" + HtmlEscape(sec.name) + "</h2>"] + body
  }

  /** A worksheet heading line adds no list item. */
  lemma {:induction false} HeadingNoCaption(name: string, body: seq<string>)
    ensures var r := ["<h2>" + HtmlEscape(name) + "</h2>"] + body;
            && r != [] && r[0] == "<h2>" + HtmlEscape(name) + "</h2>"
            && ItemCaptions(r) == ItemCaptions(body)
  {
    var heading := "<h2>" + HtmlEscape(name) + "</h2>";
    CaptionsAppend([heading], body);
    assert !IsItem(heading) by { assert heading[1] == 'h'; }
    assert ItemCaptions([heading]) == [];
  }

  /** Every section in processing order; empty ones contribute nothing. */
  function HtmlLines(secs: seq<Section>): (r: seq<string>)
    ensures r == [] <==> TotalSongs(secs) == 0
    ensures |ItemCaptions(r)| == TotalSongs(secs)
    decreases |secs|
  {
    if secs == [] then []
    else
      var here := HtmlSection(secs[0]);
      var rest := HtmlLines(secs[1..]);
      CaptionsAppend(here, rest);
      assert |ItemCaptions(here)| == |secs[0].songs| by {
        assert |multiset(ItemCaptions(here))| == |multiset(Captions(Project(secs[0].songs)))|;
      }
      here + rest
  }

  /** The blocks of lines one after another. */
  function Concat(blocks: seq<seq<string>>): seq<string>
    decreases |blocks|
  {
    if blocks == [] then [] else blocks[0] + Concat(blocks[1..])
  }

  /** The lines of each worksheet, in order. */
  function HtmlBlocks(secs: seq<Section>): (r: seq<seq<string>>)
    ensures |r| == |secs|
    decreases |secs|
  {
    if secs == [] then [] else [HtmlSection(secs[0])] + HtmlBlocks(secs[1..])
  }

  /** The page lines are the blocks of the worksheets that have songs, in
      processing order, each written once and nothing between them. */
  lemma {:induction false} HtmlLinesAreSections(secs: seq<Section>)
    ensures HtmlLines(secs) == Concat(HtmlBlocks(NonEmptySections(secs)))
    decreases |secs|
  {
    if secs != [] {
      HtmlLinesAreSections(secs[1..]);
      var t := NonEmptySections(secs[1..]);
      if secs[0].songs != [] {
        assert NonEmptySections(secs) == [secs[0]] + t;
        BlocksConsHtml(secs[0], t);
      } else {
        assert NonEmptySections(secs) == t;
      }
    }
  }

  lemma {:induction false} BlocksConsHtml(sec: Section, t: seq<Section>)
    ensures Concat(HtmlBlocks([sec] + t)) == HtmlSection(sec) + Concat(HtmlBlocks(t))
  {
    assert ([sec] + t)[1..] == t;
    ConcatCons(HtmlSection(sec), HtmlBlocks(t));
  }

  lemma {:induction false} ConcatCons(b: seq<string>, bs: seq<seq<string>>)
    ensures Concat([b] + bs) == b + Concat(bs)
  {
    assert ([b] + bs)[1..] == bs;
  }

  /** `generate_html`: the lines joined by newlines; a page with songs opens
      with a worksheet heading. */
  function GenerateHtml(wb: seq<Sheet>, order: Option<seq<string>>): (r: string)
    ensures r == [] <==> TotalSongs(Sections(wb, order)) == 0
    ensures TotalSongs(Sections(wb, order)) != 0 ==> |r| >= 4 && r[..4] == "<h2>"
  {
    var lines := HtmlLines(Sections(wb, order));
    if lines != [] then
      FirstLineNonEmpty(Sections(wb, order));
      JoinOpensWith(lines, "<h2>");
      JoinLines(lines)
    else JoinLines(lines)
  }

  lemma {:induction false} JoinOpensWith(lines: seq<string>, p: string)
    requires lines != [] && |lines[0]| >= |p| && lines[0][..|p|] == p
    ensures |JoinLines(lines)| >= |p| && JoinLines(lines)[..|p|] == p
  {
    var r := JoinLines(lines);
    assert r[..|p|] == r[..|lines[0]|][..|p|];
  }

  /** A page with songs starts with the `<h2>` heading of its first worksheet
      that has songs. */
  lemma {:induction false} FirstLineNonEmpty(secs: seq<Section>)
    requires HtmlLines(secs) != []
    ensures |HtmlLines(secs)[0]| >= 4 && HtmlLines(secs)[0][..4] == "<h2>"
    decreases |secs|
  {
    if secs[0].songs == [] {
      FirstLineNonEmpty(secs[1..]);
    } else {
      var line := "<h2>" + HtmlEscape(secs[0].name) + "</h2>";
      assert line[..4] == "<h2>";
    }
  }

  /** The page is the `"\n"` join of the blocks of the worksheets that have
      songs, in processing order. */
  lemma {:induction false} GenerateHtmlLayout(wb: seq<Sheet>, order: Option<seq<string>>)
    ensures GenerateHtml(wb, order) == JoinLines(Concat(HtmlBlocks(NonEmptySections(Sections(wb, order)))))
  {
    HtmlLinesAreSections(Sections(wb, order));
  }

  /** An artist name written as markup is shown as text. */
  lemma {:induction false} HtmlEscapeExample()
    ensures HtmlEscape("<b>Bob</b>") == "&lt;b&gt;Bob&lt;/b&gt;"
  {
    EscapeTagged("b", "Bob");
    assert "<" + "b" + ">" == "<b>";
    assert "<b>" + "Bob" == "<b>Bob";
    assert "<b>Bob" + "</" + "b" == "<b>Bob</b";
    assert "<b>Bob</b" + ">" == "<b>Bob</b>";
    assert "&lt;" + "b" + "&gt;" == "&lt;b&gt;";
    assert "&lt;b&gt;" + "Bob" == "&lt;b&gt;Bob";
    assert "&lt;b&gt;Bob" + "&lt;/" + "b" == "&lt;b&gt;Bob&lt;/b";
    assert "&lt;b&gt;Bob&lt;/b" + "&gt;" == "&lt;b&gt;Bob&lt;/b&gt;";
  }

  /** A tag pair around plain text is escaped tag by tag. */
  lemma {:induction false} EscapeTagged(t: string, x: string)
    requires forall i :: 0 <= i < |t| ==> !IsMarkupChar(t[i])
    requires forall i :: 0 <= i < |x| ==> !IsMarkupChar(x[i])
    ensures HtmlEscape("<" + t + ">" + x + "</" + t + ">")
         == "&lt;" + t + "&gt;" + x + "&lt;/" + t + "&gt;"
  {
    var open := "<" + t + ">";
    var close := "</" + t + ">";
    EscapeOpenTag(t);
    EscapeCloseTag(t);
    HtmlEscapePlain(x);
    HtmlEscapeAppend(open, x);
    HtmlEscapeAppend(open + x, close);
    assert "<" + t + ">" + x + "</" + t + ">" == (open + x) + close;
    assert "&lt;" + t + "&gt;" + x + "&lt;/" + t + "&gt;"
        == ("&lt;" + t + "&gt;" + x) + ("&lt;/" + t + "&gt;");
  }

  lemma {:induction false} EscapeOpenTag(t: string)
    requires forall i :: 0 <= i < |t| ==> !IsMarkupChar(t[i])
    ensures HtmlEscape("<" + t + ">") == "&lt;" + t + "&gt;"
  {
    HtmlEscapePlain(t);
    assert HtmlEscape("<") == "&lt;" by { EscapeUnfold("<"); }
    assert HtmlEscape(">") == "&gt;" by { EscapeUnfold(">"); }
    HtmlEscapeAppend("<", t);
    HtmlEscapeAppend("<" + t, ">");
  }

  lemma {:induction false} EscapeCloseTag(t: string)
    requires forall i :: 0 <= i < |t| ==> !IsMarkupChar(t[i])
    ensures HtmlEscape("</" + t + ">") == "&lt;/" + t + "&gt;"
  {
    var u := "/" + t;
    forall i | 0 <= i < |u| ensures !IsMarkupChar(u[i]) {
      if i > 0 {
        assert u[i] == t[i - 1];
      }
    }
    EscapeOpenTag(u);
    assert "</" + t + ">" == "<" + u + ">";
    assert "&lt;" + u + "&gt;" == "&lt;/" + t + "&gt;";
  }

  /** Text without markup characters is left as it is. */
  lemma {:induction false} HtmlEscapePlain(s: string)
    requires forall i :: 0 <= i < |s| ==> !IsMarkupChar(s[i])
    ensures HtmlEscape(s) == s
    decreases |s|
  {
    if s != [] {
      HtmlEscapePlain(s[1..]);
      assert [s[0]] + s[1..] == s;
    }
  }

  /** An ampersand in a title is shown as text. */
  lemma {:induction false} AmpersandExample()
    ensures HtmlEscape("Rock & Roll") == "Rock &amp; Roll"
  {
    var a, c := "Rock ", " Roll";
    AmpersandParts(a, c);
    assert a + ("&" + c) == "Rock & Roll";
    assert a + ("&amp;" + c) == "Rock &amp; Roll";
  }

  lemma {:induction false} AmpersandParts(a: string, c: string)
    requires forall i :: 0 <= i < |a| ==> !IsMarkupChar(a[i])
    requires forall i :: 0 <= i < |c| ==> !IsMarkupChar(c[i])
    ensures HtmlEscape(a + ("&" + c)) == a + ("&amp;" + c)
  {
    HtmlEscapePlain(a);
    HtmlEscapePlain(c);
    assert ("&" + c)[1..] == c;
    HtmlEscapeAppend(a, "&" + c);
  }

  /** A list item whose artist is written as markup and whose title holds an
      ampersand. */
  lemma {:induction false} FormatSongHtmlExample()
    ensures FormatSongHtml("<b>Bob</b>", "Rock & Roll")
         == "<li>" + "&lt;b&gt;Bob&lt;/b&gt;" + Dash + "Rock &amp; Roll" + "</li>"
  {
    var a, t := "<b>Bob</b>", "Rock & Roll";
    ItemWithArtist(a, t);
    HtmlEscapeExample();
    AmpersandExample();
  }

  lemma {:induction false} ItemWithArtist(artist: string, title: string)
    requires artist != ""
    ensures FormatSongHtml(artist, title) == "<li>" + HtmlEscape(artist) + Dash + HtmlEscape(title) + "</li>"
  {
  }
}

=== FILE: index.dfy ===
/**
 `generate_alphabetical_index`: every song of the document, sorted by title
 case-insensitively, with an entry dropped when it repeats the entry before
 it, and a full-width letter cell opening each run of titles that share a
 first letter. The body is computed as a sequence of items (letter cells and
 title rows) by the loop of make_documents.py, then each item is rendered to one line.
 */
module AlphaIndex {
  import opened Strings
  import opened Sorting
  import opened Optional
  import opened TypstEscape
  import opened TypstLines
  import opened Subsequences

  /** One `(title, artist, section)` tuple collected for the index. */
  datatype IndexEntry = IndexEntry(title: string, artist: string, section: string)

  /** The sort key: the lower-cased title. */
  function TitleKey(e: IndexEntry): string {
    Lower(e.title)
  }

  /** The duplicate key: title and artist, case-insensitively. */
  function DedupKey(e: IndexEntry): (string, string) {
    (Lower(e.title), Lower(e.artist))
  }

  /** The bucket of a title: its first character upper-cased when that is a
      letter, and `#` otherwise (an empty title included). */
  function LetterOf(title: string): (r: string)
    ensures title != [] && IsAlpha(title[0]) ==> r == [UpperChar(title[0])] && 'A' <= r[0] <= 'Z'
    ensures title == [] || !IsAlpha(title[0]) ==> r == "#"
  {
    var first := if title != [] then [UpperChar(title[0])] else [];
    if first != [] && IsAlpha(first[0]) then first else "#"
  }

  /** A bucket does not depend on the case of the title. */
  lemma {:induction false} LetterOfLower(title: string)
    ensures LetterOf(Lower(title)) == LetterOf(title)
  {
  }

  datatype IndexItem = LetterCell(letter: string) | TitleRow(title: string, artist: string)

  /** The loop of make_documents.py, with its two variables as parameters: the key
      of the last entry emitted and the letter of the current bucket.
      Comparing with the last entry emitted is the same as comparing with the
      entry just before in the input, and a skipped entry never opens a
      bucket, so the loop is the two stages DropRepeats and Headed. */
  function IndexLoop(s: seq<IndexEntry>, last: Option<(string, string)>, current: Option<string>): (r: seq<IndexItem>)
    ensures r == Headed(DropRepeats(s, last), current)
    decreases |s|
  {
    if s == [] then []
    else if last == Some(DedupKey(s[0])) then
      var r := IndexLoop(s[1..], last, current);
      assert DropRepeats(s, last) == DropRepeats(s[1..], last);
      r
    else
      var letter := LetterOf(s[0].title);
      var k := DedupKey(s[0]);
      var t := IndexLoop(s[1..], Some(k), Some(letter));
      var tail := DropRepeats(s[1..], Some(k));
      assert DropRepeats(s, last) == [s[0]] + tail;
      assert ([s[0]] + tail)[1..] == tail;
      (if current != Some(letter) then [LetterCell(letter)] else [])
        + [TitleRow(s[0].title, s[0].artist)]
        + t
  }

  /** The sorted entries, then the loop from its initial state. */
  function IndexItems(all: seq<IndexEntry>): seq<IndexItem>
  {
    IndexLoop(SortBy(all, TitleKey), None, None)
  }

  // ---------------------------------------------------------------------
  // Stage one: dropping repeats
  // ---------------------------------------------------------------------

  /** The key of the entry before position `i` (or `prev` at the start). */
  function KeyBefore(s: seq<IndexEntry>, i: nat, prev: Option<(string, string)>): Option<(string, string)>
    requires i < |s|
  {
    if i == 0 then prev else Some(DedupKey(s[i - 1]))
  }

  /** Keeps each entry whose key differs from that of the entry just before
      it in the input. */
  function DropRepeats(s: seq<IndexEntry>, prev: Option<(string, string)>): (r: seq<IndexEntry>)
    ensures |r| <= |s|
    decreases |s|
  {
    if s == [] then []
    else (if prev == Some(DedupKey(s[0])) then [] else [s[0]]) + DropRepeats(s[1..], Some(DedupKey(s[0])))
  }

  /** For each position of `s`, whether its key differs from the key before it. */
  function KeepMask(s: seq<IndexEntry>, prev: Option<(string, string)>): (m: seq<bool>)
    ensures |m| == |s|
    ensures forall i :: 0 <= i < |s| ==> m[i] == (KeyBefore(s, i, prev) != Some(DedupKey(s[i])))
  {
    seq(|s|, i requires 0 <= i < |s| => KeyBefore(s, i, prev) != Some(DedupKey(s[i])))
  }

  /** The mask of the tail continues the mask of the whole, one position on. */
  lemma {:induction false} KeepMaskTail(s: seq<IndexEntry>, prev: Option<(string, string)>)
    requires s != []
    ensures KeepMask(s, prev)[1..] == KeepMask(s[1..], Some(DedupKey(s[0])))
  {
    var m := KeepMask(s, prev);
    var n := KeepMask(s[1..], Some(DedupKey(s[0])));
    forall j | 0 <= j < |n|
      ensures m[1..][j] == n[j]
    {
      assert KeyBefore(s, j + 1, prev) == KeyBefore(s[1..], j, Some(DedupKey(s[0])));
    }
  }

  /** DropRepeats keeps exactly the entries at the positions whose key differs
      from the key before it, in input order and with their multiplicity: a
      repeat of its predecessor is dropped, everything else stays. */
  lemma {:induction false} DropRepeatsSelects(s: seq<IndexEntry>, prev: Option<(string, string)>)
    ensures DropRepeats(s, prev) == Select(s, KeepMask(s, prev))
    decreases |s|
  {
    if s != [] {
      DropRepeatsSelects(s[1..], Some(DedupKey(s[0])));
      KeepMaskTail(s, prev);
    }
  }

  /** What DropRepeats keeps: exactly the entries whose key differs from the
      key before them, as the selection by KeepMask; the kept entries come
      from the input; no two neighbours in the result share a key. */
  lemma {:induction false} DropRepeatsSpec(s: seq<IndexEntry>, prev: Option<(string, string)>)
    ensures var r := DropRepeats(s, prev);
            && r == Select(s, KeepMask(s, prev))
            && (forall i :: 0 <= i < |s| && KeyBefore(s, i, prev) != Some(DedupKey(s[i])) ==> s[i] in r)
            && (forall x :: x in r ==> x in s)
            && (r != [] ==> prev != Some(DedupKey(r[0])))
            && (forall i :: 0 < i < |r| ==> DedupKey(r[i - 1]) != DedupKey(r[i]))
  {
    DropRepeatsSelects(s, prev);
    DropRepeatsFacts(s, prev);
  }

  /** The membership and neighbour facts of `DropRepeatsSpec`, by induction. */
  lemma {:induction false} DropRepeatsFacts(s: seq<IndexEntry>, prev: Option<(string, string)>)
    ensures var r := DropRepeats(s, prev);
            && (forall i :: 0 <= i < |s| && KeyBefore(s, i, prev) != Some(DedupKey(s[i])) ==> s[i] in r)
            && (forall x :: x in r ==> x in s)
            && (r != [] ==> prev != Some(DedupKey(r[0])))
            && (forall i :: 0 < i < |r| ==> DedupKey(r[i - 1]) != DedupKey(r[i]))
    decreases |s|
  {
    if s != [] {
      var k := DedupKey(s[0]);
      DropRepeatsFacts(s[1..], Some(k));
      DropKeepsStep(s, prev);
      DropNeighboursStep(s, prev);
    }
  }

  /** The membership half of `DropRepeatsFacts`, one entry at a time. */
  lemma {:induction false} DropKeepsStep(s: seq<IndexEntry>, prev: Option<(string, string)>)
    requires s != []
    requires var t := DropRepeats(s[1..], Some(DedupKey(s[0])));
             && (forall i :: 0 <= i < |s[1..]| && KeyBefore(s[1..], i, Some(DedupKey(s[0]))) != Some(DedupKey(s[1..][i])) ==> s[1..][i] in t)
             && (forall x :: x in t ==> x in s[1..])
    ensures var r := DropRepeats(s, prev);
            && (forall i :: 0 <= i < |s| && KeyBefore(s, i, prev) != Some(DedupKey(s[i])) ==> s[i] in r)
            && (forall x :: x in r ==> x in s)
  {
    var r := DropRepeats(s, prev);
    var k := DedupKey(s[0]);
    var tail := DropRepeats(s[1..], Some(k));
    var head := if prev == Some(k) then [] else [s[0]];
    assert r == head + tail;
    forall i | 0 <= i < |s| && KeyBefore(s, i, prev) != Some(DedupKey(s[i]))
      ensures s[i] in r
    {
      if i > 0 {
        assert KeyBefore(s[1..], i - 1, Some(k)) == KeyBefore(s, i, prev);
        assert s[1..][i - 1] in tail;
      }
    }
  }

  /** The neighbour half of `DropRepeatsFacts`, one entry at a time. */
  lemma {:induction false} DropNeighboursStep(s: seq<IndexEntry>, prev: Option<(string, string)>)
    requires s != []
    requires var t := DropRepeats(s[1..], Some(DedupKey(s[0])));
             && (t != [] ==> Some(DedupKey(s[0])) != Some(DedupKey(t[0])))
             && (forall i :: 0 < i < |t| ==> DedupKey(t[i - 1]) != DedupKey(t[i]))
    ensures var r := DropRepeats(s, prev);
            && (r != [] ==> prev != Some(DedupKey(r[0])))
            && (forall i :: 0 < i < |r| ==> DedupKey(r[i - 1]) != DedupKey(r[i]))
  {
    var r := DropRepeats(s, prev);
    var k := DedupKey(s[0]);
    var tail := DropRepeats(s[1..], Some(k));
    var head := if prev == Some(k) then [] else [s[0]];
    assert r == head + tail;
    forall i | 0 < i < |r|
      ensures DedupKey(r[i - 1]) != DedupKey(r[i])
    {
      if head != [] && i == 1 {
        assert r[1] == tail[0];
      } else if head != [] {
        assert r[i - 1] == tail[i - 2] && r[i] == tail[i - 1];
      } else {
        assert r[i - 1] == tail[i - 1] && r[i] == tail[i];
      }
    }
  }

  lemma {:induction false} DropRepeatsSorted(s: seq<IndexEntry>, prev: Option<(string, string)>)
    requires SortedBy(s, TitleKey)
    ensures SortedBy(DropRepeats(s, prev), TitleKey)
    decreases |s|
  {
    if s != [] {
      var k := DedupKey(s[0]);
      assert SortedBy(s[1..], TitleKey) by {
        forall i, j | 0 <= i < j < |s[1..]|
          ensures LexLe(TitleKey(s[1..][i]), TitleKey(s[1..][j]))
        {
          assert s[1..][i] == s[i + 1] && s[1..][j] == s[j + 1];
        }
      }
      DropRepeatsSorted(s[1..], Some(k));
      var tail := DropRepeats(s[1..], Some(k));
      if prev != Some(k) {
        DropRepeatsFacts(s[1..], Some(k));
        forall j | 0 <= j < |tail|
          ensures LexLe(TitleKey(s[0]), TitleKey(tail[j]))
        {
          assert tail[j] in s[1..];
          var m :| 0 <= m < |s[1..]| && s[1..][m] == tail[j];
          assert s[m + 1] == tail[j];
        }
        SortedPrepend(s[0], tail, TitleKey);
      }
    }
  }

  // ---------------------------------------------------------------------
  // Stage two: letter cells
  // ---------------------------------------------------------------------

  function RowOf(e: IndexEntry): (string, string) {
    (e.title, e.artist)
  }

  /** Emits a letter cell before every entry whose bucket differs from the
      bucket of the entry before it (`current` at the start). */
  function Headed(d: seq<IndexEntry>, current: Option<string>): seq<IndexItem>
    decreases |d|
  {
    if d == [] then []
    else
      var letter := LetterOf(d[0].title);
      (if current != Some(letter) then [LetterCell(letter)] else [])
        + [TitleRow(d[0].title, d[0].artist)]
        + Headed(d[1..], Some(letter))
  }

  /** The title rows among `items`, in order. */
  function Rows(items: seq<IndexItem>): seq<(string, string)>
  {
    if items == [] then []
    else (if items[0].TitleRow? then [(items[0].title, items[0].artist)] else []) + Rows(items[1..])
  }

  /** The bucket an item belongs to. */
  function ItemLetter(it: IndexItem): string {
    match it
    case LetterCell(l) => l
    case TitleRow(t, _) => LetterOf(t)
  }

  /** The bucket of the line above position `i` (or `current` at the start). */
  function LetterBefore(items: seq<IndexItem>, i: nat, current: Option<string>): Option<string>
    requires i < |items|
  {
    if i == 0 then current else Some(ItemLetter(items[i - 1]))
  }

  /** Letter cells stand exactly where the bucket changes: a title row is in
      the bucket of the line above it, and a letter cell differs from the line
      above and is followed by a title row of its own bucket. */
  ghost predicate Bucketed(items: seq<IndexItem>, current: Option<string>) {
    && (forall i :: 0 <= i < |items| && items[i].TitleRow? ==>
          LetterBefore(items, i, current) == Some(ItemLetter(items[i])))
    && (forall i :: 0 <= i < |items| && items[i].LetterCell? ==>
          && LetterBefore(items, i, current) != Some(items[i].letter)
          && i + 1 < |items| && items[i + 1].TitleRow?
          && ItemLetter(items[i + 1]) == items[i].letter)
  }

  lemma {:induction false} RowsAppend(a: seq<IndexItem>, b: seq<IndexItem>)
    ensures Rows(a + b) == Rows(a) + Rows(b)
    decreases |a|
  {
    if a != [] {
      assert (a + b)[1..] == a[1..] + b;
      RowsAppend(a[1..], b);
    } else {
      assert a + b == b;
    }
  }

  /** Stage two keeps every entry, as a title row, in order. */
  lemma {:induction false} HeadedRows(d: seq<IndexEntry>, current: Option<string>)
    ensures Rows(Headed(d, current)) == MapSeq(RowOf, d)
    decreases |d|
  {
    if d != [] {
      var letter := LetterOf(d[0].title);
      var cell := if current != Some(letter) then [LetterCell(letter)] else [];
      var row := TitleRow(d[0].title, d[0].artist);
      var rest := Headed(d[1..], Some(letter));
      HeadedRows(d[1..], Some(letter));
      HeadedUnfold(d, current);
      RowsOfStep(cell, row, rest);
      MapSeqCons(RowOf, d);
    }
  }

  lemma {:induction false} HeadedUnfold(d: seq<IndexEntry>, current: Option<string>)
    requires d != []
    ensures Headed(d, current)
         == (if current != Some(LetterOf(d[0].title)) then [LetterCell(LetterOf(d[0].title))] else [])
            + [TitleRow(d[0].title, d[0].artist)] + Headed(d[1..], Some(LetterOf(d[0].title)))
  {
  }

  /** An optional letter cell and one title row in front add that one row. */
  lemma {:induction false} RowsOfStep(cell: seq<IndexItem>, row: IndexItem, rest: seq<IndexItem>)
    requires forall i :: 0 <= i < |cell| ==> cell[i].LetterCell?
    requires row.TitleRow?
    ensures Rows(cell + [row] + rest) == [(row.title, row.artist)] + Rows(rest)
  {
    RowsAppend(cell + [row], rest);
    RowsAppend(cell, [row]);
    NoRows(cell);
    assert Rows([row]) == [(row.title, row.artist)] + Rows([]);
  }

  lemma {:induction false} NoRows(cells: seq<IndexItem>)
    requires forall i :: 0 <= i < |cells| ==> cells[i].LetterCell?
    ensures Rows(cells) == []
    decreases |cells|
  {
    if cells != [] {
      NoRows(cells[1..]);
    }
  }

  lemma {:induction false} HeadedBucketed(d: seq<IndexEntry>, current: Option<string>)
    ensures Bucketed(Headed(d, current), current)
    decreases |d|
  {
    if d != [] {
      var letter := LetterOf(d[0].title);
      var row := TitleRow(d[0].title, d[0].artist);
      var pre := (if current != Some(letter) then [LetterCell(letter)] else []) + [row];
      var rest := Headed(d[1..], Some(letter));
      HeadedBucketed(d[1..], Some(letter));
      BucketedPrepend(pre, rest, current, letter);
    }
  }

  lemma {:induction false} BucketedPrepend(pre: seq<IndexItem>, rest: seq<IndexItem>, current: Option<string>, letter: string)
    requires |pre| >= 1 && pre[|pre| - 1].TitleRow? && ItemLetter(pre[|pre| - 1]) == letter
    requires || (|pre| == 1 && current == Some(letter))
             || (|pre| == 2 && pre[0] == LetterCell(letter) && current != Some(letter))
    requires Bucketed(rest, Some(letter))
    ensures Bucketed(pre + rest, current)
  {
    RowsPrepend(pre, rest, current, letter);
    CellsPrepend(pre, rest, current, letter);
  }

  lemma {:induction false} RowsPrepend(pre: seq<IndexItem>, rest: seq<IndexItem>, current: Option<string>, letter: string)
    requires |pre| >= 1 && pre[|pre| - 1].TitleRow? && ItemLetter(pre[|pre| - 1]) == letter
    requires || (|pre| == 1 && current == Some(letter))
             || (|pre| == 2 && pre[0] == LetterCell(letter) && current != Some(letter))
    requires forall i :: 0 <= i < |rest| && rest[i].TitleRow? ==>
               LetterBefore(rest, i, Some(letter)) == Some(ItemLetter(rest[i]))
    ensures forall i :: 0 <= i < |pre + rest| && (pre + rest)[i].TitleRow? ==>
               LetterBefore(pre + rest, i, current) == Some(ItemLetter((pre + rest)[i]))
  {
    var items := pre + rest;
    var p := |pre|;
    forall i | 0 <= i < |items| && items[i].TitleRow?
      ensures LetterBefore(items, i, current) == Some(ItemLetter(items[i]))
    {
      if i >= p {
        assert items[i] == rest[i - p];
        assert LetterBefore(items, i, current) == LetterBefore(rest, i - p, Some(letter)) by {
          if i > p {
            assert items[i - 1] == rest[i - p - 1];
          }
        }
      }
    }
  }

  lemma {:induction false} CellsPrepend(pre: seq<IndexItem>, rest: seq<IndexItem>, current: Option<string>, letter: string)
    requires |pre| >= 1 && pre[|pre| - 1].TitleRow? && ItemLetter(pre[|pre| - 1]) == letter
    requires || (|pre| == 1 && current == Some(letter))
             || (|pre| == 2 && pre[0] == LetterCell(letter) && current != Some(letter))
    requires forall i :: 0 <= i < |rest| && rest[i].LetterCell? ==>
               && LetterBefore(rest, i, Some(letter)) != Some(rest[i].letter)
               && i + 1 < |rest| && rest[i + 1].TitleRow?
               && ItemLetter(rest[i + 1]) == rest[i].letter
    ensures forall i :: 0 <= i < |pre + rest| && (pre + rest)[i].LetterCell? ==>
               && LetterBefore(pre + rest, i, current) != Some((pre + rest)[i].letter)
               && i + 1 < |pre + rest| && (pre + rest)[i + 1].TitleRow?
               && ItemLetter((pre + rest)[i + 1]) == (pre + rest)[i].letter
  {
    var items := pre + rest;
    var p := |pre|;
    forall i | 0 <= i < |items| && items[i].LetterCell?
      ensures && LetterBefore(items, i, current) != Some(items[i].letter)
              && i + 1 < |items| && items[i + 1].TitleRow?
              && ItemLetter(items[i + 1]) == items[i].letter
    {
      if i >= p {
        var j := i - p;
        assert items[i] == rest[j];
        assert j + 1 < |rest| && items[i + 1] == rest[j + 1];
        assert LetterBefore(items, i, current) == LetterBefore(rest, j, Some(letter)) by {
          if j > 0 {
            assert items[i - 1] == rest[j - 1];
          }
        }
      }
    }
  }

  // ---------------------------------------------------------------------
  // The loop is the two stages
  // ---------------------------------------------------------------------

  /** The index body: its title rows are the sorted entries without the
      repeats, and letter cells stand exactly where the bucket changes,
      starting with one before the first row. */
  lemma {:induction false} IndexItemsSpec(all: seq<IndexEntry>)
    ensures var sorted := SortBy(all, TitleKey);
            var kept := DropRepeats(sorted, None);
            && StableSortOf(sorted, all, TitleKey)
            && SortedBy(kept, TitleKey)
            && Rows(IndexItems(all)) == MapSeq(RowOf, kept)
            && Bucketed(IndexItems(all), None)
  {
    var sorted := SortBy(all, TitleKey);
    DropRepeatsSorted(sorted, None);
    HeadedRows(DropRepeats(sorted, None), None);
    HeadedBucketed(DropRepeats(sorted, None), None);
  }

  // ---------------------------------------------------------------------
  // Lines
  // ---------------------------------------------------------------------

  const LetterCellOpen := "table.cell(colspan: 2, align: center, inset: 3pt, fill: luma(80%))[#text(weight: \"bold\")["

  /** One index line per item. A row with no artist leaves the second cell empty. */
  function RenderItem(it: IndexItem): (r: string)
    ensures it.TitleRow? ==> r == "  [" + EscapeTypst(it.title) + "], [" + EscapeTypst(it.artist) + "],"
    ensures it.LetterCell? ==> r == "  " + LetterCellOpen + EscapeTypst(it.letter) + "]],"
    ensures |r| > 0 && r[0] == ' '
  {
    match it
    case LetterCell(l) =>
      "  " + LetterCellOpen + EscapeTypst(l) + "]],"
    case TitleRow(title, artist) =>
      var titleEsc := EscapeTypst(title);
      var artistEsc := if artist != "" then EscapeTypst(artist) else "";
      EscapeNonEmpty(artist);
      if artistEsc != "" then "  [" + titleEsc + "], [" + artistEsc + "],"
      else "  [" + titleEsc + "], [],"
  }

  /** A row without an artist leaves the second cell empty. */
  lemma {:induction false} EmptyArtistRow(title: string)
    ensures RenderItem(TitleRow(title, "")) == "  [" + EscapeTypst(title) + "], [],"
  {
    EscapeNonEmpty("");
  }

  lemma {:induction false} EscapeNonEmpty(s: string)
    ensures EscapeTypst(s) == [] <==> s == []
  {
  }

  /** The header line of a title's bucket shows the upper-cased letter; the
      `#` bucket's header shows it escaped. */
  lemma {:induction false} LetterCellText(title: string)
    ensures EscapeTypst(LetterOf(title)) == if title != [] && IsAlpha(title[0]) then [UpperChar(title[0])] else "\\#"
    ensures title != [] && IsAlpha(title[0]) ==>
              RenderItem(LetterCell(LetterOf(title))) == "  " + LetterCellOpen + [UpperChar(title[0])] + "]],"
    ensures !(title != [] && IsAlpha(title[0])) ==>
              RenderItem(LetterCell(LetterOf(title))) == "  " + LetterCellOpen + "\\#" + "]],"
  {
    var l := LetterOf(title);
    if title != [] && IsAlpha(title[0]) {
      PlainUnchanged(l);
    } else {
      assert DirectEscape("#") == "\\#";
    }
  }

  const IndexPrologue: seq<string> := [
    "#pagebreak()",
    "",
    "= Hakemisto",
    "",
    "#set text(size: 6pt)",
    "#set par(leading: 0.3em)",
    IndexColumnsOpen,
    "#table(",
    "  columns: (1.5fr, 1fr),",
    "  stroke: none,",
    "  inset: 1.5pt,",
    "  row-gutter: 0pt,"
  ]

  const IndexColumnsOpen := "#columns(3, gutter: 0.25cm)["

  const IndexEpilogue: seq<string> := [")", "]", ""]

  function RenderItems(items: seq<IndexItem>): (r: seq<string>)
    ensures |r| == |items|
    ensures forall i :: 0 <= i < |r| ==> r[i] == RenderItem(items[i]) && Neutral(r[i])
  {
    MapSeq(RenderItem, items)
  }

  /** `generate_alphabetical_index`: nothing for no songs; otherwise a fixed
      prologue, one line per item and a fixed epilogue, in which the one
      content block opened is closed. */
  function IndexLines(all: seq<IndexEntry>): (r: seq<string>)
    ensures r == [] <==> all == []
    ensures all != [] ==> && |r| == |IndexPrologue| + |IndexItems(all)| + |IndexEpilogue|
                          && r[..|IndexPrologue|] == IndexPrologue
                          && r[|IndexPrologue|..|r| - |IndexEpilogue|] == RenderItems(IndexItems(all))
                          && r[|r| - |IndexEpilogue|..] == IndexEpilogue
    ensures Balanced(r)
    ensures forall i :: 0 <= i < |r| ==> ShortDirective(r[i])
  {
    if all == [] then
      NeutralBalanced([]);
      []
    else
      var body := RenderItems(IndexItems(all));
      IndexBalanced(body);
      IndexFramed(body);
      IndexPrologue + body + IndexEpilogue
  }

  /** The prologue and epilogue sit around the item lines, and no line is a
      long directive. */
  lemma {:induction false} IndexFramed(body: seq<string>)
    requires forall i :: 0 <= i < |body| ==> |body[i]| > 0 && body[i][0] == ' '
    ensures var r := IndexPrologue + body + IndexEpilogue;
            && r[..|IndexPrologue|] == IndexPrologue
            && r[|IndexPrologue|..|r| - |IndexEpilogue|] == body
            && r[|r| - |IndexEpilogue|..] == IndexEpilogue
            && forall i :: 0 <= i < |r| ==> ShortDirective(r[i])
  {
    var r := IndexPrologue + body + IndexEpilogue;
    assert r[..|IndexPrologue|] == IndexPrologue;
    assert r[|IndexPrologue|..|r| - |IndexEpilogue|] == body;
    assert r[|r| - |IndexEpilogue|..] == IndexEpilogue;
    FrameShort();
    forall i | 0 <= i < |r| ensures ShortDirective(r[i]) {
      if i < |IndexPrologue| {
        assert r[i] == IndexPrologue[i];
      } else if i < |IndexPrologue| + |body| {
        assert r[i] == body[i - |IndexPrologue|];
      } else {
        assert r[i] == IndexEpilogue[i - |IndexPrologue| - |body|];
      }
    }
  }

  lemma {:induction false} FrameShort()
    ensures forall i :: 0 <= i < |IndexPrologue| ==> ShortDirective(IndexPrologue[i])
    ensures forall i :: 0 <= i < |IndexEpilogue| ==> ShortDirective(IndexEpilogue[i])
  {
  }

  lemma {:induction false} IndexBalanced(body: seq<string>)
    requires forall i :: 0 <= i < |body| ==> Neutral(body[i])
    ensures Balanced(IndexPrologue + body + IndexEpilogue)
  {
    var before := IndexPrologue[..6];
    var inner := IndexPrologue[7..] + body + [")"];
    assert IsOpener(IndexColumnsOpen);
    assert Neutral("#pagebreak()") && Neutral("#set text(size: 6pt)") && Neutral("#set par(leading: 0.3em)");
    assert Neutral("= Hakemisto") && Neutral("");
    assert before == ["#pagebreak()", "", "= Hakemisto", "", "#set text(size: 6pt)", "#set par(leading: 0.3em)"];
    forall i | 0 <= i < |inner| ensures Neutral(inner[i]) {
      if i < 5 {
        assert inner[i] == IndexPrologue[7 + i];
      } else if i < 5 + |body| {
        assert inner[i] == body[i - 5];
      }
    }
    NeutralBalanced(before);
    NeutralBalanced(inner);
    NeutralBalanced([""]);
    BalancedWrap(IndexColumnsOpen, inner);
    BalancedAppend(before, [IndexColumnsOpen] + inner + ["]"]);
    BalancedAppend(before + ([IndexColumnsOpen] + inner + ["]"]), [""]);
    assert IndexPrologue + body + IndexEpilogue
        == before + ([IndexColumnsOpen] + inner + ["]"]) + [""];
  }

  // ---------------------------------------------------------------------
  // Examples
  // ---------------------------------------------------------------------

  /** Titles that differ only in case, by the same artist, are one entry. */
  lemma {:induction false} RepeatDropped()
    ensures DropRepeats([IndexEntry("Abc", "X", "Anime"), IndexEntry("abc", "x", "Muut")], None)
         == [IndexEntry("Abc", "X", "Anime")]
  {
    var a := IndexEntry("Abc", "X", "Anime");
    var b := IndexEntry("abc", "x", "Muut");
    assert Lower("Abc") == "abc" && Lower("X") == "x";
    assert Lower("x") == "x";
    assert DedupKey(a) == DedupKey(b);
    assert [a, b][1..] == [b];
  }

  /** Titles starting with a digit sort before the letters and titles starting
      with `~` after them, so the `#` bucket is opened twice. */
  lemma {:induction false} HashBucketTwice()
    ensures Headed([IndexEntry("1", "", ""), IndexEntry("b", "", ""), IndexEntry("~", "", "")], None)
         == [LetterCell("#"), TitleRow("1", ""), LetterCell("B"), TitleRow("b", ""), LetterCell("#"), TitleRow("~", "")]
    ensures LexLe(Lower("1"), Lower("b")) && LexLe(Lower("b"), Lower("~"))
  {
    var d := [IndexEntry("1", "", ""), IndexEntry("b", "", ""), IndexEntry("~", "", "")];
    assert d[1..] == [IndexEntry("b", "", ""), IndexEntry("~", "", "")];
    assert d[1..][1..] == [IndexEntry("~", "", "")];
    assert LetterOf("b") == "B";
  }

  /** Only a repeat of the entry just before is dropped: with titles equal
      and a different artist in between, the second "A" row stays. */
  lemma {:induction false} NonAdjacentRepeatKept()
    ensures var d := [IndexEntry("x", "A", ""), IndexEntry("x", "B", ""), IndexEntry("X", "a", "")];
            DropRepeats(d, None) == d && DedupKey(d[0]) == DedupKey(d[2])
  {
    var d := [IndexEntry("x", "A", ""), IndexEntry("x", "B", ""), IndexEntry("X", "a", "")];
    assert Lower("x") == "x" && Lower("X") == "x";
    assert Lower("A") == "a" && Lower("a") == "a" && Lower("B") == "b";
    assert d[1..] == [IndexEntry("x", "B", ""), IndexEntry("X", "a", "")];
    assert d[1..][1..] == [IndexEntry("X", "a", "")];
  }
}

=== FILE: optional.dfy ===
/** Python's `None`-or-value, used for spreadsheet cells, column positions and
    the "nothing seen yet" state of the index loop. */
module Optional {
  datatype Option<+T> = None | Some(value: T)
}

=== FILE: sorting.dfy ===
/**
 Stable sorting by a string key, as Python's `list.sort(key=...)` and
 `sorted(..., key=...)` do it. The specification is StableSortOf:
 a permutation, ascending in Python's string order of the keys, and
 for every key value the elements carrying that key keep their original
 relative order. The implementation is an insertion sort.
 */
module Sorting {
  import opened Strings

  /** Ascending by key: every earlier element's key is at most every later one's. */
  ghost predicate SortedBy<T>(s: seq<T>, key: T -> string) {
    forall i, j :: 0 <= i < j < |s| ==> LexLe(key(s[i]), key(s[j]))
  }

  /** The subsequence of `s` whose key is exactly `k`, in order. */
  function WithKey<T>(s: seq<T>, key: T -> string, k: string): (r: seq<T>)
    ensures |r| <= |s|
  {
    if s == [] then []
    else (if key(s[0]) == k then [s[0]] else []) + WithKey(s[1..], key, k)
  }

  /** `r` is what a stable sort of `xs` by `key` returns. */
  ghost predicate StableSortOf<T>(r: seq<T>, xs: seq<T>, key: T -> string) {
    && multiset(r) == multiset(xs)
    && SortedBy(r, key)
    && forall k :: WithKey(r, key, k) == WithKey(xs, key, k)
  }

  lemma {:induction false} SortedPrepend<T>(x: T, s: seq<T>, key: T -> string)
    requires SortedBy(s, key)
    requires forall j :: 0 <= j < |s| ==> LexLe(key(x), key(s[j]))
    ensures SortedBy([x] + s, key)
  {
    var r := [x] + s;
    forall i, j | 0 <= i < j < |r|
      ensures LexLe(key(r[i]), key(r[j]))
    {
      if i > 0 {
        assert r[i] == s[i - 1] && r[j] == s[j - 1];
      } else {
        assert r[j] == s[j - 1];
      }
    }
  }

  /** Inserts `x` in front of the first element whose key is not below `x`'s,
      so that `x` lands before every element carrying an equal key. */
  function InsertBy<T(==)>(x: T, s: seq<T>, key: T -> string): (r: seq<T>)
    requires SortedBy(s, key)
    ensures multiset(r) == multiset{x} + multiset(s)
    ensures SortedBy(r, key)
    ensures forall k :: WithKey(r, key, k) ==
                        (if key(x) == k then [x] + WithKey(s, key, k) else WithKey(s, key, k))
    decreases |s|
  {
    if s == [] || LexLe(key(x), key(s[0])) then
      InsertFront(x, s, key);
      [x] + s
    else
      var rest := InsertBy(x, s[1..], key);
      InsertAfterHead(x, s, rest, key);
      [s[0]] + rest
  }

  /** The first case of `InsertBy`: `x` goes in front. */
  lemma {:induction false} InsertFront<T>(x: T, s: seq<T>, key: T -> string)
    requires SortedBy(s, key)
    requires s == [] || LexLe(key(x), key(s[0]))
    ensures var r := [x] + s;
            && multiset(r) == multiset{x} + multiset(s)
            && SortedBy(r, key)
            && forall k :: WithKey(r, key, k) ==
                           (if key(x) == k then [x] + WithKey(s, key, k) else WithKey(s, key, k))
  {
    InsertFrontSorted(x, s, key);
    assert ([x] + s)[1..] == s;
  }

  /** The second case of `InsertBy`: `x` goes into the tail. */
  lemma {:induction false} InsertAfterHead<T>(x: T, s: seq<T>, rest: seq<T>, key: T -> string)
    requires SortedBy(s, key) && s != []
    requires !LexLe(key(x), key(s[0]))
    requires multiset(rest) == multiset{x} + multiset(s[1..])
    requires SortedBy(rest, key)
    requires forall k :: WithKey(rest, key, k) ==
                         (if key(x) == k then [x] + WithKey(s[1..], key, k) else WithKey(s[1..], key, k))
    ensures var r := [s[0]] + rest;
            && multiset(r) == multiset{x} + multiset(s)
            && SortedBy(r, key)
            && forall k :: WithKey(r, key, k) ==
                           (if key(x) == k then [x] + WithKey(s, key, k) else WithKey(s, key, k))
  {
    InsertAfterHeadSorted(x, s, rest, key);
    assert ([s[0]] + rest)[1..] == rest;
    assert s == [s[0]] + s[1..];
    LexLeReflexive(key(x));
  }

  lemma {:induction false} InsertFrontSorted<T>(x: T, s: seq<T>, key: T -> string)
    requires SortedBy(s, key)
    requires s == [] || LexLe(key(x), key(s[0]))
    ensures SortedBy([x] + s, key)
  {
    forall j | 0 <= j < |s|
      ensures LexLe(key(x), key(s[j]))
    {
      if j > 0 {
        LexLeTransitive(key(x), key(s[0]), key(s[j]));
      }
    }
    SortedPrepend(x, s, key);
  }

  lemma {:induction false} InsertAfterHeadSorted<T>(x: T, s: seq<T>, rest: seq<T>, key: T -> string)
    requires SortedBy(s, key) && s != []
    requires !LexLe(key(x), key(s[0]))
    requires multiset(rest) == multiset{x} + multiset(s[1..])
    requires SortedBy(rest, key)
    ensures SortedBy([s[0]] + rest, key)
  {
    LexLeTotal(key(x), key(s[0]));
    forall j | 0 <= j < |rest|
      ensures LexLe(key(s[0]), key(rest[j]))
    {
      assert rest[j] in multiset(rest);
      if rest[j] != x {
        assert rest[j] in multiset(s[1..]);
        var m :| 0 <= m < |s[1..]| && s[1..][m] == rest[j];
        assert s[m + 1] == rest[j];
      }
    }
    SortedPrepend(s[0], rest, key);
  }

  /** Python's stable sort by `key`, as an insertion sort. */
  function SortBy<T(==)>(xs: seq<T>, key: T -> string): (r: seq<T>)
    ensures StableSortOf(r, xs, key)
    decreases |xs|
  {
    if xs == [] then []
    else
      assert xs == [xs[0]] + xs[1..];
      InsertBy(xs[0], SortBy(xs[1..], key), key)
  }

  lemma {:induction false} WithKeyAppend<T>(a: seq<T>, b: seq<T>, key: T -> string, k: string)
    ensures WithKey(a + b, key, k) == WithKey(a, key, k) + WithKey(b, key, k)
    decreases |a|
  {
    if a != [] {
      assert (a + b)[1..] == a[1..] + b;
      WithKeyAppend(a[1..], b, key, k);
    } else {
      assert a + b == b;
    }
  }

  /** Applies `f` to every element. */
  function MapSeq<A, B>(f: A -> B, s: seq<A>): (r: seq<B>)
    ensures |r| == |s|
    ensures forall i :: 0 <= i < |s| ==> r[i] == f(s[i])
  {
    seq(|s|, i requires 0 <= i < |s| => f(s[i]))
  }

  lemma {:induction false} MapSeqCons<A, B>(f: A -> B, s: seq<A>)
    requires s != []
    ensures MapSeq(f, s) == [f(s[0])] + MapSeq(f, s[1..])
  {
  }

  lemma {:induction false} MultisetCancel<T>(x: multiset<T>, z: multiset<T>, y: T)
    requires x + multiset{y} == z + multiset{y}
    ensures x == z
  {
    forall e ensures x[e] == z[e] {
      assert (x + multiset{y})[e] == (z + multiset{y})[e];
    }
  }

  lemma {:induction false} RemoveAt<T>(b: seq<T>, k: nat)
    requires k < |b|
    ensures multiset(b[..k] + b[k + 1..]) + multiset{b[k]} == multiset(b)
  {
    assert b == b[..k] + [b[k]] + b[k + 1..];
  }

  /** Mapping two permutations of each other gives permutations of each other. */
  lemma {:induction false} MapPermutation<A, B>(f: A -> B, a: seq<A>, b: seq<A>)
    requires multiset(a) == multiset(b)
    ensures multiset(MapSeq(f, a)) == multiset(MapSeq(f, b))
    decreases |a|
  {
    if a != [] {
      assert a[0] in multiset(b);
      var k :| 0 <= k < |b| && b[k] == a[0];
      var rest := b[..k] + b[k + 1..];
      TailPermutation(a, b, k);
      MapPermutation(f, a[1..], rest);
      MapRemoveAt(f, b, k);
      MapSeqCons(f, a);
    }
  }

  /** Taking the first element of `a` out of both sides, at its place `k` in `b`. */
  lemma {:induction false} TailPermutation<A>(a: seq<A>, b: seq<A>, k: nat)
    requires multiset(a) == multiset(b) && a != [] && k < |b| && b[k] == a[0]
    ensures multiset(a[1..]) == multiset(b[..k] + b[k + 1..])
  {
    var rest := b[..k] + b[k + 1..];
    RemoveAt(b, k);
    assert a == [a[0]] + a[1..];
    assert multiset(a[1..]) + multiset{a[0]} == multiset(rest) + multiset{a[0]};
    MultisetCancel(multiset(a[1..]), multiset(rest), a[0]);
  }

  /** Removing the element at `k` before or after mapping removes the same image. */
  lemma {:induction false} MapRemoveAt<A, B>(f: A -> B, b: seq<A>, k: nat)
    requires k < |b|
    ensures multiset(MapSeq(f, b)) == multiset(MapSeq(f, b[..k] + b[k + 1..])) + multiset{f(b[k])}
  {
    var mb := MapSeq(f, b);
    assert MapSeq(f, b[..k] + b[k + 1..]) == mb[..k] + mb[k + 1..];
    RemoveAt(mb, k);
  }

  lemma {:induction false} WithKeyAll<T>(s: seq<T>, key: T -> string, k: string)
    requires forall i :: 0 <= i < |s| ==> key(s[i]) == k
    ensures WithKey(s, key, k) == s
    decreases |s|
  {
    if s != [] {
      WithKeyAll(s[1..], key, k);
      assert [s[0]] + s[1..] == s;
    }
  }

  /** A stable sort leaves elements that share one key in their input order. */
  lemma {:induction false} EqualKeysKeepOrder<T>(r: seq<T>, xs: seq<T>, key: T -> string, k: string)
    requires StableSortOf(r, xs, key)
    requires forall i :: 0 <= i < |xs| ==> key(xs[i]) == k
    ensures r == xs
  {
    forall i | 0 <= i < |r|
      ensures key(r[i]) == k
    {
      assert r[i] in multiset(r);
      assert r[i] in multiset(xs);
      var j :| 0 <= j < |xs| && xs[j] == r[i];
    }
    WithKeyAll(r, key, k);
    WithKeyAll(xs, key, k);
  }

  /** A stable sort puts the second of two elements first exactly when its
      key sorts strictly before the first's. */
  lemma {:induction false} SortTwo<T>(r: seq<T>, x: T, y: T, key: T -> string)
    requires StableSortOf(r, [x, y], key)
    requires !LexLe(key(x), key(y))
    ensures r == [y, x]
  {
    assert |r| == 2 by {
      assert |multiset(r)| == |r|;
    }
    assert r == [r[0], r[1]];
    assert r[0] in multiset(r) && r[1] in multiset(r);
    if r[0] == x {
      assert false;
    } else {
      assert r[0] == y;
      assert multiset(r)[x] == 1;
    }
  }

  /** Two elements with equal keys keep their input order. */
  lemma {:induction false} SortTwoEqual<T>(r: seq<T>, x: T, y: T, key: T -> string)
    requires StableSortOf(r, [x, y], key)
    requires key(x) == key(y)
    ensures r == [x, y]
  {
    var xs := [x, y];
    forall i | 0 <= i < |xs|
      ensures key(xs[i]) == key(x)
    {
    }
    EqualKeysKeepOrder(r, xs, key, key(x));
  }
}

=== FILE: strings.dfy ===
/**
 The string primitives the document generator relies on, restricted to what
 the model needs: ASCII case mapping (Python's `str.lower`, `str.upper` and
 `str.isalpha` on the ASCII range), Python's lexicographic string order,
 Python's `str.replace` (left to right, non-overlapping) and `"\n".join`.
 */
module Strings {

  /** Python's `str.lower` on one character, for the ASCII range. */
  function LowerChar(c: char): char {
    if 'A' <= c <= 'Z' then (c as int + 32) as char else c
  }

  /** Python's `str.upper` on one character, for the ASCII range. */
  function UpperChar(c: char): char {
    if 'a' <= c <= 'z' then (c as int - 32) as char else c
  }

  /** Python's `str.isalpha` on one character, for the ASCII range. */
  predicate IsAlpha(c: char) {
    ('A' <= c <= 'Z') || ('a' <= c <= 'z')
  }

  /** Python's `str.lower`: every character mapped through LowerChar. */
  function Lower(s: string): (r: string)
    ensures |r| == |s|
    ensures forall i :: 0 <= i < |s| ==> r[i] == LowerChar(s[i])
  {
    if s == [] then [] else [LowerChar(s[0])] + Lower(s[1..])
  }

  /** Python's `<=` on strings: code-point lexicographic order, where a proper
      prefix sorts first and the empty string sorts before everything. */
  predicate LexLe(a: string, b: string)
    decreases |a|
  {
    |a| == 0 || (|b| > 0 && (a[0] < b[0] || (a[0] == b[0] && LexLe(a[1..], b[1..]))))
  }

  lemma {:induction false} LexLeReflexive(a: string)
    ensures LexLe(a, a)
    decreases |a|
  {
    if |a| > 0 {
      LexLeReflexive(a[1..]);
    }
  }

  lemma {:induction false} LexLeTotal(a: string, b: string)
    ensures LexLe(a, b) || LexLe(b, a)
    decreases |a|
  {
    if |a| > 0 && |b| > 0 && a[0] == b[0] {
      LexLeTotal(a[1..], b[1..]);
    }
  }

  lemma {:induction false} LexLeTransitive(a: string, b: string, c: string)
    requires LexLe(a, b) && LexLe(b, c)
    ensures LexLe(a, c)
    decreases |a|
  {
    if |a| > 0 && a[0] == b[0] && b[0] == c[0] {
      LexLeTransitive(a[1..], b[1..], c[1..]);
    }
  }

  lemma {:induction false} LexLeAntisymmetric(a: string, b: string)
    requires LexLe(a, b) && LexLe(b, a)
    ensures a == b
    decreases |a|
  {
    if |a| > 0 {
      LexLeAntisymmetric(a[1..], b[1..]);
      assert a == [a[0]] + a[1..];
      assert b == [b[0]] + b[1..];
    }
  }

  /** `pat` occurs in `s` starting at position `i`. */
  predicate OccursAt(s: string, pat: string, i: int) {
    0 <= i && i + |pat| <= |s| && s[i..i + |pat|] == pat
  }

  /** Python's `s.replace(pat, rep)`: scan left to right, replace each match
      and continue after it, so matches never overlap. */
  function ReplaceAll(s: string, pat: string, rep: string): (r: string)
    requires |pat| > 0
    ensures (forall i :: 0 <= i <= |s| ==> !OccursAt(s, pat, i)) ==> r == s
    decreases |s|
  {
    if |s| < |pat| then s
    else if s[..|pat|] == pat then
      assert OccursAt(s, pat, 0);
      rep + ReplaceAll(s[|pat|..], pat, rep)
    else
      assert forall i :: 0 <= i <= |s| - 1 ==> OccursAt(s[1..], pat, i) ==> OccursAt(s, pat, i + 1);
      [s[0]] + ReplaceAll(s[1..], pat, rep)
  }

  /** The first match is replaced: text before it is copied, `rep` stands for
      the match, and the scan resumes right after the match. Together with the
      no-match case of ReplaceAll this determines `str.replace` completely. */
  lemma {:induction false} ReplaceFirstMatch(a: string, pat: string, b: string, rep: string)
    requires |pat| > 0
    requires forall i :: 0 <= i < |a| ==> !OccursAt(a + pat, pat, i)
    ensures ReplaceAll(a + pat + b, pat, rep) == a + rep + ReplaceAll(b, pat, rep)
    decreases |a|
  {
    var s := a + pat + b;
    if a == [] {
      assert s[..|pat|] == pat && s[|pat|..] == b;
    } else {
      NoEarlyMatchTail(a, pat);
      ReplaceFirstMatch(a[1..], pat, b, rep);
      ReplaceSkipsHead(a, pat, b, rep);
      HeadThenRest(a, rep, ReplaceAll(b, pat, rep));
    }
  }

  lemma {:induction false} HeadThenRest(a: string, x: string, y: string)
    requires a != []
    ensures a + x + y == [a[0]] + (a[1..] + x + y)
  {
    assert a == [a[0]] + a[1..];
  }

  lemma {:induction false} NoEarlyMatchTail(a: string, pat: string)
    requires a != []
    requires forall i :: 0 <= i < |a| ==> !OccursAt(a + pat, pat, i)
    ensures forall i :: 0 <= i < |a[1..]| ==> !OccursAt(a[1..] + pat, pat, i)
  {
    var u := a + pat;
    assert a[1..] + pat == u[1..];
    forall i | 0 <= i < |a[1..]|
      ensures !OccursAt(u[1..], pat, i)
    {
      assert !OccursAt(u, pat, i + 1);
      if i + |pat| <= |u[1..]| {
        assert u[1..][i..i + |pat|] == u[i + 1..i + 1 + |pat|];
      }
    }
  }

  lemma {:induction false} ReplaceSkipsHead(a: string, pat: string, b: string, rep: string)
    requires |pat| > 0 && a != []
    requires !OccursAt(a + pat, pat, 0)
    ensures ReplaceAll(a + pat + b, pat, rep) == [a[0]] + ReplaceAll(a[1..] + pat + b, pat, rep)
  {
    var s := a + pat + b;
    assert s[..|pat|] == (a + pat)[0..|pat|];
    assert s[1..] == a[1..] + pat + b;
  }

  /** Python's `"\n".join(lines)`. */
  function JoinLines(lines: seq<string>): (r: string)
    ensures lines == [] ==> r == []
    ensures |lines| > 0 ==> |r| >= |lines[0]| && r[..|lines[0]|] == lines[0]
    ensures |lines| == 1 ==> r == lines[0]
  {
    if lines == [] then []
    else if |lines| == 1 then lines[0]
    else lines[0] + "\n" + JoinLines(lines[1..])
  }

  /** Joining two non-empty runs of lines puts exactly one newline between
      them, so every later line follows its predecessor after a newline. */
  lemma {:induction false} JoinLinesAppend(a: seq<string>, b: seq<string>)
    requires a != [] && b != []
    ensures JoinLines(a + b) == JoinLines(a) + "\n" + JoinLines(b)
    decreases |a|
  {
    assert (a + b)[0] == a[0] && (a + b)[1..] == a[1..] + b;
    if |a| > 1 {
      JoinLinesAppend(a[1..], b);
      assert a[0] + "\n" + (JoinLines(a[1..]) + "\n" + JoinLines(b))
          == (a[0] + "\n" + JoinLines(a[1..])) + "\n" + JoinLines(b);
    } else {
      assert a[1..] + b == b;
    }
  }

  /** Number of lines equal to `line`. */
  function CountOf(lines: seq<string>, line: string): nat
  {
    if lines == [] then 0 else (if lines[0] == line then 1 else 0) + CountOf(lines[1..], line)
  }

  lemma {:induction false} CountAppend(a: seq<string>, b: seq<string>, line: string)
    ensures CountOf(a + b, line) == CountOf(a, line) + CountOf(b, line)
    decreases |a|
  {
    if a != [] {
      assert (a + b)[1..] == a[1..] + b;
      CountAppend(a[1..], b, line);
    } else {
      assert a + b == b;
    }
  }
}

=== FILE: subsequences.dfy ===
/**
 Order-preserving selections from a sequence, the vocabulary for stating what
 the generator's filtering loops keep: the rows that carry a title, the
 worksheets that have songs, the index entries that are not repeats.
 */
module Subsequences {

  /** `a` is obtained from `b` by deleting elements, keeping the order of the rest. */
  predicate SubsequenceOf<T(==)>(a: seq<T>, b: seq<T>)
    decreases |b|
  {
    a == [] || (b != [] && ((a[0] == b[0] && SubsequenceOf(a[1..], b[1..])) || SubsequenceOf(a, b[1..])))
  }

  /** The elements of `s` at the positions where `keep` holds, in order. */
  function Select<T>(s: seq<T>, keep: seq<bool>): (r: seq<T>)
    requires |keep| == |s|
    ensures |r| <= |s|
    decreases |s|
  {
    if s == [] then [] else (if keep[0] then [s[0]] else []) + Select(s[1..], keep[1..])
  }
}

=== FILE: typst.dfy ===
/**
 The Typst renderer: `format_song_typst` and the line structure of
 `generate_typst` over the sections of an in-memory workbook: the preamble,
 one block of lines per section that has songs (separated by page breaks),
 and the alphabetical index of every song.
 */
module TypstRender {
  import opened Strings
  import opened Sorting
  import opened Workbook
  import opened Grouping
  import opened TypstEscape
  import opened TypstLines
  import opened AlphaIndex
  import opened Optional

  // ---------------------------------------------------------------------
  // Song lines
  // ---------------------------------------------------------------------

  /** `format_song_typst`: a list line showing the song's caption, escaped. */
  function FormatSongTypst(artist: string, title: string): (r: string)
    ensures |r| >= 2 && r[..2] == "- "
    ensures r[2..] == EscapeTypst(Caption(Entry(artist, title)))
    ensures TypstUnescape(r[2..]) == Caption(Entry(artist, title))
  {
    var inner := if artist != "" then EscapeTypst(artist) + Dash + EscapeTypst(title)
                 else EscapeTypst(title);
    SongCaptionEscaped(artist, title);
    SongCaptionWhole(artist, title);
    var r := "- " + inner;
    assert r[2..] == inner;
    r
  }

  /** Escaping the parts around the dash is escaping the whole caption. */
  lemma {:induction false} SongCaptionWhole(artist: string, title: string)
    ensures (if artist != "" then EscapeTypst(artist) + Dash + EscapeTypst(title)
             else EscapeTypst(title))
         == EscapeTypst(Caption(Entry(artist, title)))
  {
    if artist != "" {
      assert Dash[0] == ' ';
      assert forall i :: 0 <= i < |Dash| ==> !IsTypstSpecial(Dash[i]) && Dash[i] != '/';
      DirectVerbatim(Dash, title);
      DirectEscapeAppend(artist, Dash + title);
      assert artist + Dash + title == artist + (Dash + title);
      assert DirectEscape(artist) + (Dash + DirectEscape(title))
          == DirectEscape(artist) + Dash + DirectEscape(title);
    }
  }

  lemma {:induction false} SongCaptionEscaped(artist: string, title: string)
    ensures TypstUnescape(if artist != "" then EscapeTypst(artist) + Dash + EscapeTypst(title)
                          else EscapeTypst(title))
         == Caption(Entry(artist, title))
  {
    EscapeTypstRoundTrip(title);
    if artist != "" {
      var t := EscapeTypst(title);
      UnescapeVerbatim(Dash, t);
      UnescapeAfterEscape(artist, Dash + t);
      assert EscapeTypst(artist) + Dash + t == DirectEscape(artist) + (Dash + t);
    }
  }

  /** A markup character in a title is escaped. */
  lemma {:induction false} FormatSongTypstExample()
    ensures FormatSongTypst("", "C#") == "- C\\#"
  {
    assert DirectEscape("#") == "\\#";
    assert DirectEscape("C#") == "C\\#";
  }

  predicate IsSongLine(line: string) {
    |line| >= 2 && line[..2] == "- "
  }

  predicate IsSourceHeading(line: string) {
    |line| >= 3 && line[..3] == "== "
  }

  /** The captions of the song lines among `lines`, unescaped, in order. */
  function SongCaptions(lines: seq<string>): seq<string>
  {
    if lines == [] then []
    else (if IsSongLine(lines[0]) then [TypstUnescape(lines[0][2..])] else []) + SongCaptions(lines[1..])
  }

  /** Number of `== ` source headings among `lines`. */
  function SourceHeadings(lines: seq<string>): nat
  {
    if lines == [] then 0 else (if IsSourceHeading(lines[0]) then 1 else 0) + SourceHeadings(lines[1..])
  }

  lemma {:induction false} SongCaptionsAppend(a: seq<string>, b: seq<string>)
    ensures SongCaptions(a + b) == SongCaptions(a) + SongCaptions(b)
    decreases |a|
  {
    if a != [] {
      assert (a + b)[1..] == a[1..] + b;
      SongCaptionsAppend(a[1..], b);
    } else {
      assert a + b == b;
    }
  }

  lemma {:induction false} SourceHeadingsAppend(a: seq<string>, b: seq<string>)
    ensures SourceHeadings(a + b) == SourceHeadings(a) + SourceHeadings(b)
    decreases |a|
  {
    if a != [] {
      assert (a + b)[1..] == a[1..] + b;
      SourceHeadingsAppend(a[1..], b);
    } else {
      assert a + b == b;
    }
  }

  /** A line the generator writes for user text, or a blank line. */
  predicate Plain(line: string) {
    Neutral(line) && ShortDirective(line) && line != BlockOpen && line != ColumnsOpen
  }

  lemma {:induction false} PlainLines(lines: seq<string>)
    requires forall i :: 0 <= i < |lines| ==> Plain(lines[i])
    ensures Balanced(lines)
    ensures forall i :: 0 <= i < |lines| ==> ShortDirective(lines[i])
  {
    NeutralBalanced(lines);
  }

  /** The list line of one song. */
  function SongLine(e: Entry): string {
    FormatSongTypst(e.artist, e.title)
  }

  /** One list line per song, in order: the `format_song_typst` line of each. */
  function SongLines(songs: seq<Entry>): (r: seq<string>)
    ensures |r| == |songs|
    ensures r == MapSeq(SongLine, songs)
    ensures forall i :: 0 <= i < |r| ==> IsSongLine(r[i]) && Plain(r[i])
    ensures SongCaptions(r) == Captions(songs)
    ensures SourceHeadings(r) == 0
    decreases |songs|
  {
    if songs == [] then []
    else
      var line := SongLine(songs[0]);
      var rest := SongLines(songs[1..]);
      SongLinesCons(songs, line, rest);
      MapSeqCons(SongLine, songs);
      [line] + rest
  }

  /** One more song line in front keeps every property `SongLines` promises. */
  lemma {:induction false} SongLinesCons(songs: seq<Entry>, line: string, rest: seq<string>)
    requires songs != []
    requires IsSongLine(line) && TypstUnescape(line[2..]) == Caption(songs[0])
    requires |rest| == |songs| - 1
    requires forall i :: 0 <= i < |rest| ==> IsSongLine(rest[i]) && Plain(rest[i])
    requires SongCaptions(rest) == Captions(songs[1..]) && SourceHeadings(rest) == 0
    ensures var r := [line] + rest;
            && |r| == |songs|
            && (forall i :: 0 <= i < |r| ==> IsSongLine(r[i]) && Plain(r[i]))
            && SongCaptions(r) == Captions(songs)
            && SourceHeadings(r) == 0
  {
    var r := [line] + rest;
    SongLineStep(line, rest);
    forall i | 0 <= i < |r|
      ensures IsSongLine(r[i]) && Plain(r[i])
    {
      if i > 0 {
        assert r[i] == rest[i - 1];
      }
    }
    assert Captions(songs) == [Caption(songs[0])] + Captions(songs[1..]);
  }

  lemma {:induction false} SongLineStep(line: string, rest: seq<string>)
    requires IsSongLine(line)
    ensures Plain(line) && !IsSourceHeading(line)
    ensures SongCaptions([line] + rest) == [TypstUnescape(line[2..])] + SongCaptions(rest)
    ensures SourceHeadings([line] + rest) == SourceHeadings(rest)
  {
    assert line[0] == line[..2][0] && line[1] == line[..2][1];
    assert ([line] + rest)[1..] == rest;
  }

  // ---------------------------------------------------------------------
  // Groups and sections
  // ---------------------------------------------------------------------

  const BlockOpen := "#block(breakable: false)["
  const ColumnsOpen := "#columns(3, gutter: 1cm)["

  /** Groups with fewer songs than this are kept on one page. */
  const ShortGroupSize := 30

  /** Sections with at least this many songs are set in three columns. */
  const ColumnsSize := 100

  /** The `== source` heading and its blank line, for a named source. */
  function SourceHeading(source: string): (r: seq<string>)
    ensures |r| == (if source != "" then 2 else 0)
    ensures forall i :: 0 <= i < |r| ==> Plain(r[i]) && !IsSongLine(r[i])
    ensures SourceHeadings(r) == |r| / 2
    ensures source != "" ==> IsSourceHeading(r[0]) && r[1] == ""
    ensures source != "" ==> r[0][3..] == EscapeTypst(source) && TypstUnescape(r[0][3..]) == source
  {
    if source != "" then
      var h := "== " + EscapeTypst(source);
      HeadingLine(source, h);
      assert [h, ""][1..] == [""];
      assert SourceHeadings([""]) == 0;
      [h, ""]
    else []
  }

  lemma {:induction false} HeadingLine(source: string, h: string)
    requires h == "== " + EscapeTypst(source)
    ensures IsSourceHeading(h) && Plain(h) && !IsSongLine(h)
    ensures h[3..] == EscapeTypst(source) && TypstUnescape(h[3..]) == source
  {
    assert h[0] == '=' && h[..3] == "== ";
    assert h[3..] == EscapeTypst(source);
    EscapeTypstRoundTrip(source);
  }

  /** One source group: unbreakable when short, an optional heading, the songs. */
  function TypstGroup(g: Group): (r: seq<string>)
    ensures |r| > 0 && r[|r| - 1] == ""
    ensures (r[0] == BlockOpen) <==> |g.songs| < ShortGroupSize
    ensures r[0] != ColumnsOpen
    ensures SourceHeadings(r) == if g.source != "" then 1 else 0
    ensures SongCaptions(r) == Captions(g.songs)
    ensures Balanced(r)
    ensures forall i :: 0 <= i < |r| ==> ShortDirective(r[i])
  {
    var heading := SourceHeading(g.source);
    var songs := SongLines(g.songs);
    var body := heading + songs;
    GroupBody(heading, songs);
    var short := |g.songs| < ShortGroupSize;
    var r := WrapIf(short, BlockOpen, body) + [""];
    GroupWrap(short, body);
    r
  }

  /** A group's heading and songs sit inside `#block(breakable: false)[` ... `]`
      when the group is short, and stand alone otherwise; a blank line ends it. */
  lemma {:induction false} TypstGroupLayout(g: Group)
    ensures var r := TypstGroup(g);
            var w := if |g.songs| < ShortGroupSize then 1 else 0;
            && |r| == w + |SourceHeading(g.source)| + |g.songs| + w + 1
            && r[w..|r| - 1 - w] == SourceHeading(g.source) + SongLines(g.songs)
            && (w == 1 ==> r[0] == BlockOpen && r[|r| - 2] == "]")
  {
    GroupLayout(|g.songs| < ShortGroupSize, SourceHeading(g.source), SongLines(g.songs));
  }

  /** Where the block wrapper, the heading and the songs sit in a group. */
  lemma {:induction false} GroupLayout(short: bool, heading: seq<string>, songs: seq<string>)
    ensures var r := WrapIf(short, BlockOpen, heading + songs) + [""];
            var w := if short then 1 else 0;
            && |r| == w + |heading| + |songs| + w + 1
            && r[w..|r| - 1 - w] == heading + songs
            && (w == 1 ==> r[0] == BlockOpen && r[|r| - 2] == "]")
  {
    var x := WrapIf(short, BlockOpen, heading + songs);
    assert BlockOpen[0] == '#';
    WrapInside([], short, BlockOpen, heading + songs, [""]);
    assert [] + x + [""] == x + [""];
  }

  lemma {:induction false} GroupBody(heading: seq<string>, songs: seq<string>)
    requires forall i :: 0 <= i < |heading| ==> Plain(heading[i]) && !IsSongLine(heading[i])
    requires forall i :: 0 <= i < |songs| ==> Plain(songs[i])
    ensures forall i :: 0 <= i < |heading + songs| ==> Plain((heading + songs)[i])
    ensures SongCaptions(heading + songs) == SongCaptions(songs)
    ensures SourceHeadings(heading + songs) == SourceHeadings(heading) + SourceHeadings(songs)
  {
    SongCaptionsAppend(heading, songs);
    SourceHeadingsAppend(heading, songs);
    NoSongCaptions(heading);
  }

  lemma {:induction false} NoSongCaptions(lines: seq<string>)
    requires forall i :: 0 <= i < |lines| ==> !IsSongLine(lines[i])
    ensures SongCaptions(lines) == []
    decreases |lines|
  {
    if lines != [] {
      assert !IsSongLine(lines[0]);
      NoSongCaptions(lines[1..]);
    }
  }

  /** Wrapping plain lines adds a balanced pair and no song or heading. */
  lemma {:induction false} GroupWrap(short: bool, body: seq<string>)
    requires forall i :: 0 <= i < |body| ==> Plain(body[i])
    ensures var r := WrapIf(short, BlockOpen, body) + [""];
            && Balanced(r)
            && (forall i :: 0 <= i < |r| ==> ShortDirective(r[i]))
            && SongCaptions(r) == SongCaptions(body)
            && SourceHeadings(r) == SourceHeadings(body)
            && (r[0] == BlockOpen <==> short)
            && r[0] != ColumnsOpen
  {
    PlainLines(body);
    if short {
      GroupWrapBlock(body);
    } else {
      GroupWrapBare(body);
    }
  }

  /** The short-group case of `GroupWrap`: the body inside a block. */
  lemma {:induction false} GroupWrapBlock(body: seq<string>)
    requires forall i :: 0 <= i < |body| ==> Plain(body[i])
    requires Balanced(body)
    ensures var r := WrapIf(true, BlockOpen, body) + [""];
            && Balanced(r)
            && (forall i :: 0 <= i < |r| ==> ShortDirective(r[i]))
            && SongCaptions(r) == SongCaptions(body)
            && SourceHeadings(r) == SourceHeadings(body)
            && r[0] == BlockOpen
  {
    var w := WrapIf(true, BlockOpen, body);
    assert w == [BlockOpen] + body + ["]"];
    PlainLines([""]);
    BalancedAppend(w, [""]);
    assert BlockOpen[0] == '#';
    assert !IsSongLine(BlockOpen) && !IsSourceHeading(BlockOpen);
    FramedCounts(BlockOpen, body, "]", "");
    var r := w + [""];
    forall i | 0 <= i < |r|
      ensures ShortDirective(r[i])
    {
      if 1 <= i <= |body| {
        assert r[i] == body[i - 1];
      }
    }
  }

  /** Lines around a body that are neither songs nor headings leave its
      captions and headings as they are. */
  lemma {:induction false} FramedCounts(open: string, body: seq<string>, close: string, end: string)
    requires !IsSongLine(open) && !IsSourceHeading(open)
    requires !IsSongLine(close) && !IsSourceHeading(close)
    requires !IsSongLine(end) && !IsSourceHeading(end)
    ensures SongCaptions([open] + body + [close] + [end]) == SongCaptions(body)
    ensures SourceHeadings([open] + body + [close] + [end]) == SourceHeadings(body)
  {
    var a := [open] + body;
    SongCaptionsAppend(a + [close], [end]);
    SongCaptionsAppend(a, [close]);
    SongCaptionsAppend([open], body);
    SourceHeadingsAppend(a + [close], [end]);
    SourceHeadingsAppend(a, [close]);
    SourceHeadingsAppend([open], body);
    assert SongCaptions([open]) == [] && SongCaptions([close]) == [] && SongCaptions([end]) == [];
    assert SourceHeadings([open]) == 0 && SourceHeadings([close]) == 0 && SourceHeadings([end]) == 0;
  }

  /** The long-group case of `GroupWrap`: the body as it is. */
  lemma {:induction false} GroupWrapBare(body: seq<string>)
    requires forall i :: 0 <= i < |body| ==> Plain(body[i])
    requires Balanced(body)
    ensures var r := WrapIf(false, BlockOpen, body) + [""];
            && Balanced(r)
            && (forall i :: 0 <= i < |r| ==> ShortDirective(r[i]))
            && SongCaptions(r) == SongCaptions(body)
            && SourceHeadings(r) == SourceHeadings(body)
            && r[0] != BlockOpen
            && r[0] != ColumnsOpen
  {
    PlainLines([""]);
    BalancedAppend(body, [""]);
    SongCaptionsAppend(body, [""]);
    SourceHeadingsAppend(body, [""]);
    assert SongCaptions([""]) == [] && SourceHeadings([""]) == 0;
    if body != [] {
      assert Plain(body[0]);
    }
    var r := body + [""];
    forall i | 0 <= i < |r|
      ensures ShortDirective(r[i])
    {
      if i < |body| {
        assert r[i] == body[i];
      }
    }
  }


  /** The groups of a section one after another. */
  function GroupsLines(gs: seq<Group>): (r: seq<string>)
    ensures gs != [] ==> r != [] && r[0] != ColumnsOpen
    ensures SongCaptions(r) == Captions(Flatten(gs))
    ensures Balanced(r)
    ensures forall i :: 0 <= i < |r| ==> ShortDirective(r[i])
    decreases |gs|
  {
    if gs == [] then
      NeutralBalanced([]);
      []
    else
      var here := TypstGroup(gs[0]);
      var rest := GroupsLines(gs[1..]);
      SongCaptionsAppend(here, rest);
      CaptionsOfAppend(gs[0].songs, Flatten(gs[1..]));
      BalancedAppend(here, rest);
      var r := here + rest;
      assert forall i :: 0 <= i < |r| ==> ShortDirective(r[i]) by {
        forall i | 0 <= i < |r| ensures ShortDirective(r[i]) {
          if i >= |here| {
            assert r[i] == rest[i - |here|];
          }
        }
      }
      r
  }

  /** One worksheet with songs: its heading, then its groups in grouped and
      sorted order, set in three columns when the worksheet is long. */
  function SectionLines(sec: Section): (r: seq<string>)
    requires sec.songs != []
    ensures |r| >= 3 && r[0] == "= " + EscapeTypst(sec.name) && r[1] == ""
    ensures (r[2] == ColumnsOpen) <==> |sec.songs| >= ColumnsSize
    ensures var c := if |sec.songs| >= ColumnsSize then 1 else 0;
            && |r| >= 3 + 2 * c
            && r[2 + c..|r| - 1 - c] == GroupsLines(GroupBySource(sec.songs))
            && r[|r| - 1] == ""
            && (c == 1 ==> r[|r| - 2] == "]")
    ensures SongCaptions(r) == Captions(Flatten(GroupBySource(sec.songs)))
    ensures multiset(SongCaptions(r)) == multiset(Captions(Project(sec.songs)))
    ensures Balanced(r)
    ensures forall i :: 0 <= i < |r| ==> ShortDirective(r[i])
  {
    var groups := GroupBySource(sec.songs);
    var body := GroupsLines(groups);
    var wide := |sec.songs| >= ColumnsSize;
    var head := ["= " + EscapeTypst(sec.name), ""];
    var w := WrapIf(wide, ColumnsOpen, body);
    GroupCaptionsKept(sec.songs);
    SectionHead(EscapeTypst(sec.name));
    SectionWrapped(wide, body);
    SectionJoin(head, w);
    SectionLayout(wide, head, body);
    head + w + [""]
  }

  /** Where the columns wrapper and the groups sit in a section. */
  lemma {:induction false} SectionLayout(wide: bool, head: seq<string>, body: seq<string>)
    requires |head| == 2
    ensures var r := head + WrapIf(wide, ColumnsOpen, body) + [""];
            var c := if wide then 1 else 0;
            && |r| >= 3 + 2 * c
            && r[2 + c..|r| - 1 - c] == body
            && r[|r| - 1] == ""
            && (c == 1 ==> r[|r| - 2] == "]")
  {
    assert ColumnsOpen[0] == '#';
    WrapInside(head, wide, ColumnsOpen, body, [""]);
  }

  lemma {:induction false} SectionHead(name: string)
    ensures forall i :: 0 <= i < 2 ==> Plain(["= " + name, ""][i]) && !IsSongLine(["= " + name, ""][i])
  {
    var h := "= " + name;
    assert h[0] == '=';
  }

  /** The optional three-column wrapper, seen from outside. */
  lemma {:induction false} SectionWrapped(wide: bool, body: seq<string>)
    requires body != [] ==> body[0] != ColumnsOpen
    requires Balanced(body) && forall i :: 0 <= i < |body| ==> ShortDirective(body[i])
    ensures var w := WrapIf(wide, ColumnsOpen, body);
            && Balanced(w)
            && (forall i :: 0 <= i < |w| ==> ShortDirective(w[i]))
            && SongCaptions(w) == SongCaptions(body)
            && (w != [] && w[0] == ColumnsOpen <==> wide)
  {
    if wide {
      assert ColumnsOpen[0] == '#';
      WrappedLines(ColumnsOpen, body);
    }
  }

  /** Lines between an opener and its `]` keep their captions, and every
      line stays a short directive. */
  lemma {:induction false} WrappedLines(opener: string, body: seq<string>)
    requires ShortDirective(opener) && !IsSongLine(opener)
    requires forall i :: 0 <= i < |body| ==> ShortDirective(body[i])
    ensures var w := [opener] + body + ["]"];
            && (forall i :: 0 <= i < |w| ==> ShortDirective(w[i]))
            && SongCaptions(w) == SongCaptions(body)
  {
    var w := [opener] + body + ["]"];
    SongCaptionsAppend([opener] + body, ["]"]);
    SongCaptionsAppend([opener], body);
    assert SongCaptions([opener]) == [] && SongCaptions(["]"]) == [];
    forall i | 0 <= i < |w|
      ensures ShortDirective(w[i])
    {
      if 1 <= i <= |body| {
        assert w[i] == body[i - 1];
      }
    }
  }

  lemma {:induction false} SectionJoin(head: seq<string>, w: seq<string>)
    requires |head| == 2 && forall i :: 0 <= i < 2 ==> Plain(head[i]) && !IsSongLine(head[i])
    requires Balanced(w) && forall i :: 0 <= i < |w| ==> ShortDirective(w[i])
    ensures var r := head + w + [""];
            && |r| >= 3 && r[0] == head[0] && r[1] == head[1]
            && r[2] == (if w != [] then w[0] else "")
            && SongCaptions(r) == SongCaptions(w)
            && Balanced(r)
            && (forall i :: 0 <= i < |r| ==> ShortDirective(r[i]))
  {
    var r := head + w + [""];
    assert Plain("");
    PlainLines(head);
    PlainLines([""]);
    BalancedAppend(head, w);
    BalancedAppend(head + w, [""]);
    SongCaptionsAppend(head + w, [""]);
    SongCaptionsAppend(head, w);
    NoSongCaptions(head);
    assert SongCaptions([""]) == [];
    forall i | 0 <= i < |r|
      ensures ShortDirective(r[i])
    {
      if i < 2 {
        assert r[i] == head[i];
      } else if i < 2 + |w| {
        assert r[i] == w[i - 2];
      }
    }
  }

  // ---------------------------------------------------------------------
  // The sections of the document
  // ---------------------------------------------------------------------

  const PageBreak: seq<string> := ["#pagebreak()", ""]

  /** The loop over the worksheets: sections without songs are skipped, and a
      page break comes before every section but the first one written. */
  function TypstSections(secs: seq<Section>, first: bool): (r: seq<string>)
    ensures r == [] <==> TotalSongs(secs) == 0
    ensures Balanced(r)
    ensures forall i :: 0 <= i < |r| ==> ShortDirective(r[i])
    decreases |secs|
  {
    if secs == [] then
      NeutralBalanced([]);
      []
    else if secs[0].songs == [] then TypstSections(secs[1..], first)
    else
      var here := SectionLines(secs[0]);
      var sep := if first then [] else PageBreak;
      var rest := TypstSections(secs[1..], false);
      SectionsStep(sep, here, rest);
      sep + here + rest
  }

  lemma {:induction false} SectionsStep(sep: seq<string>, here: seq<string>, rest: seq<string>)
    requires sep == [] || sep == PageBreak
    requires Balanced(here) && Balanced(rest)
    requires forall i :: 0 <= i < |here| ==> ShortDirective(here[i])
    requires forall i :: 0 <= i < |rest| ==> ShortDirective(rest[i])
    ensures Balanced(sep + here + rest)
    ensures forall i :: 0 <= i < |sep + here + rest| ==> ShortDirective((sep + here + rest)[i])
  {
    assert Plain("#pagebreak()") && Plain("");
    PlainLines(sep);
    BalancedAppend(sep, here);
    BalancedAppend(sep + here, rest);
    var r := sep + here + rest;
    forall i | 0 <= i < |r|
      ensures ShortDirective(r[i])
    {
      if i < |sep| {
        assert r[i] == sep[i];
      } else if i < |sep| + |here| {
        assert r[i] == here[i - |sep|];
      } else {
        assert r[i] == rest[i - |sep| - |here|];
      }
    }
  }

  /** The lines of each worksheet that has songs. */
  function SectionBlocks(secs: seq<Section>): seq<seq<string>>
  {
    BlocksOf(NonEmptySections(secs))
  }

  function BlocksOf(n: seq<Section>): (r: seq<seq<string>>)
    requires forall i :: 0 <= i < |n| ==> n[i].songs != []
    ensures |r| == |n|
    decreases |n|
  {
    if n == [] then [] else [SectionLines(n[0])] + BlocksOf(n[1..])
  }

  /** Blocks separated by `sep`, as `sep.join` would place it. */
  function JoinWith(blocks: seq<seq<string>>, sep: seq<string>): seq<string>
    decreases |blocks|
  {
    if blocks == [] then []
    else if |blocks| == 1 then blocks[0]
    else blocks[0] + sep + JoinWith(blocks[1..], sep)
  }

  /** Every block preceded by `sep`. */
  function PrefixEach(blocks: seq<seq<string>>, sep: seq<string>): seq<string>
    decreases |blocks|
  {
    if blocks == [] then [] else sep + blocks[0] + PrefixEach(blocks[1..], sep)
  }

  lemma {:induction false} JoinWithCons(b: seq<string>, bs: seq<seq<string>>, sep: seq<string>)
    ensures JoinWith([b] + bs, sep) == b + PrefixEach(bs, sep)
    decreases |bs|
  {
    var all := [b] + bs;
    assert all[1..] == bs;
    if bs == [] {
      assert b + [] == b;
    } else {
      JoinWithCons(bs[0], bs[1..], sep);
      assert [bs[0]] + bs[1..] == bs;
    }
  }

  /** The sections are the blocks of the worksheets with songs, page breaks
      between them and nowhere else. */
  lemma {:induction false} SectionsAreJoined(secs: seq<Section>)
    ensures TypstSections(secs, true) == JoinWith(SectionBlocks(secs), PageBreak)
    ensures TypstSections(secs, false) == PrefixEach(SectionBlocks(secs), PageBreak)
    decreases |secs|
  {
    if secs != [] {
      SectionsAreJoined(secs[1..]);
      if secs[0].songs != [] {
        JoinedWritten(secs);
      } else {
        JoinedSkipped(secs);
      }
    }
  }

  lemma {:induction false} JoinedWritten(secs: seq<Section>)
    requires secs != [] && secs[0].songs != []
    requires TypstSections(secs[1..], false) == PrefixEach(SectionBlocks(secs[1..]), PageBreak)
    ensures TypstSections(secs, true) == JoinWith(SectionBlocks(secs), PageBreak)
    ensures TypstSections(secs, false) == PrefixEach(SectionBlocks(secs), PageBreak)
  {
    var here := SectionLines(secs[0]);
    var tail := SectionBlocks(secs[1..]);
    assert TypstSections(secs, true) == [] + here + TypstSections(secs[1..], false);
    assert TypstSections(secs, false) == PageBreak + here + TypstSections(secs[1..], false);
    assert [] + here == here;
    BlocksCons(secs);
    JoinWithCons(here, tail, PageBreak);
  }

  lemma {:induction false} JoinedSkipped(secs: seq<Section>)
    requires secs != [] && secs[0].songs == []
    requires TypstSections(secs[1..], true) == JoinWith(SectionBlocks(secs[1..]), PageBreak)
    requires TypstSections(secs[1..], false) == PrefixEach(SectionBlocks(secs[1..]), PageBreak)
    ensures TypstSections(secs, true) == JoinWith(SectionBlocks(secs), PageBreak)
    ensures TypstSections(secs, false) == PrefixEach(SectionBlocks(secs), PageBreak)
  {
    assert NonEmptySections(secs) == NonEmptySections(secs[1..]);
  }

  lemma {:induction false} BlocksCons(secs: seq<Section>)
    requires secs != [] && secs[0].songs != []
    ensures SectionBlocks(secs) == [SectionLines(secs[0])] + SectionBlocks(secs[1..])
    ensures PrefixEach(SectionBlocks(secs), PageBreak)
         == PageBreak + SectionLines(secs[0]) + PrefixEach(SectionBlocks(secs[1..]), PageBreak)
  {
    var tail := NonEmptySections(secs[1..]);
    assert NonEmptySections(secs) == [secs[0]] + tail;
    assert ([secs[0]] + tail)[1..] == tail;
    var bs := BlocksOf(tail);
    assert ([SectionLines(secs[0])] + bs)[1..] == bs;
  }

  // ---------------------------------------------------------------------
  // The index entries
  // ---------------------------------------------------------------------

  /** The `(title, artist, sheet)` tuples of one worksheet's songs. */
  function SectionEntries(sec: Section): (r: seq<IndexEntry>)
    ensures |r| == |sec.songs|
    ensures forall j :: 0 <= j < |r| ==>
              r[j] == IndexEntry(sec.songs[j].title, sec.songs[j].artist, sec.name)
  {
    seq(|sec.songs|, j requires 0 <= j < |sec.songs| =>
      IndexEntry(sec.songs[j].title, sec.songs[j].artist, sec.name))
  }

  /** Everything the index receives, worksheet by worksheet. */
  function CollectIndex(secs: seq<Section>): (r: seq<IndexEntry>)
    ensures |r| == TotalSongs(secs)
    decreases |secs|
  {
    if secs == [] then [] else SectionEntries(secs[0]) + CollectIndex(secs[1..])
  }

  /** Every song of every worksheet reaches the index, with its worksheet's name. */
  lemma {:induction false} CollectIndexHasSong(secs: seq<Section>, k: nat, j: nat)
    requires k < |secs| && j < |secs[k].songs|
    ensures IndexEntry(secs[k].songs[j].title, secs[k].songs[j].artist, secs[k].name) in CollectIndex(secs)
    decreases k
  {
    var here := SectionEntries(secs[0]);
    assert CollectIndex(secs) == here + CollectIndex(secs[1..]);
    if k == 0 {
      assert here[j] in here;
    } else {
      CollectIndexHasSong(secs[1..], k - 1, j);
    }
  }

  /** And nothing else reaches it. */
  lemma {:induction false} CollectIndexOnlySongs(secs: seq<Section>, e: IndexEntry)
    requires e in CollectIndex(secs)
    ensures exists k, j :: 0 <= k < |secs| && 0 <= j < |secs[k].songs|
              && e == IndexEntry(secs[k].songs[j].title, secs[k].songs[j].artist, secs[k].name)
    decreases |secs|
  {
    var here := SectionEntries(secs[0]);
    assert CollectIndex(secs) == here + CollectIndex(secs[1..]);
    if e in here {
      var j :| 0 <= j < |here| && here[j] == e;
      assert e == IndexEntry(secs[0].songs[j].title, secs[0].songs[j].artist, secs[0].name);
    } else {
      CollectIndexOnlySongs(secs[1..], e);
      var k, j :| 0 <= k < |secs[1..]| && 0 <= j < |secs[1..][k].songs|
                  && e == IndexEntry(secs[1..][k].songs[j].title, secs[1..][k].songs[j].artist, secs[1..][k].name);
      assert secs[1..][k] == secs[k + 1];
    }
  }

  // ---------------------------------------------------------------------
  // The document
  // ---------------------------------------------------------------------

  const PreambleLines: seq<string> := [
    "#" + "set page(paper: \"a4\", numbering: \"1/1\", margin: (x: 1.5cm, y: 2cm), header: context {",
    "  let dominated-page = here().page()",
    "  let dominated = query(heading.where(level: 1)).filter(h => h.location().page() <= dominated-page)",
    "  if dominated.len() > 0 {",
    "    let current = dominated.last()",
    "    align(center, text(size: 16pt, weight: \"bold\", underline(current.body)))",
    "  }",
    "})",
    "#set text(size: 8pt, font: \"Lato\")",
    "#set par(leading: 0.5em)",
    "#show heading: set block(sticky: true)",
    "#show heading.where(level: 1): it => {}",
    "#show heading.where(level: 2): set text(size: 10pt, weight: \"bold\")",
    "#show heading.where(level: 2): set block(below: 0.7em)"
  ]

  /** The page setup written once at the top, as one piece ending in a newline. */
  const Preamble: string := JoinLines(PreambleLines) + "\n"

  lemma {:induction false} PreambleShape()
    ensures |Preamble| >= 64 && Preamble[0] == '#' && Preamble[|Preamble| - 1] == '\n'
    ensures Neutral(Preamble) && !ShortDirective(Preamble)
  {
    var first := PreambleLines[0];
    assert |first| >= 64 && first[0] == '#';
    var j := JoinLines(PreambleLines);
    assert j[..|first|] == first;
    assert Preamble[0] == j[0];
  }

  lemma {:induction false} NoPreamble(lines: seq<string>)
    requires forall i :: 0 <= i < |lines| ==> ShortDirective(lines[i])
    ensures CountOf(lines, Preamble) == 0
    decreases |lines|
  {
    if lines != [] {
      PreambleShape();
      assert ShortDirective(lines[0]);
      NoPreamble(lines[1..]);
    }
  }

  /** `generate_typst`: the preamble, the sections, then the index. */
  function GenerateTypst(wb: seq<Sheet>, order: Option<seq<string>>): (r: seq<string>)
    ensures |r| >= 1 && r[0] == Preamble && CountOf(r, Preamble) == 1
    ensures Balanced(r)
    ensures r == [Preamble] <==> TotalSongs(Sections(wb, order)) == 0
  {
    var secs := Sections(wb, order);
    var body := TypstSections(secs, true);
    var index := IndexLines(CollectIndex(secs));
    DocumentShape(body, index);
    [Preamble] + body + index
  }

  lemma {:induction false} DocumentShape(body: seq<string>, index: seq<string>)
    requires Balanced(body) && Balanced(index)
    requires forall i :: 0 <= i < |body| ==> ShortDirective(body[i])
    requires forall i :: 0 <= i < |index| ==> ShortDirective(index[i])
    ensures CountOf([Preamble] + body + index, Preamble) == 1
    ensures Balanced([Preamble] + body + index)
  {
    PreambleShape();
    NeutralBalanced([Preamble]);
    BalancedAppend([Preamble], body);
    BalancedAppend([Preamble] + body, index);
    NoPreamble(body);
    NoPreamble(index);
    CountAppend([Preamble] + body, index, Preamble);
    CountAppend([Preamble], body, Preamble);
  }

  /** The document as `main` writes it: the lines joined by newlines. */
  function TypstText(wb: seq<Sheet>, order: Option<seq<string>>): (r: string)
    ensures |r| >= |Preamble| && r[..|Preamble|] == Preamble
    ensures var lines := GenerateTypst(wb, order);
            r == if |lines| == 1 then Preamble else Preamble + "\n" + JoinLines(lines[1..])
  {
    var lines := GenerateTypst(wb, order);
    JoinAfterFirst(lines);
    JoinLines(lines)
  }

  lemma {:induction false} JoinAfterFirst(lines: seq<string>)
    requires lines != []
    ensures JoinLines(lines) == if |lines| == 1 then lines[0] else lines[0] + "\n" + JoinLines(lines[1..])
  {
    if |lines| > 1 {
      JoinLinesAppend([lines[0]], lines[1..]);
      assert [lines[0]] + lines[1..] == lines;
    }
  }

  /** The sections come first, in worksheet order with page breaks between
      them; the index comes last and lists every song of the document. */
  lemma {:induction false} GenerateTypstLayout(wb: seq<Sheet>, order: Option<seq<string>>)
    ensures var secs := Sections(wb, order);
            GenerateTypst(wb, order)
              == [Preamble] + JoinWith(SectionBlocks(secs), PageBreak) + IndexLines(CollectIndex(secs))
  {
    SectionsAreJoined(Sections(wb, order));
  }
}

=== FILE: typst_escape.dfy ===
/**
 `escape_typst`: a backslash in front of every Typst markup character, then
 Python `str.replace` of the two openers of Typst comments, BlockComment and
 LineComment below.

 Escaping is specified twice: as make_documents.py writes it (EscapeTypst, three
 passes) and as a single left-to-right scan (DirectEscape). The two agree,
 the scan is undone by TypstUnescape, and the output never opens a block
 comment, so the last of the three passes never changes anything.
 */
module TypstEscape {
  import opened Strings

  /** The characters of the regular-expression class `[#*_`$@\\<>]`. */
  predicate IsTypstSpecial(c: char) {
    c == '#' || c == '*' || c == '_' || c == '`' || c == '$' || c == '@' || c == '\\' || c == '<' || c == '>'
  }

  const LineComment := "//"
  const LineCommentEscaped := "/\\/"
  const BlockComment := "/*"
  const BlockCommentEscaped := "/\\*"

  /** The `re.sub` pass: each markup character gets one backslash in front. */
  function EscapeClass(s: string): (r: string)
    ensures s == [] ==> r == []
    ensures s != [] ==> r != [] && r[0] == (if IsTypstSpecial(s[0]) then '\\' else s[0])
    ensures |s| == 1 ==> r == (if IsTypstSpecial(s[0]) then ['\\', s[0]] else s)
  {
    if s == [] then []
    else if IsTypstSpecial(s[0]) then ['\\', s[0]] + EscapeClass(s[1..])
    else [s[0]] + EscapeClass(s[1..])
  }

  /** The class pass works character by character: it distributes over any
      concatenation, so each markup character anywhere gets its backslash. */
  lemma {:induction false} EscapeClassAppend(a: string, b: string)
    ensures EscapeClass(a + b) == EscapeClass(a) + EscapeClass(b)
    decreases |a|
  {
    if a == [] {
      assert a + b == b;
    } else {
      assert (a + b)[0] == a[0] && (a + b)[1..] == a[1..] + b;
      EscapeClassAppend(a[1..], b);
      var h := if IsTypstSpecial(a[0]) then ['\\', a[0]] else [a[0]];
      assert EscapeClass(a + b) == h + (EscapeClass(a[1..]) + EscapeClass(b));
      assert h + (EscapeClass(a[1..]) + EscapeClass(b)) == (h + EscapeClass(a[1..])) + EscapeClass(b);
    }
  }

  /** `escape_typst` as written: the class pass, then the two replacements. */
  function EscapeTypst(s: string): (r: string)
    ensures r == DirectEscape(s)
    ensures forall i :: 0 <= i <= |r| ==> !OccursAt(r, BlockComment, i)
  {
    var t := ReplaceAll(EscapeClass(s), LineComment, LineCommentEscaped);
    EscapeMatchesDirect(s);
    DirectEscapeGuardsStars(s);
    GuardedHasNoBlockComment(t);
    ReplaceAll(t, BlockComment, BlockCommentEscaped)
  }

  /** The same escaping as one scan: a markup character is prefixed, a `//`
      that the scan reaches becomes `/\/`, anything else is copied. */
  function DirectEscape(s: string): string
    decreases |s|
  {
    if s == [] then []
    else if IsTypstSpecial(s[0]) then ['\\', s[0]] + DirectEscape(s[1..])
    else if |s| >= 2 && s[0] == '/' && s[1] == '/' then LineCommentEscaped + DirectEscape(s[2..])
    else [s[0]] + DirectEscape(s[1..])
  }

  /** Drops every escaping backslash and keeps the character it protects. */
  function TypstUnescape(s: string): string
    decreases |s|
  {
    if s == [] then []
    else if s[0] == '\\' && |s| >= 2 then [s[1]] + TypstUnescape(s[2..])
    else [s[0]] + TypstUnescape(s[1..])
  }

  // ---------------------------------------------------------------------
  // The script's passes agree with the scan
  // ---------------------------------------------------------------------

  lemma {:induction false} ReplaceAfterOther(x: char, t: string)
    requires x != '/'
    ensures ReplaceAll([x] + t, LineComment, LineCommentEscaped) == [x] + ReplaceAll(t, LineComment, LineCommentEscaped)
  {
    var u := [x] + t;
    assert u[1..] == t;
    if |u| >= 2 {
      assert u[..2][0] == x;
    }
  }

  lemma {:induction false} ReplaceAfterSlash(t: string)
    requires t == [] || t[0] != '/'
    ensures ReplaceAll("/" + t, LineComment, LineCommentEscaped) == "/" + ReplaceAll(t, LineComment, LineCommentEscaped)
  {
    var u := "/" + t;
    assert u[1..] == t;
    if |u| >= 2 {
      assert u[..2][1] == t[0];
    }
  }

  lemma {:induction false} ReplaceAtLineComment(t: string)
    ensures ReplaceAll(LineComment + t, LineComment, LineCommentEscaped) == LineCommentEscaped + ReplaceAll(t, LineComment, LineCommentEscaped)
  {
    var u := LineComment + t;
    assert u[..2] == LineComment;
    assert u[2..] == t;
  }

  /** The class pass followed by the `//` replacement is the one-pass scan. */
  lemma {:induction false} EscapeMatchesDirect(s: string)
    ensures ReplaceAll(EscapeClass(s), LineComment, LineCommentEscaped) == DirectEscape(s)
    decreases |s|
  {
    if s == [] {
    } else if IsTypstSpecial(s[0]) {
      EscapeMatchesDirect(s[1..]);
      SpecialStep(s);
    } else if |s| >= 2 && s[0] == '/' && s[1] == '/' {
      EscapeMatchesDirect(s[2..]);
      LineCommentStep(s);
    } else {
      EscapeMatchesDirect(s[1..]);
      PlainStep(s);
    }
  }

  lemma {:induction false} SpecialStep(s: string)
    requires s != [] && IsTypstSpecial(s[0])
    ensures ReplaceAll(EscapeClass(s), LineComment, LineCommentEscaped)
         == ['\\', s[0]] + ReplaceAll(EscapeClass(s[1..]), LineComment, LineCommentEscaped)
  {
    ReplaceAfterPair(s[0], EscapeClass(s[1..]));
  }

  lemma {:induction false} ReplaceAfterPair(c: char, t: string)
    requires c != '/'
    ensures ReplaceAll(['\\', c] + t, LineComment, LineCommentEscaped)
         == ['\\', c] + ReplaceAll(t, LineComment, LineCommentEscaped)
  {
    var rt := ReplaceAll(t, LineComment, LineCommentEscaped);
    ReplaceAfterTwo('\\', c, t);
    assert ['\\', c] + t == ['\\'] + ([c] + t);
    assert ['\\'] + ([c] + rt) == ['\\', c] + rt;
  }

  lemma {:induction false} ReplaceAfterTwo(b: char, c: char, t: string)
    requires b != '/' && c != '/'
    ensures ReplaceAll([b] + ([c] + t), LineComment, LineCommentEscaped)
         == [b] + ([c] + ReplaceAll(t, LineComment, LineCommentEscaped))
  {
    ReplaceAfterOther(b, [c] + t);
    ReplaceAfterOther(c, t);
  }

  lemma {:induction false} LineCommentStep(s: string)
    requires |s| >= 2 && s[0] == '/' && s[1] == '/'
    ensures ReplaceAll(EscapeClass(s), LineComment, LineCommentEscaped)
         == LineCommentEscaped + ReplaceAll(EscapeClass(s[2..]), LineComment, LineCommentEscaped)
  {
    ClassOfLineComment(s);
    ReplaceAtLineComment(EscapeClass(s[2..]));
  }

  lemma {:induction false} ClassOfLineComment(s: string)
    requires |s| >= 2 && s[0] == '/' && s[1] == '/'
    ensures EscapeClass(s) == LineComment + EscapeClass(s[2..])
  {
    assert s[1..][1..] == s[2..];
  }

  lemma {:induction false} PlainStep(s: string)
    requires s != [] && !IsTypstSpecial(s[0]) && !(|s| >= 2 && s[0] == '/' && s[1] == '/')
    ensures ReplaceAll(EscapeClass(s), LineComment, LineCommentEscaped)
         == [s[0]] + ReplaceAll(EscapeClass(s[1..]), LineComment, LineCommentEscaped)
  {
    if s[0] == '/' {
      assert EscapeClass(s) == "/" + EscapeClass(s[1..]);
      ReplaceAfterSlash(EscapeClass(s[1..]));
    } else {
      ReplaceAfterOther(s[0], EscapeClass(s[1..]));
    }
  }

  // ---------------------------------------------------------------------
  // No block comment is ever opened
  // ---------------------------------------------------------------------

  /** Every `*` sits right after a backslash. */
  predicate StarsGuarded(t: string) {
    forall i :: 0 <= i < |t| && t[i] == '*' ==> i > 0 && t[i - 1] == '\\'
  }

  lemma {:induction false} DirectEscapeGuardsStars(s: string)
    ensures StarsGuarded(DirectEscape(s))
    decreases |s|
  {
    if s != [] {
      var r := DirectEscape(s);
      if IsTypstSpecial(s[0]) {
        DirectEscapeGuardsStars(s[1..]);
        var rest := DirectEscape(s[1..]);
        assert r == ['\\', s[0]] + rest;
        assert forall i :: 2 <= i < |r| ==> r[i] == rest[i - 2];
      } else if |s| >= 2 && s[0] == '/' && s[1] == '/' {
        DirectEscapeGuardsStars(s[2..]);
        var rest := DirectEscape(s[2..]);
        assert forall i :: 3 <= i < |r| ==> r[i] == rest[i - 3];
      } else {
        DirectEscapeGuardsStars(s[1..]);
        var rest := DirectEscape(s[1..]);
        assert forall i :: 1 <= i < |r| ==> r[i] == rest[i - 1];
      }
    }
  }

  lemma {:induction false} GuardedHasNoBlockComment(t: string)
    requires StarsGuarded(t)
    ensures forall i :: 0 <= i <= |t| ==> !OccursAt(t, BlockComment, i)
  {
    forall i | 0 <= i <= |t|
      ensures !OccursAt(t, BlockComment, i)
    {
      if i + 2 <= |t| {
        var w := t[i..i + 2];
        assert w[0] == t[i] && w[1] == t[i + 1];
        if t[i + 1] == '*' {
          assert t[i] == '\\';
        }
      }
    }
  }

  // ---------------------------------------------------------------------
  // Escaping loses nothing
  // ---------------------------------------------------------------------

  /** Unescaping recovers the original text. */
  lemma {:induction false} EscapeTypstRoundTrip(s: string)
    ensures TypstUnescape(EscapeTypst(s)) == s
  {
    UnescapeAfterEscape(s, []);
    assert DirectEscape(s) + [] == DirectEscape(s);
  }

  /** Unescaping undoes the scan whatever text follows the escaped part. */
  lemma {:induction false} UnescapeAfterEscape(s: string, rest: string)
    ensures TypstUnescape(DirectEscape(s) + rest) == s + TypstUnescape(rest)
    decreases |s|
  {
    if s == [] {
      assert DirectEscape(s) + rest == rest;
    } else if IsTypstSpecial(s[0]) {
      UnescapeAfterEscape(s[1..], rest);
      SpecialCase(s, rest);
    } else if |s| >= 2 && s[0] == '/' && s[1] == '/' {
      UnescapeAfterEscape(s[2..], rest);
      SlashesCase(s, rest);
    } else {
      UnescapeAfterEscape(s[1..], rest);
      OtherCase(s, rest);
    }
  }

  lemma {:induction false} SpecialCase(s: string, rest: string)
    requires s != [] && IsTypstSpecial(s[0])
    requires TypstUnescape(DirectEscape(s[1..]) + rest) == s[1..] + TypstUnescape(rest)
    ensures TypstUnescape(DirectEscape(s) + rest) == s + TypstUnescape(rest)
  {
    DirectSpecial(s);
    UnescapePair(s[0], DirectEscape(s[1..]) + rest);
    UnescapeStep(['\\', s[0]], [s[0]], DirectEscape(s[1..]), s[1..], rest);
    assert s == [s[0]] + s[1..];
  }

  lemma {:induction false} SlashesCase(s: string, rest: string)
    requires |s| >= 2 && s[0] == '/' && s[1] == '/' && !IsTypstSpecial(s[0])
    requires TypstUnescape(DirectEscape(s[2..]) + rest) == s[2..] + TypstUnescape(rest)
    ensures TypstUnescape(DirectEscape(s) + rest) == s + TypstUnescape(rest)
  {
    DirectSlashes(s);
    UnescapeSlashes(DirectEscape(s[2..]) + rest);
    UnescapeStep(LineCommentEscaped, LineComment, DirectEscape(s[2..]), s[2..], rest);
    assert s == LineComment + s[2..];
  }

  lemma {:induction false} OtherCase(s: string, rest: string)
    requires s != [] && !IsTypstSpecial(s[0]) && !(|s| >= 2 && s[0] == '/' && s[1] == '/')
    requires TypstUnescape(DirectEscape(s[1..]) + rest) == s[1..] + TypstUnescape(rest)
    ensures TypstUnescape(DirectEscape(s) + rest) == s + TypstUnescape(rest)
  {
    DirectOther(s);
    UnescapeOther(s[0], DirectEscape(s[1..]) + rest);
    UnescapeStep([s[0]], [s[0]], DirectEscape(s[1..]), s[1..], rest);
    assert s == [s[0]] + s[1..];
  }

  /** Unescaping an escaped head `e` (standing for `p`) followed by an escaped
      tail `d` (standing for `q`). */
  lemma {:induction false} UnescapeStep(e: string, p: string, d: string, q: string, rest: string)
    requires TypstUnescape(e + (d + rest)) == p + TypstUnescape(d + rest)
    requires TypstUnescape(d + rest) == q + TypstUnescape(rest)
    ensures TypstUnescape((e + d) + rest) == (p + q) + TypstUnescape(rest)
  {
    assert (e + d) + rest == e + (d + rest);
    assert p + (q + TypstUnescape(rest)) == (p + q) + TypstUnescape(rest);
  }

  lemma {:induction false} DirectSpecial(s: string)
    requires s != [] && IsTypstSpecial(s[0])
    ensures DirectEscape(s) == ['\\', s[0]] + DirectEscape(s[1..])
  {
  }

  lemma {:induction false} DirectSlashes(s: string)
    requires |s| >= 2 && s[0] == '/' && s[1] == '/' && !IsTypstSpecial(s[0])
    ensures DirectEscape(s) == LineCommentEscaped + DirectEscape(s[2..])
  {
  }

  lemma {:induction false} DirectOther(s: string)
    requires s != [] && !IsTypstSpecial(s[0]) && !(|s| >= 2 && s[0] == '/' && s[1] == '/')
    ensures DirectEscape(s) == [s[0]] + DirectEscape(s[1..])
  {
  }

  lemma {:induction false} UnescapePair(c: char, t: string)
    ensures TypstUnescape(['\\', c] + t) == [c] + TypstUnescape(t)
  {
    assert (['\\', c] + t)[2..] == t;
  }

  lemma {:induction false} UnescapeSlashes(t: string)
    ensures TypstUnescape(LineCommentEscaped + t) == LineComment + TypstUnescape(t)
  {
    var u := LineCommentEscaped + t;
    assert u[1..] == ['\\', '/'] + t;
    UnescapePair('/', t);
  }

  lemma {:induction false} UnescapeOther(c: char, t: string)
    requires c != '\\'
    ensures TypstUnescape([c] + t) == [c] + TypstUnescape(t)
  {
    assert ([c] + t)[1..] == t;
  }

  /** Text without backslashes is read as it stands. */
  lemma {:induction false} UnescapeVerbatim(p: string, rest: string)
    requires forall i :: 0 <= i < |p| ==> p[i] != '\\'
    ensures TypstUnescape(p + rest) == p + TypstUnescape(rest)
    decreases |p|
  {
    if p == [] {
      assert p + rest == rest;
    } else {
      var t := p[1..] + rest;
      assert p + rest == [p[0]] + t;
      UnescapeOther(p[0], t);
      assert forall i :: 0 <= i < |p[1..]| ==> p[1..][i] == p[i + 1];
      UnescapeVerbatim(p[1..], rest);
      assert [p[0]] + (p[1..] + TypstUnescape(rest)) == p + TypstUnescape(rest);
    }
  }

  /** Escaping distributes over a concatenation whose second part does not
      start with `/`, since no `//` can then straddle the seam. */
  lemma {:induction false} DirectEscapeAppend(a: string, b: string)
    requires b == [] || b[0] != '/'
    ensures DirectEscape(a + b) == DirectEscape(a) + DirectEscape(b)
    decreases |a|
  {
    if a == [] {
      assert a + b == b;
    } else if IsTypstSpecial(a[0]) {
      DirectEscapeAppend(a[1..], b);
      SliceAppend(a, b, 1);
      JoinStep(['\\', a[0]], DirectEscape(a[1..]), DirectEscape(b), DirectEscape(a + b), DirectEscape(a));
    } else if |a| >= 2 && a[0] == '/' && a[1] == '/' {
      DirectEscapeAppend(a[2..], b);
      SliceAppend(a, b, 2);
      JoinStep(LineCommentEscaped, DirectEscape(a[2..]), DirectEscape(b), DirectEscape(a + b), DirectEscape(a));
    } else if |a| == 1 {
      AppendLast(a[0], b);
    } else {
      DirectEscapeAppend(a[1..], b);
      SliceAppend(a, b, 1);
      JoinStep([a[0]], DirectEscape(a[1..]), DirectEscape(b), DirectEscape(a + b), DirectEscape(a));
    }
  }

  lemma {:induction false} SliceAppend(a: string, b: string, k: nat)
    requires k <= |a|
    ensures (a + b)[k..] == a[k..] + b
    ensures forall i :: 0 <= i < k ==> (a + b)[i] == a[i]
  {
  }

  /** The scan wrote `e` for the same leading characters of `a` and `a + b`. */
  lemma {:induction false} JoinStep(e: string, x: string, y: string, whole: string, front: string)
    requires front == e + x
    requires whole == e + (x + y)
    ensures whole == front + y
  {
  }

  /** Text with no markup character and no `/` is copied, whatever follows. */
  lemma {:induction false} DirectVerbatim(p: string, rest: string)
    requires forall i :: 0 <= i < |p| ==> !IsTypstSpecial(p[i]) && p[i] != '/'
    ensures DirectEscape(p + rest) == p + DirectEscape(rest)
    decreases |p|
  {
    if p == [] {
      assert p + rest == rest;
    } else {
      var u := p + rest;
      assert u[0] == p[0] && u[1..] == p[1..] + rest;
      DirectVerbatim(p[1..], rest);
      assert p == [p[0]] + p[1..];
    }
  }

  /** A last character of `a` that is not a markup character. */
  lemma {:induction false} AppendLast(c: char, b: string)
    requires !IsTypstSpecial(c)
    requires b == [] || b[0] != '/'
    ensures DirectEscape([c] + b) == DirectEscape([c]) + DirectEscape(b)
  {
    var u := [c] + b;
    assert u[1..] == b;
    assert DirectEscape([c]) == [c] + DirectEscape([]);
    if |u| >= 2 {
      assert u[1] == b[0];
    }
  }

  /** Plain text, with no markup character and no `//`, passes unchanged. */
  lemma {:induction false} PlainUnchanged(s: string)
    requires forall i :: 0 <= i < |s| ==> !IsTypstSpecial(s[i])
    requires forall i :: 0 <= i < |s| - 1 ==> !(s[i] == '/' && s[i + 1] == '/')
    ensures EscapeTypst(s) == s
  {
    PlainDirect(s);
  }

  lemma {:induction false} PlainDirect(s: string)
    requires forall i :: 0 <= i < |s| ==> !IsTypstSpecial(s[i])
    requires forall i :: 0 <= i < |s| - 1 ==> !(s[i] == '/' && s[i + 1] == '/')
    ensures DirectEscape(s) == s
    decreases |s|
  {
    if s != [] {
      assert forall i :: 0 <= i < |s[1..]| ==> s[1..][i] == s[i + 1];
      PlainDirect(s[1..]);
      assert s == [s[0]] + s[1..];
    }
  }

  /** Markup characters are prefixed; a run of three slashes still contains
      `//` afterwards, because the replacement does not overlap. */
  lemma {:induction false} EscapeTypstExamples()
    ensures EscapeTypst("a*b") == "a\\*b"
    ensures EscapeTypst("///") == "/\\//"
  {
    assert DirectEscape("b") == "b";
    assert DirectEscape("*b") == "\\*b";
    assert DirectEscape("/") == "/";
    assert "///"[2..] == "/";
  }
}

=== FILE: typst_lines.dfy ===
/**
 Line-level structure of the generated Typst document. The generator opens
 a content block with a line of its own that starts with `#` and ends with
 `[` (`#columns(...)[`, `#block(...)[`) and closes it with a line that is
 exactly `]`. Lines built from user text start with `- `, `= `, `== ` or two
 spaces, so they are never taken for openers or closers.
 */
module TypstLines {

  predicate IsOpener(line: string) {
    |line| >= 2 && line[0] == '#' && line[|line| - 1] == '['
  }

  predicate IsCloser(line: string) {
    line == "]"
  }

  /** A line that starts with `#` is one of the generator's short directives;
      the document preamble is the only long one. */
  predicate ShortDirective(line: string) {
    line == [] || line[0] != '#' || |line| < 64
  }

  /** Openers minus closers. */
  function Net(lines: seq<string>): int
  {
    if lines == [] then 0
    else (if IsOpener(lines[0]) then 1 else if IsCloser(lines[0]) then -1 else 0) + Net(lines[1..])
  }

  /** Every block opened is closed, and never closed before it is opened. */
  ghost predicate Balanced(lines: seq<string>) {
    && Net(lines) == 0
    && forall k :: 0 <= k <= |lines| ==> Net(lines[..k]) >= 0
  }

  /** Neither an opener nor a closer. */
  predicate Neutral(line: string) {
    !IsOpener(line) && !IsCloser(line)
  }

  lemma {:induction false} NetAppend(a: seq<string>, b: seq<string>)
    ensures Net(a + b) == Net(a) + Net(b)
    decreases |a|
  {
    if a != [] {
      assert (a + b)[1..] == a[1..] + b;
      NetAppend(a[1..], b);
    } else {
      assert a + b == b;
    }
  }

  lemma {:induction false} NetNeutral(lines: seq<string>)
    requires forall i :: 0 <= i < |lines| ==> Neutral(lines[i])
    ensures Net(lines) == 0
    decreases |lines|
  {
    if lines != [] {
      assert Neutral(lines[0]);
      NetNeutral(lines[1..]);
    }
  }

  /** Lines that neither open nor close a block are balanced. */
  lemma {:induction false} NeutralBalanced(lines: seq<string>)
    requires forall i :: 0 <= i < |lines| ==> Neutral(lines[i])
    ensures Balanced(lines)
  {
    NetNeutral(lines);
    forall k | 0 <= k <= |lines|
      ensures Net(lines[..k]) >= 0
    {
      NetNeutral(lines[..k]);
    }
  }

  lemma {:induction false} BalancedAppend(a: seq<string>, b: seq<string>)
    requires Balanced(a) && Balanced(b)
    ensures Balanced(a + b)
  {
    NetAppend(a, b);
    forall k | 0 <= k <= |a + b|
      ensures Net((a + b)[..k]) >= 0
    {
      if k <= |a| {
        assert (a + b)[..k] == a[..k];
      } else {
        assert (a + b)[..k] == a + b[..k - |a|];
        NetAppend(a, b[..k - |a|]);
        assert a[..|a|] == a;
      }
    }
  }

  /** An opener, a balanced body and a closer form a balanced block. */
  lemma {:induction false} BalancedWrap(opener: string, body: seq<string>)
    requires IsOpener(opener) && Balanced(body)
    ensures Balanced([opener] + body + ["]"])
  {
    var r := [opener] + body + ["]"];
    NetAppend([opener] + body, ["]"]);
    NetAppend([opener], body);
    forall k | 0 <= k <= |r|
      ensures Net(r[..k]) >= 0
    {
      if k == |r| {
        assert r[..k] == r;
      } else if k > 0 {
        assert r[..k] == [opener] + body[..k - 1];
        NetAppend([opener], body[..k - 1]);
      }
    }
  }

  /** Wraps `body` in `opener` ... `]` exactly when `wrap` holds. */
  function WrapIf(wrap: bool, opener: string, body: seq<string>): (r: seq<string>)
    requires IsOpener(opener)
    ensures Balanced(body) ==> Balanced(r)
    ensures wrap ==> |r| == |body| + 2 && r[0] == opener && r[|r| - 1] == "]"
    ensures wrap ==> r[1..|r| - 1] == body
    ensures !wrap ==> r == body
  {
    if wrap then
      BalancedWrapIf(opener, body);
      assert ([opener] + body + ["]"])[1..|body| + 1] == body;
      [opener] + body + ["]"]
    else body
  }

  /** Seen inside surrounding lines `pre` and `post`, the wrapped body sits
      between the opener and its `]`. */
  lemma {:induction false} WrapInside(pre: seq<string>, wrap: bool, opener: string, body: seq<string>, post: seq<string>)
    requires IsOpener(opener)
    ensures var r := pre + WrapIf(wrap, opener, body) + post;
            var c := if wrap then 1 else 0;
            && |r| == |pre| + c + |body| + c + |post|
            && r[|pre| + c..|r| - |post| - c] == body
            && (wrap ==> r[|pre|] == opener && r[|r| - |post| - 1] == "]")
  {
    var w := WrapIf(wrap, opener, body);
    var r := pre + w + post;
    var c := if wrap then 1 else 0;
    assert r[|pre|..|pre| + |w|] == w;
    assert r[|pre| + c..|r| - |post| - c] == w[c..|w| - c];
    if wrap {
      assert r[|pre|] == w[0];
      assert r[|r| - |post| - 1] == w[|w| - 1];
    }
  }

  lemma {:induction false} BalancedWrapIf(opener: string, body: seq<string>)
    requires IsOpener(opener)
    ensures Balanced(body) ==> Balanced([opener] + body + ["]"])
  {
    if Balanced(body) {
      BalancedWrap(opener, body);
    }
  }
}

=== FILE: workbook.dfy ===
/**
 The in-memory workbook and the two steps that read it: extracting song
 records from a worksheet (`parse_sheet`) and choosing the order in which
 worksheets are rendered (`get_sheets_to_process`). The spreadsheet file
 reader is replaced by a sequence of named sheets, each a grid of cells
 that are either absent or hold a string.
 */
module Workbook {
  import opened Strings
  import opened Optional
  import opened Subsequences

  type Row = seq<Option<string>>

  datatype Sheet = Sheet(name: string, rows: seq<Row>)

  /** One extracted record: artist and source may be empty, the title may not. */
  datatype Song = Song(artist: string, title: string, source: string)

  /** A worksheet name with the records extracted from it. */
  datatype Section = Section(name: string, songs: seq<Song>)

  /** The positions of the three recognised columns, each possibly absent. */
  datatype Columns = Columns(artist: Option<nat>, title: Option<nat>, source: Option<nat>)

  /** The priority list used when the caller supplies none. */
  const DefaultOrder: seq<string> :=
    ["Anime", "Japani", "Korea", "Kiina", "My Little Pony", "Disney", "Englanti", "Suomi", "Muut"]

  // ---------------------------------------------------------------------
  // Row extraction
  // ---------------------------------------------------------------------

  /** A header cell as matched: lower-cased text, or "" for an empty cell. */
  function HeaderCell(c: Option<string>): string {
    match c
    case Some(h) => if h != "" then Lower(h) else ""
    case None => ""
  }

  function Header(row: Row): (r: seq<string>)
    ensures |r| == |row|
    ensures forall i :: 0 <= i < |row| ==> r[i] == HeaderCell(row[i])
  {
    seq(|row|, i requires 0 <= i < |row| => HeaderCell(row[i]))
  }

  /** Python's `header.index(name) if name in header else None`:
      the first matching position wins. */
  function ColumnOf(header: seq<string>, name: string): (r: Option<nat>)
    ensures r.None? <==> name !in header
    ensures r.Some? ==> r.value < |header| && header[r.value] == name
    ensures r.Some? ==> forall j :: 0 <= j < r.value ==> header[j] != name
  {
    if header == [] then None
    else if header[0] == name then Some(0)
    else
      match ColumnOf(header[1..], name)
      case None => None
      case Some(k) => Some(k + 1)
  }

  function ColumnsOf(headerRow: Row): Columns {
    var header := Header(headerRow);
    Columns(ColumnOf(header, "artist"), ColumnOf(header, "title"), ColumnOf(header, "source"))
  }

  /** The cell of `row` in column `col`; absent when the column is absent.
      A spreadsheet row is as wide as the sheet, so a position past the end
      of a shorter row reads as an empty cell. */
  function CellAt(row: Row, col: Option<nat>): Option<string> {
    match col
    case None => None
    case Some(k) => if k < |row| then row[k] else None
  }

  /** Python's `value or ""` for an optional string cell. */
  function OrEmpty(c: Option<string>): string {
    match c
    case Some(v) => v
    case None => ""
  }

  /** Python's truth test `if title:` on the title cell. */
  predicate HasTitle(row: Row, col: Option<nat>) {
    CellAt(row, col).Some? && CellAt(row, col).value != ""
  }

  /** The data rows that carry a title, in order. */
  function TitledRows(rows: seq<Row>, col: Option<nat>): (r: seq<Row>)
    ensures forall i :: 0 <= i < |r| ==> HasTitle(r[i], col)
    ensures SubsequenceOf(r, rows)
    ensures forall x :: multiset(r)[x] == if HasTitle(x, col) then multiset(rows)[x] else 0
    decreases |rows|
  {
    if rows == [] then []
    else
      var t := TitledRows(rows[1..], col);
      var r := (if HasTitle(rows[0], col) then [rows[0]] else []) + t;
      FilterStep(rows, t, r, HasTitle(rows[0], col));
      r
  }

  /** One step of a filter: the head is kept (`keep`) or dropped, the tail's
      filter `t` is already a subsequence holding the kept rows. */
  lemma {:induction false} FilterStep<T>(s: seq<T>, t: seq<T>, r: seq<T>, keep: bool)
    requires s != []
    requires r == (if keep then [s[0]] else []) + t
    requires SubsequenceOf(t, s[1..])
    ensures SubsequenceOf(r, s)
    ensures multiset(r) == (if keep then multiset{s[0]} else multiset{}) + multiset(t)
    ensures multiset(s) == multiset{s[0]} + multiset(s[1..])
  {
    assert s == [s[0]] + s[1..];
    if keep {
      assert r[0] == s[0] && r[1..] == t;
    } else {
      assert r == t;
    }
  }

  lemma {:induction false} NoTitleColumnNoRows(rows: seq<Row>)
    ensures TitledRows(rows, None) == []
  {
    if rows != [] {
      NoTitleColumnNoRows(rows[1..]);
    }
  }

  /** The loop over data rows: one record per titled row, in row order. */
  function ParseRows(rows: seq<Row>, cols: Columns): (r: seq<Song>)
    ensures |r| == |TitledRows(rows, cols.title)|
    ensures forall i :: 0 <= i < |r| ==>
              var row := TitledRows(rows, cols.title)[i];
              && r[i].title == CellAt(row, cols.title).value
              && r[i].artist == OrEmpty(CellAt(row, cols.artist))
              && r[i].source == OrEmpty(CellAt(row, cols.source))
  {
    if rows == [] then []
    else
      var row := rows[0];
      var here := if HasTitle(row, cols.title)
                  then [Song(OrEmpty(CellAt(row, cols.artist)), CellAt(row, cols.title).value,
                             OrEmpty(CellAt(row, cols.source)))]
                  else [];
      here + ParseRows(rows[1..], cols)
  }

  /** `parse_sheet`: the first row is the header, every later row is data. */
  function ParseSheet(rows: seq<Row>): (r: seq<Song>)
    ensures rows == [] ==> r == []
    ensures rows != [] && "title" !in Header(rows[0]) ==> r == []
    ensures forall i :: 0 <= i < |r| ==> r[i].title != ""
    ensures rows != [] ==>
              var cols := ColumnsOf(rows[0]);
              var titled := TitledRows(rows[1..], cols.title);
              && |r| == |titled|
              && forall i :: 0 <= i < |r| ==>
                   && r[i].title == CellAt(titled[i], cols.title).value
                   && r[i].artist == OrEmpty(CellAt(titled[i], cols.artist))
                   && r[i].source == OrEmpty(CellAt(titled[i], cols.source))
  {
    if rows == [] then []
    else
      var cols := ColumnsOf(rows[0]);
      NoTitleColumnNoRows(rows[1..]);
      ParseRows(rows[1..], cols)
  }

  /** A worksheet whose header names the columns in another case and order
      than the lower-case names, with an untitled row and a row without an
      artist. */
  lemma {:induction false} ParseSheetExample()
    ensures ParseSheet(ExampleSheet()) == [Song("Bob", "Song A", ""), Song("", "Song B", "")]
  {
    ExampleColumns();
    ExampleData();
  }

  function ExampleSheet(): seq<Row> {
    [
      [Some("Title"), Some("ARTIST"), None],
      [Some("Song A"), Some("Bob"), Some("x")],
      [Some(""), Some("Ann"), None],
      [Some("Song B"), None]
    ]
  }

  lemma {:induction false} ExampleColumns()
    ensures ColumnsOf(ExampleSheet()[0]) == Columns(Some(1), Some(0), None)
  {
    ExampleHeader();
    HeaderColumns("title", "artist", "");
  }

  lemma {:induction false} ExampleHeader()
    ensures Header(ExampleSheet()[0]) == ["title", "artist", ""]
  {
    assert Lower("Title") == "title";
    assert Lower("ARTIST") == "artist";
  }

  /** A header of a title, an artist and a third column that is not `source`. */
  lemma {:induction false} HeaderColumns(t: string, a: string, other: string)
    requires t == "title" && a == "artist" && other != "source"
    ensures ColumnOf([t, a, other], "artist") == Some(1)
    ensures ColumnOf([t, a, other], "title") == Some(0)
    ensures ColumnOf([t, a, other], "source") == None
  {
    assert t != "artist" && t != "source" && a != "source";
  }

  lemma {:induction false} ExampleData()
    ensures ParseRows(ExampleSheet()[1..], Columns(Some(1), Some(0), None))
         == [Song("Bob", "Song A", ""), Song("", "Song B", "")]
  {
    var cols := Columns(Some(1), Some(0), None);
    var a: Row := [Some("Song A"), Some("Bob"), Some("x")];
    var b: Row := [Some(""), Some("Ann"), None];
    var c: Row := [Some("Song B"), None];
    assert ExampleSheet()[1..] == [a, b, c];
    ParseThree(a, b, c, cols);
  }

  /** Three data rows of which the middle one has no title. */
  lemma {:induction false} ParseThree(a: Row, b: Row, c: Row, cols: Columns)
    requires HasTitle(a, cols.title) && !HasTitle(b, cols.title) && HasTitle(c, cols.title)
    ensures ParseRows([a, b, c], cols)
         == [Song(OrEmpty(CellAt(a, cols.artist)), CellAt(a, cols.title).value, OrEmpty(CellAt(a, cols.source))),
             Song(OrEmpty(CellAt(c, cols.artist)), CellAt(c, cols.title).value, OrEmpty(CellAt(c, cols.source)))]
  {
    assert [a, b, c][1..] == [b, c];
    assert [b, c][1..] == [c];
    assert [c][1..] == [];
  }

  // ---------------------------------------------------------------------
  // Section sequencing
  // ---------------------------------------------------------------------

  ghost predicate Distinct(s: seq<string>) {
    forall i, j :: 0 <= i < j < |s| ==> s[i] != s[j]
  }

  /** The first loop: the priority names present in the workbook, in
      priority order (a repeated priority name is kept each time). */
  function PresentNames(order: seq<string>, names: seq<string>): (r: seq<string>)
  {
    if order == [] then []
    else (if order[0] in names then [order[0]] else []) + PresentNames(order[1..], names)
  }

  /** The elements of `s` that are not in `excluded`, in order. */
  function Without(s: seq<string>, excluded: seq<string>): (r: seq<string>)
  {
    if s == [] then []
    else (if s[0] !in excluded then [s[0]] else []) + Without(s[1..], excluded)
  }

  /** The second loop: append each workbook name not yet in the list; the
      list grows as the loop runs. */
  function AppendMissing(acc: seq<string>, names: seq<string>): (r: seq<string>)
    ensures |acc| <= |r| && r[..|acc|] == acc
    decreases |names|
  {
    if names == [] then acc
    else AppendMissing(if names[0] in acc then acc else acc + [names[0]], names[1..])
  }

  /** `get_sheets_to_process`. */
  function SheetsToProcess(names: seq<string>, order: seq<string>): (r: seq<string>)
    ensures forall x :: x in r <==> x in names
    ensures var p := PresentNames(order, names); |p| <= |r| && r[..|p|] == p
    ensures Distinct(names) ==>
              var p := PresentNames(order, names); r[|p|..] == Without(names, order)
  {
    var p := PresentNames(order, names);
    PresentNamesMembers(order, names);
    AppendMissingMembers(p, names);
    RemainingNames(p, names, order);
    AppendMissing(p, names)
  }

  lemma {:induction false} PresentNamesMembers(order: seq<string>, names: seq<string>)
    ensures forall x :: x in PresentNames(order, names) <==> x in order && x in names
    decreases |order|
  {
    if order != [] {
      PresentNamesMembers(order[1..], names);
      assert order == [order[0]] + order[1..];
    }
  }

  lemma {:induction false} KeptMembers(s: seq<string>, included: seq<string>)
    ensures forall x :: x in Kept(s, included) <==> x in s && x in included
    decreases |s|
  {
    if s != [] {
      KeptMembers(s[1..], included);
      assert s == [s[0]] + s[1..];
    }
  }

  lemma {:induction false} AppendMissingMembers(acc: seq<string>, names: seq<string>)
    ensures forall x :: x in AppendMissing(acc, names) <==> x in acc || x in names
    decreases |names|
  {
    if names != [] {
      AppendMissingMembers(if names[0] in acc then acc else acc + [names[0]], names[1..]);
      assert names == [names[0]] + names[1..];
    }
  }

  lemma {:induction false} RemainingNames(p: seq<string>, names: seq<string>, order: seq<string>)
    requires p == PresentNames(order, names)
    ensures Distinct(names) ==> AppendMissing(p, names)[|p|..] == Without(names, order)
  {
    if Distinct(names) {
      PresentNamesMembers(order, names);
      AppendMissingDistinct(p, names);
      WithoutSameMembers(names, p, order);
    }
  }

  lemma {:induction false} AppendMissingDistinct(acc: seq<string>, names: seq<string>)
    requires Distinct(names)
    ensures AppendMissing(acc, names) == acc + Without(names, acc)
    decreases |names|
  {
    if names != [] {
      var n, rest := names[0], names[1..];
      assert Distinct(rest);
      if n in acc {
        AppendMissingDistinct(acc, rest);
        AppendMissingKnown(acc, names);
      } else {
        AppendMissingDistinct(acc + [n], rest);
        HeadNotInTail(names);
        AppendMissingNew(acc, names);
      }
    }
  }

  /** The step of `AppendMissingDistinct` for a name already collected. */
  lemma {:induction false} AppendMissingKnown(acc: seq<string>, names: seq<string>)
    requires names != [] && names[0] in acc
    requires AppendMissing(acc, names[1..]) == acc + Without(names[1..], acc)
    ensures AppendMissing(acc, names) == acc + Without(names, acc)
  {
  }

  /** The step of `AppendMissingDistinct` for a name not yet collected. */
  lemma {:induction false} AppendMissingNew(acc: seq<string>, names: seq<string>)
    requires names != [] && names[0] !in acc && names[0] !in names[1..]
    requires AppendMissing(acc + [names[0]], names[1..]) == acc + [names[0]] + Without(names[1..], acc + [names[0]])
    ensures AppendMissing(acc, names) == acc + Without(names, acc)
  {
    var n, rest := names[0], names[1..];
    var w := Without(rest, acc);
    AppendMissingUnfold(acc, names);
    WithoutUnfold(names, acc);
    WithoutExtended(rest, acc, n);
    ConcatAssoc(acc, [n], w);
  }

  lemma {:induction false} ConcatAssoc(a: seq<string>, b: seq<string>, c: seq<string>)
    ensures a + b + c == a + (b + c)
  {
  }

  lemma {:induction false} AppendMissingUnfold(acc: seq<string>, names: seq<string>)
    requires names != [] && names[0] !in acc
    ensures AppendMissing(acc, names) == AppendMissing(acc + [names[0]], names[1..])
  {
  }

  lemma {:induction false} WithoutUnfold(names: seq<string>, excluded: seq<string>)
    requires names != [] && names[0] !in excluded
    ensures Without(names, excluded) == [names[0]] + Without(names[1..], excluded)
  {
  }

  lemma {:induction false} HeadNotInTail(s: seq<string>)
    requires s != [] && Distinct(s)
    ensures s[0] !in s[1..]
  {
  }

  /** Excluding one more name that does not occur changes nothing. */
  lemma {:induction false} WithoutExtended(s: seq<string>, excluded: seq<string>, n: string)
    requires n !in s
    ensures Without(s, excluded + [n]) == Without(s, excluded)
  {
    forall x | x in s
      ensures x in excluded + [n] <==> x in excluded
    {
    }
    WithoutSameMembers(s, excluded + [n], excluded);
  }

  lemma {:induction false} WithoutSameMembers(s: seq<string>, a: seq<string>, b: seq<string>)
    requires forall x :: x in s ==> (x in a <==> x in b)
    ensures Without(s, a) == Without(s, b)
    decreases |s|
  {
    if s != [] {
      WithoutSameMembers(s[1..], a, b);
    }
  }

  /** With distinct priority names and distinct sheet names, every sheet is
      rendered exactly once. */
  lemma {:induction false} SheetsToProcessIsPermutation(names: seq<string>, order: seq<string>)
    requires Distinct(names) && Distinct(order)
    ensures multiset(SheetsToProcess(names, order)) == multiset(names)
  {
    var p := PresentNames(order, names);
    var r := SheetsToProcess(names, order);
    assert r == r[..|p|] + r[|p|..];
    PresentNamesDistinct(order, names);
    PresentNamesMembers(order, names);
    KeptMembers(names, order);
    DistinctKept(names, order);
    DistinctSameMembers(p, Kept(names, order));
    KeptWithoutSplit(names, order);
  }

  /** The elements of `s` that are in `included`, in order. */
  function Kept(s: seq<string>, included: seq<string>): (r: seq<string>)
  {
    if s == [] then []
    else (if s[0] in included then [s[0]] else []) + Kept(s[1..], included)
  }

  lemma {:induction false} PresentNamesDistinct(order: seq<string>, names: seq<string>)
    requires Distinct(order)
    ensures Distinct(PresentNames(order, names))
    decreases |order|
  {
    if order != [] {
      assert Distinct(order[1..]);
      PresentNamesDistinct(order[1..], names);
      PresentNamesMembers(order[1..], names);
      DistinctPrepend(order[0], PresentNames(order[1..], names));
    }
  }

  lemma {:induction false} DistinctKept(s: seq<string>, included: seq<string>)
    requires Distinct(s)
    ensures Distinct(Kept(s, included))
    decreases |s|
  {
    if s != [] {
      assert Distinct(s[1..]);
      DistinctKept(s[1..], included);
      KeptMembers(s[1..], included);
      DistinctPrepend(s[0], Kept(s[1..], included));
    }
  }

  lemma {:induction false} DistinctPrepend(x: string, s: seq<string>)
    requires Distinct(s) && x !in s
    ensures Distinct([x] + s)
  {
    var r := [x] + s;
    forall i, j | 0 <= i < j < |r|
      ensures r[i] != r[j]
    {
      assert r[j] == s[j - 1];
      if i > 0 {
        assert r[i] == s[i - 1];
      }
    }
  }

  /** Two duplicate-free lists with the same members are permutations of each other. */
  lemma {:induction false} DistinctSameMembers(a: seq<string>, b: seq<string>)
    requires Distinct(a) && Distinct(b)
    requires forall x :: x in a <==> x in b
    ensures multiset(a) == multiset(b)
  {
    DistinctCounts(a);
    DistinctCounts(b);
    forall x
      ensures multiset(a)[x] == multiset(b)[x]
    {
    }
  }

  lemma {:induction false} DistinctCounts(s: seq<string>)
    requires Distinct(s)
    ensures forall x :: multiset(s)[x] == if x in s then 1 else 0
    decreases |s|
  {
    if s != [] {
      assert Distinct(s[1..]);
      DistinctCounts(s[1..]);
      assert s == [s[0]] + s[1..];
    }
  }

  lemma {:induction false} KeptWithoutSplit(s: seq<string>, other: seq<string>)
    ensures multiset(Kept(s, other)) + multiset(Without(s, other)) == multiset(s)
    decreases |s|
  {
    if s != [] {
      KeptWithoutSplit(s[1..], other);
      assert s == [s[0]] + s[1..];
    }
  }

  /** A workbook whose sheets are "Muut", "Anime", "Extra", with the default
      priority list. */
  lemma {:induction false} SheetsToProcessExample()
    ensures SheetsToProcess(["Muut", "Anime", "Extra"], DefaultOrder) == ["Anime", "Muut", "Extra"]
  {
    var names := ["Muut", "Anime", "Extra"];
    ExampleAbsent();
    PresentNamesShape(DefaultOrder, names);
    SheetsShape("Muut", "Anime", "Extra", DefaultOrder);
  }

  /** None of the middle priority names is a sheet of the example workbook. */
  lemma {:induction false} ExampleAbsent()
    ensures forall i :: 1 <= i < 8 ==> DefaultOrder[i] !in ["Muut", "Anime", "Extra"]
  {
  }

  /** A nine-name priority list of which only the first and the last are sheets. */
  lemma {:induction false} PresentNamesShape(order: seq<string>, names: seq<string>)
    requires |order| == 9 && order[0] in names && order[8] in names
    requires forall i :: 1 <= i < 8 ==> order[i] !in names
    ensures PresentNames(order, names) == [order[0], order[8]]
  {
    var mid := order[1..8];
    assert order[1..] == mid + [order[8]];
    PresentNamesSkip(mid, [order[8]], names);
    assert PresentNames([order[8]], names) == [order[8]] + PresentNames([], names);
    assert PresentNames(order, names) == [order[0]] + PresentNames(order[1..], names);
  }

  /** Three distinct sheets of which the priority list names the second, then the first. */
  lemma {:induction false} SheetsShape(x: string, y: string, z: string, order: seq<string>)
    requires x != y && z != x && z != y
    requires PresentNames(order, [x, y, z]) == [y, x]
    ensures SheetsToProcess([x, y, z], order) == [y, x, z]
  {
    var names := [x, y, z];
    var p := [y, x];
    assert names[1..] == [y, z] && [y, z][1..] == [z] && [z][1..] == [];
    assert AppendMissing(p, names) == AppendMissing(p, [y, z]);
    assert AppendMissing(p, [y, z]) == AppendMissing(p, [z]);
    assert AppendMissing(p, [z]) == AppendMissing(p + [z], []);
  }

  lemma {:induction false} PresentNamesSkip(skip: seq<string>, rest: seq<string>, names: seq<string>)
    requires forall x :: x in skip ==> x !in names
    ensures PresentNames(skip + rest, names) == PresentNames(rest, names)
    decreases |skip|
  {
    if skip != [] {
      assert (skip + rest)[0] == skip[0] && skip[0] in skip;
      assert (skip + rest)[1..] == skip[1..] + rest;
      PresentNamesSkip(skip[1..], rest, names);
    } else {
      assert skip + rest == rest;
    }
  }

  // ---------------------------------------------------------------------
  // The workbook as the renderers see it
  // ---------------------------------------------------------------------

  function Names(wb: seq<Sheet>): (r: seq<string>)
    ensures |r| == |wb|
    ensures forall i :: 0 <= i < |wb| ==> r[i] == wb[i].name
  {
    seq(|wb|, i requires 0 <= i < |wb| => wb[i].name)
  }

  /** `wb[name]`: the first sheet carrying that name. */
  function Lookup(wb: seq<Sheet>, name: string): (r: Sheet)
    requires name in Names(wb)
    ensures r in wb && r.name == name
  {
    if wb[0].name == name then wb[0]
    else
      assert Names(wb) == [wb[0].name] + Names(wb[1..]);
      Lookup(wb[1..], name)
  }

  /** The caller's priority list, or the default one when none is given. */
  function OrderOrDefault(order: Option<seq<string>>): seq<string> {
    match order
    case Some(o) => o
    case None => DefaultOrder
  }

  /** Every sheet to process, in processing order, with its extracted records
      (possibly none). */
  function Sections(wb: seq<Sheet>, order: Option<seq<string>>): (r: seq<Section>)
    ensures var names := SheetsToProcess(Names(wb), OrderOrDefault(order));
            && |r| == |names|
            && forall i :: 0 <= i < |r| ==>
                 && r[i].name == names[i]
                 && r[i].name in Names(wb)
                 && r[i].songs == ParseSheet(Lookup(wb, r[i].name).rows)
  {
    var names := SheetsToProcess(Names(wb), OrderOrDefault(order));
    seq(|names|, i requires 0 <= i < |names| => Section(names[i], ParseSheet(Lookup(wb, names[i]).rows)))
  }

  /** The song count of all sections together. */
  function TotalSongs(secs: seq<Section>): nat
  {
    if secs == [] then 0 else |secs[0].songs| + TotalSongs(secs[1..])
  }

  /** The worksheets that have songs, in order. */
  function NonEmptySections(secs: seq<Section>): (r: seq<Section>)
    ensures forall i :: 0 <= i < |r| ==> r[i].songs != []
    ensures SubsequenceOf(r, secs)
    ensures forall x :: multiset(r)[x] == if x.songs != [] then multiset(secs)[x] else 0
    ensures TotalSongs(r) == TotalSongs(secs)
    decreases |secs|
  {
    if secs == [] then []
    else
      var t := NonEmptySections(secs[1..]);
      var r := (if secs[0].songs != [] then [secs[0]] else []) + t;
      FilterStep(secs, t, r, secs[0].songs != []);
      TotalSongsStep(secs, t, r);
      r
  }

  lemma {:induction false} TotalSongsStep(secs: seq<Section>, t: seq<Section>, r: seq<Section>)
    requires secs != []
    requires r == (if secs[0].songs != [] then [secs[0]] else []) + t
    requires TotalSongs(t) == TotalSongs(secs[1..])
    ensures TotalSongs(r) == TotalSongs(secs)
  {
    if secs[0].songs != [] {
      assert r[1..] == t;
    } else {
      assert r == t;
    }
  }
}
